=== FILE: README.md ===
# Society management: verified model of the request-handling core

The system is a PHP web application for a housing society. It has four account roles:
- `society_admin` and `society_pramukh` work at the level of a society;
- `building_admin` and `member` work at the level of one building inside a society.

This project models the parts of the application that make decisions:
- the access-control kernel in `backend/config/auth.php`;
- the login decision;
- the fund ledgers and their cached totals;
- the form validation and list transformations of the CRUD screens: buildings, users, members and maintenance;
- the building dashboard's activity feed.

Each screen's POST handler is modelled as a pure function. It takes the whole database as an immutable `Schema.Db` record and returns a `Schema.PostResult`. That result holds:
- the database after the request;
- the flash success or error message;
- whether the form was cleared.

A rejected request (`Schema.Reject`) leaves the database unchanged. A guard that ends the request (`redirect_to`, `json_error`) is an `Auth.Outcome`, and the guarded handler runs only on `Proceed`.

Foreign calls are fields of `Schema.Env` and are treated as uninterpreted functions:
- `password_hash` and `password_verify`;
- `FILTER_VALIDATE_EMAIL`;
- `strtotime` as a date check;
- today's date and the current time.

A failing database transaction is a parameter: `fault` or `Ledger.TxFault`. Amounts are integer minor units.

Modules, one per file:

| file | module | models |
|---|---|---|
| wrappers.dfy | Wrappers | `Option` |
| php_strings.dfy | PhpStrings | `trim`, `strtolower`, `empty()`, `input_string`, `strcmp` order, decimal rendering |
| schema.dfy | Schema | tables, session snapshot, roles, shared predicates |
| auth.dfy | Auth | `backend/config/auth.php` |
| login.dfy | Login | `backend/auth/login.php` |
| ledger.dfy | Ledger | fund types, signed deltas, balance, the transactional double write |
| society_fund.dfy | SocietyFund | `backend/admin/society_fund.php` |
| building_fund.dfy | BuildingFund | `backend/building/fund.php` |
| admin_api.dfy | AdminApi | `backend/admin/api_example.php` |
| dashboard.dfy | BuildingDashboard | `backend/building/dashboard.php` |
| maintenance.dfy | Maintenance | `backend/building/maintenance.php` |
| filtering.dfy | Filtering | order-preserving filter of a name list, with source positions |
| buildings.dfy | Buildings | `backend/admin/buildings.php` |
| users.dfy | Users | `backend/admin/users.php` |
| members.dfy | Members | `backend/building/members.php` |

## Model

| member | source | states |
|---|---|---|
| Schema.ParseRole | backend/config/auth.php:170-187 | A role string is recognised only when it is exactly the name of one of the four roles. |
| Schema.RoleNameRoundTrip | backend/config/auth.php:283-329 | Every role's name parses back to that role, so the role table has no aliases. |
| Schema.BuildingSociety | backend/building/members.php:17-23 | The society looked up for a building is the society of a row with that id; there is none when no such row exists. |
| Schema.Reject | backend/admin/buildings.php:17-26 | A rejected POST writes nothing, sets only the error message and keeps the form. |
| PhpStrings.Trim | backend/config/auth.php:348-355 | trim() never lengthens its input, and its result neither starts nor ends with a trim character. It is empty exactly when every character is a trim character. |
| PhpStrings.TrimStrips | backend/config/auth.php:348-355 | trim() removes characters from the two ends only: its result is the infix of the input at some position, and every character before and after that infix is a trim character. |
| PhpStrings.TrimIdempotent | backend/config/auth.php:348-355 | Trimming twice is the same as trimming once. |
| PhpStrings.InputString | backend/config/auth.php:348-355 | input_string keeps a prefix of the trimmed value no longer than the limit. It is the whole trimmed value when that fits, and it is empty only when the trimmed value is. |
| PhpStrings.ToLower | backend/admin/buildings.php:60-71 | strtolower lowers each character in place and keeps the length. |
| PhpStrings.NatToStringRoundTrip | backend/building/maintenance.php:84 | The decimal rendering of a count reads back as that count. |
| PhpStrings.NatToStringInjective | backend/building/members.php:29-32 | Different numbers render differently. |
| PhpStrings.LeadingDigitsOfDigitsThenOther | backend/building/members.php:29-32 | The digits at the head of "digits + non-digit suffix" are exactly those digits. This is how a demo email's index is read back. |
| PhpStrings.StrLeTotal | backend/building/dashboard.php:134-136 | strcmp order is total. |
| PhpStrings.StrLeTrans | backend/building/dashboard.php:134-136 | strcmp order is transitive. |
| Auth.StartSession | backend/config/auth.php:6-13 | The session id is rotated exactly when it was never rotated or was last rotated more than 1800 s ago. A rotation records `now`; session data is kept; otherwise nothing changes. |
| Auth.RotationSettles | backend/config/auth.php:6-13 | After a rotation, every request within the next 30 minutes keeps the same session id. |
| Auth.GenerateCsrfToken | backend/config/auth.php:16-21 | A present token is returned and kept. An empty one is replaced by the fresh token. The returned token is always the stored one. |
| Auth.ValidateCsrfToken | backend/config/auth.php:23-28 | Valid exactly when the session token is non-empty and the candidate is present and equal to it. |
| Auth.CsrfIssuedTokenIsStable | backend/config/auth.php:16-28 | An issued token validates, and later calls never replace it. |
| Auth.CsrfRejections | backend/config/auth.php:23-28 | A missing or empty candidate, an empty session token and a mismatch all fail. |
| Auth.IsLoggedIn | backend/config/auth.php:120-145 | Logged in iff a user snapshot has a positive id, a non-empty role and status 'active', where a missing status counts as 'active'. |
| Auth.RedirectByRole | backend/config/auth.php:283-329 | A visitor who is not logged in goes to login. A logged-in user goes to their role's landing page when the role is known and its scope id is positive, and to logout otherwise. |
| Auth.RoleAllowed | backend/config/auth.php:170-187 | Exact membership of the role string among the names of the allowed roles. |
| Auth.RequireRole | backend/config/auth.php:147-187 | The handler proceeds, with the session user, iff logged in with an allowed role. Otherwise the answer is 401 or login when not logged in. A logged-in user with another role gets 403 (AJAX) or a redirect to a page chosen from their own role, never the login page. |
| Auth.RequireSocietyScope | backend/config/auth.php:190-214 | Proceeds iff logged in as society_admin or society_pramukh with a positive society id, and returns that id. Every other logged-in case is 403 or logout. |
| Auth.RequireBuildingScope | backend/config/auth.php:216-240 | Proceeds iff logged in as building_admin or member with a positive building id, and returns that id. Every other logged-in case is 403 or logout. |
| Auth.ScopesAreExclusive | backend/config/auth.php:190-240 | No session resolves to both a society scope and a building scope. |
| Auth.VerifySocietyOwnership | backend/config/auth.php:243-257 | True iff the role is society-level and the session's society id equals the resource's. Building roles always get false. |
| Auth.CountBuildings | backend/config/auth.php:273-277 | The COUNT(*) is positive iff a building with that id belongs to that society. |
| Auth.VerifyBuildingOwnership | backend/config/auth.php:259-281 | Building roles own exactly their own building. Both society roles own the buildings of their society. Unknown roles and a missing user own nothing. |
| Auth.ScopeOwnsItself | backend/config/auth.php:190-281 | A resolved society scope passes the society ownership check, and its building ownership is society membership. A resolved building scope owns its building and no other, and owns no society. |
| Auth.LandingPageIsReachable | backend/config/auth.php:170-329 | A logged-in user whose scope id is positive lands on their role's page, and that page's role and scope guards let them in. |
| Auth.GuardSociety | backend/config/auth.php:170-214 | The society-screen preamble proceeds iff logged in with an allowed society role and a positive society id. |
| Auth.GuardBuilding | backend/config/auth.php:170-240 | The building-screen preamble proceeds iff logged in with an allowed building role and a positive building id. |
| Auth.ScopeScenario | backend/config/auth.php:190-281 | The admin of society 7 resolves scope 7 but does not own building 42 of society 9, and cannot resolve a building scope. The admin of building 42 resolves scope 42. |
| Auth.CeilDivBounds | backend/config/auth.php:392-393 | page < ceil(n/d) iff page·d < n. |
| Auth.Window | backend/config/auth.php:382-385 | The LIMIT/OFFSET window holds at most perPage rows, each the row at offset + k of the full result, and rows remain after it iff offset + perPage is less than the total. |
| Auth.Paginate | backend/config/auth.php:370-395 | The page is clamped to at least 1. Each returned row is the row at offset (page−1)·perPage + k, with at most perPage rows. has_more holds iff rows remain after the page, iff page < total_pages. total_pages is ceil(total / perPage): the one count with (total_pages − 1)·perPage < total ≤ total_pages·perPage. |
| Auth.PaginateCovers | backend/config/auth.php:370-395 | Every row appears on the page its index says, at the position its index says. |
| Auth.CeilDivPinned | backend/config/auth.php:393 | (n + d − 1) div d is ceil(n / d): the one count q ≥ 0 with (q − 1)·d < n ≤ q·d. |
| Login.FindUserByEmail | backend/auth/login.php:18-20 | The found row has the email and is the first such row; nothing is found iff no row has the email. |
| Login.HandleLogin | backend/auth/login.php:5-43 | A logged-in visitor is redirected by role and nothing else happens. "Email and password are required." is shown iff a field is empty. "Invalid login." is shown iff the credentials do not verify. A GET shows the empty form. Once the credentials verify, the result is a redirect iff the stored status is 'active', and "Account is inactive." otherwise; that message appears in no other case. Success stores the row without its password, records the time and rotates the session id. Every form result leaves the session unchanged. |
| Login.LoginDoesNotRevealAccounts | backend/auth/login.php:22-25 | An unknown email and a wrong password give the same error and the same session. |
| Login.LoginSuccessRotates | backend/auth/login.php:29-40 | A successful login rotates the session id, keeps the CSRF token and stores a user with the submitted email. |
| Ledger.ParseFundType | backend/admin/society_fund.php:17 | Only 'income', 'expense' and 'use_money' are fund types, each under its own name. |
| Ledger.SignedSumAppend | backend/admin/society_fund.php:24-39 | Appending a row adds its signed amount to its owner's sum and nothing to the others. |
| Ledger.SumKindsAppend | backend/building/fund.php:29-37 | Appending a row adds its amount to its owner's total of the kinds that include its type. |
| Ledger.BalanceIsSignedSum | backend/building/fund.php:29-37 | income − (expense + use_money) equals the signed sum of the owner's ledger rows. |
| Ledger.Balance | backend/building/dashboard.php:12-18 | The derived balance is the signed sum of the ledger. |
| Ledger.UseMoneyIsNeverIncome | backend/building/fund.php:29-37 | A use_money row leaves income unchanged, raises expense by its amount and lowers the balance by it. |
| Ledger.ValidateFundForm | backend/admin/society_fund.php:17-22 | The checks run in the order type, then positive numeric amount, then non-empty date; the first failure names the error. The form is valid iff all three pass. |
| Ledger.ApplyFundTransaction | backend/admin/society_fund.php:24-31 | Exactly one ledger row is appended with the caller's society. That society's cached total changes by +amount for income and −amount otherwise; other totals and the other tables are unchanged. The drift between total and ledger is preserved for every society. |
| Ledger.RunFundTransaction | backend/admin/society_fund.php:24-39 | Commit iff no fault. A fault rolls back both writes. Drift is preserved either way. |
| SocietyFund.PostSocietyFund | backend/admin/society_fund.php:11-41 | Invalid input writes nothing and shows the validation error. A valid form commits one row and the signed delta unless the transaction fails, which shows "Failed to save." and writes nothing. Drift is preserved. |
| SocietyFund.ReplayPosts | backend/admin/society_fund.php:11-41 | A run of POSTs keeps the set of societies with a cached total. |
| SocietyFund.FundTotalMatchesLedger | backend/admin/society_fund.php:24-39 | If a society's cached total equals its ledger's signed sum, it still does after any sequence of POSTs by any admins. |
| BuildingFund.PostBuildingFund | backend/building/fund.php:11-27 | Validation is the same as the society screen's. A valid POST reports success and clears the form but writes nothing. |
| BuildingFund.PostLeavesBalance | backend/building/fund.php:22-37 | No POST changes a building's balance. |
| AdminApi.CsrfCandidate | backend/admin/api_example.php:28-34 | The candidate is the form field when present, even if empty; the header only when the field is absent; otherwise "". |
| AdminApi.HandleGet | backend/admin/api_example.php:46-124 | GET never writes, and it succeeds iff the action is one of the four known ones. |
| AdminApi.AddBuilding | backend/admin/api_example.php:129-146 | Success iff the trimmed name is non-empty and the insert succeeds. The row stores the first 150 elements of the name (PHP counts bytes; see Left out). Failure writes nothing. |
| AdminApi.AddFundTransaction | backend/admin/api_example.php:148-188 | The amount is checked first, then the trimmed type. An empty or unparseable date becomes today. Success is the same atomic double write as the society screen. Failure writes nothing. Drift is preserved. |
| AdminApi.EmptyMeetingDateRefused | backend/admin/api_example.php:199-201 | An empty meeting date is refused with 400 whatever the date parser says, and nothing is written. |
| AdminApi.CreateMeeting | backend/admin/api_example.php:190-228 | Success iff the title is non-empty, the date is non-empty and parses, building ownership holds for a building-level meeting with a positive building id, and the insert succeeds; success appends exactly that meeting. A bad or empty date gives 400, failed ownership 403. The stored building id is null unless the level is 'building'. Failure writes nothing. |
| AdminApi.HandlePost | backend/admin/api_example.php:127-233 | add_building, add_fund_transaction and create_meeting run their handlers; any other action is 400 "Unknown action" with nothing written. Every POST action preserves the fund drift. |
| AdminApi.HandleApi | backend/admin/api_example.php:19-43 | The role and society-scope preamble comes first. Past it, GET runs the GET handler and a POST with a valid CSRF token runs the POST handler for the caller's society. A POST with an invalid CSRF token is 403. A verb other than GET or POST is 405. The database changes only on a POST that passed the CSRF check. Drift is preserved. |
| AdminApi.EmptyFieldShadowsHeader | backend/admin/api_example.php:28-34 | An empty csrf_token field hides a correct X-CSRF-Token header, and the request is refused. |
| BuildingDashboard.ChartArrays | backend/building/dashboard.php:89-96 | The label, income and expense arrays have the length of the monthly rows and are index-aligned with them. |
| BuildingDashboard.FundTitle | backend/building/dashboard.php:99-110 | "Fund Income" iff income, "Fund Expense" iff expense, and "Fund Used" for anything else. |
| BuildingDashboard.Activities | backend/building/dashboard.php:98-133 | One activity per fetched row, in the order fund, maintenance, meetings, each with its row's timestamp. A fund entry carries its row's type-derived title, the type as badge, the date as meta and the amount. A maintenance entry carries the amount and the status (default 'unpaid') as badge, and is titled "Maintenance Paid" iff the status is 'paid', else "Maintenance Unpaid"; its meta is trim() of the member name, " • " and the month label (empty for an empty month). A meeting entry has the title (default "Meeting"), the meeting date as meta, badge 'meeting' and no amount. |
| BuildingDashboard.Insert | backend/building/dashboard.php:134-136 | Inserting into a newest-first list keeps it newest first and adds exactly that entry. |
| BuildingDashboard.SortByTsDesc | backend/building/dashboard.php:134-136 | The output is a permutation of the input, ordered newest first by strcmp on the timestamps. |
| BuildingDashboard.SortedPrefix | backend/building/dashboard.php:137 | A prefix of a newest-first list is newest first, and no entry after it is newer than any entry in it. |
| BuildingDashboard.TakeNewest | backend/building/dashboard.php:134-137 | Keeps min(8, n) input entries, newest first; no entry left out is newer than any entry kept. |
| BuildingDashboard.Feed | backend/building/dashboard.php:98-137 | The feed is the min(8, n) newest of the merged activities, newest first: no activity left out is newer than one kept. |
| Maintenance.NormaliseMonth | backend/building/maintenance.php:15-25 | The requested month is kept iff it matches the month pattern, otherwise the current month is used. The year and the preselected month come from a view month whose first four characters are digits. |
| Maintenance.NormaliseMonthFacts | backend/building/maintenance.php:15-25 | With a well-formed clock the fallback never fires. An out-of-range "2024-13" is kept. A non-matching request gives the current month. |
| Maintenance.Pad2 | backend/building/maintenance.php:29 | A month number becomes two digits that read back as that number. |
| Maintenance.MonthOptions | backend/building/maintenance.php:27-31 | Exactly 12 options, year-01 … year-12 in order, pairwise distinct, each of month shape when the year is four digits. |
| Maintenance.CleanIds | backend/building/maintenance.php:51-58 | The cleaned ids are exactly the positive input ids, without duplicates, in order of first occurrence, and no longer than the input. |
| Maintenance.FirstIndex | backend/building/maintenance.php:51-58 | The index of an id's first occurrence. |
| Maintenance.ValidMemberIds | backend/building/maintenance.php:60-74 | An id is kept iff it is a cleaned id of an active member of the caller's building. |
| Maintenance.NewRows | backend/building/maintenance.php:75-89 | One row per valid id with consecutive fresh ids and the form's month, amount and status. |
| Maintenance.BulkFormError | backend/building/maintenance.php:42-49 | The checks run in order: ids present, a month of length 7, a positive amount, a known status; the form passes iff all four hold. |
| Maintenance.InsertForMembers | backend/building/maintenance.php:51-89 | No positive id gives "Select at least 1 member." and no active member of the building gives "No valid members selected."; both write nothing. Success iff some selected id is a valid member and there is no fault; it appends exactly the rows for the valid ids, all or nothing, reporting their count; every inserted id was selected and is positive. |
| Maintenance.BulkAdd | backend/building/maintenance.php:36-93 | Success iff the form checks pass, some selected id is an active member of the building and there is no fault. A failed form check or no valid member writes nothing. Success appends exactly the rows for the active members of the building among the selected ids, with the trimmed month, and reports their count. |
| Maintenance.AddOne | backend/building/maintenance.php:95-121 | Success iff the form validates and the member belongs to the building, whatever the member's status. Success appends exactly one row; failure writes nothing. |
| Maintenance.SingleAddAcceptsInactive | backend/building/maintenance.php:95-121 | The single add accepts an inactive member of the building. |
| Maintenance.BulkAddRefusesInactive | backend/building/maintenance.php:60-74 | Bulk add refuses the same inactive member with "No valid members selected." and writes nothing. |
| Maintenance.Toggle | backend/building/maintenance.php:123-137 | Success ("Status updated.") iff the id is positive and the status, default 'unpaid', is known. Only row `id` changes, and only when its member is in the caller's building; the other rows and tables are unchanged. |
| Maintenance.Kpis | backend/building/maintenance.php:154-166 | paid + unpaid = number of rows, and every non-'paid' row counts as unpaid. Collected is the sum of paid amounts and total the sum of all amounts, so 0 ≤ collected ≤ total when the amounts are non-negative. |
| Buildings.AddBuilding | backend/admin/buildings.php:17-26 | An empty trimmed name is rejected. Otherwise exactly one building of the caller's society is appended with the trimmed name. |
| Buildings.Rename | backend/admin/buildings.php:28-39 | Only rows with this id in this society are renamed. |
| Buildings.EditBuilding | backend/admin/buildings.php:28-39 | id ≤ 0 or an empty name is rejected. Otherwise the caller's building with that id, and only it, is renamed. |
| Buildings.KeepUnless | backend/admin/buildings.php:41-50 | A scoped delete keeps exactly the rows that are not this id in this society. |
| Buildings.DeleteBuilding | backend/admin/buildings.php:41-50 | id ≤ 0 is rejected. Otherwise only the caller's building with that id is removed, and only the buildings table changes. |
| Buildings.ForeignBuildingsUntouched | backend/admin/buildings.php:28-50 | A building of another society survives every edit and every delete. |
| Buildings.DefaultName | backend/admin/buildings.php:54 | The i-th default is the i-th capital letter followed by " Wing". |
| Buildings.Defaults | backend/admin/buildings.php:54 | Thirteen pairwise distinct defaults, "A Wing" … "M Wing" in order. |
| Buildings.MissingDefaults | backend/admin/buildings.php:60-71 | The kept defaults are exactly those whose key is non-empty and not yet taken. |
| Filtering.Filter | backend/admin/buildings.php:60-71 | The filtered list is no longer than the input, and a name is in it iff it is in the input and kept. |
| Filtering.FilterPositions | backend/admin/buildings.php:60-71 | Every kept name comes from a strictly increasing input position, so the filter keeps the input order. |
| Buildings.MissingDefaultsIsFilter | backend/admin/buildings.php:60-71 | Dropping taken defaults is the generic order-preserving filter with the "wanted" test. |
| Buildings.MissingPositions | backend/admin/buildings.php:60-71 | The i-th missing default sits at a position of the input that strictly increases with i. |
| Buildings.MissingDefaultsDistinct | backend/admin/buildings.php:60-71 | Filtering distinct defaults leaves distinct names. |
| Buildings.DefaultKeysDistinct | backend/admin/buildings.php:60-71 | The lower-cased, trimmed keys of the defaults are non-empty and pairwise distinct. |
| Buildings.SeedListInDefaultOrder | backend/admin/buildings.php:54-71 | The create list is a subsequence of the 13 defaults in their listed order. |
| Buildings.SeedList | backend/admin/buildings.php:54-71 | The create list has at most 13 distinct names, and a name is in it iff it is a default whose key the society does not have yet. |
| Buildings.NewBuildings | backend/admin/buildings.php:73-89 | One building per name with consecutive fresh ids in the caller's society. |
| Buildings.Seed13 | backend/admin/buildings.php:52-90 | An empty list reports that all defaults exist. A fault rolls everything back. Success appends exactly the listed buildings in one transaction. |
| Buildings.SeedCreatesNoDuplicates | backend/admin/buildings.php:65-71 | The seeded names have pairwise distinct keys. |
| Buildings.Seed13Idempotent | backend/admin/buildings.php:65-90 | After a successful seed every default key is present, and running it again creates nothing and reports "All 13 default buildings already exist.". |
| Buildings.FindBuilding | backend/admin/buildings.php:105-110 | A building is found iff one with that id belongs to the caller's society. |
| Buildings.FirstAdminId | backend/admin/buildings.php:112-114 | The smallest id among the building_admins of this society and building; none iff there is no such admin. |
| Buildings.AdminName | backend/admin/buildings.php:117-118 | The trimmed building name, or "Building" when it is empty, followed by " Admin". |
| Buildings.ReplaceAdmin | backend/admin/buildings.php:120-130 | Only the admin row with that id, society and building is rewritten. |
| Buildings.AdminFormError | backend/admin/buildings.php:98-103 | The checks run in the order building id > 0, valid email, then status active or inactive; the form passes iff all three hold. |
| Buildings.UpsertBuildingAdmin | backend/admin/buildings.php:92-146 | Validation comes first, then the building must be the caller's. With no admin, an account is inserted, which needs a password and a free email. An existing admin is updated, which needs the email to be free of other users. Any failure writes nothing. |
| Buildings.UpsertPasswordRules | backend/admin/buildings.php:120-139 | An empty password keeps an existing admin's hash, and it is an error when a new admin would be created. |
| Buildings.UpsertTouchesOnlyTheAdmin | backend/admin/buildings.php:120-139 | Every user that is not the building's admin is left as it was. |
| Users.AssignableRoleIsNonMember | backend/admin/users.php:33-34 | The roles this screen may assign are exactly the known roles other than member. |
| Users.StoredBuilding | backend/admin/users.php:43-44 | The building id column is NULL unless the id is positive. |
| Users.CreateError | backend/admin/users.php:29-39 | The checks run in order: required fields, valid email, assignable role, status, and a building for building roles. The form passes iff all hold. |
| Users.CreateUser | backend/admin/users.php:21-52 | A valid form with a free email inserts exactly one account in the caller's society and clears the form. A taken email, like every failure, writes nothing. |
| Users.CreatedAccountShape | backend/admin/users.php:41-49 | Every created account has the caller's society, a non-member role and a NULL or positive building. |
| Users.CreateAcceptsForeignBuilding | backend/admin/users.php:38-49 | A building of another society is accepted and stored. |
| Users.UpdateError | backend/admin/users.php:62-70 | The checks run in order: id and name, assignable role, status, building; there is no email check. The form passes iff all hold. |
| Users.ApplyUpdate | backend/admin/users.php:72-88 | Only the editable row with that id is rewritten. The hash changes only when a new password is given. |
| Users.UpdateUser | backend/admin/users.php:54-91 | The update is atomic: success writes both statements, a fault writes neither. Only the users table changes. |
| Users.UpdateIsScoped | backend/admin/users.php:72-88 | Member rows and rows of other societies are never modified. |
| Users.EditRow | backend/admin/users.php:94-103 | The loaded row is an editable account with that id; none iff no such row exists. |
| Users.EditFormError | backend/admin/users.php:94-103 | "Not allowed." iff an edit of a positive id finds no editable account. |
| Members.DemoEmailsDistinct | backend/building/members.php:29-32 | Different indices give different demo email addresses. |
| Members.SeedFrom | backend/building/members.php:29-39 | The insert loop keeps the existing rows and adds at most 21 − i seeded active members of this building with consecutive ids starting at the next free id. |
| Members.SeedFromFresh | backend/building/members.php:29-39 | Every row the loop adds has an email that no earlier row has, so the unique email index never refuses an insert the loop performs. |
| Members.SeedFromCoversAll | backend/building/members.php:29-39 | After the loop from i, every demo email from i to 20 is taken. |
| Members.SeedFromAllTaken | backend/building/members.php:33-39 | When every demo email is taken, the loop inserts nothing. |
| Members.SeedFromNoneTaken | backend/building/members.php:33-39 | When no demo email is taken, the loop inserts every one. |
| Members.Seed20 | backend/building/members.php:14-47 | A building without a positive society, or a failed transaction, writes nothing and reports the error. Success appends the loop's rows and reports their count. |
| Members.Seed20WhenAllPresent | backend/building/members.php:14-47 | With all demo accounts present, seed20 creates 0 and writes nothing. |
| Members.Seed20Idempotent | backend/building/members.php:14-47 | Right after a successful run, a second run creates nothing. |
| Members.Seed20OnEmptyBuilding | backend/building/members.php:14-47 | With none of the demo accounts present, seed20 creates all 20. |
| Members.AddError | backend/building/members.php:55-60 | The checks run in order: required fields, valid email, then status; the form passes iff all hold. |
| Members.AddMember | backend/building/members.php:49-73 | A valid form with a free email inserts exactly one member of this building, with the building's society, and clears the form. Every failure writes nothing. |
| Members.UpdateTargets | backend/building/members.php:75-123 | Only member rows of this building with that id change. |
| Members.SetStatus | backend/building/members.php:75-86 | id ≤ 0 or an unknown status is rejected. Otherwise only this building's member with that id gets the status. |
| Members.RemoveTargets | backend/building/members.php:88-101 | A scoped delete keeps exactly the rows it does not target. |
| Members.DeleteMember | backend/building/members.php:88-101 | id ≤ 0 is rejected. "Delete not allowed." is reported iff no member of this building has that id. Success removes exactly the targeted rows. |
| Members.ResetPassword | backend/building/members.php:103-123 | A missing id or password is rejected with "Member and new password are required.". A database error gives "Failed to reset password.", and an update that matches no member row gives "Reset not allowed.". Success iff a targeted row exists and no fault occurs, and then only that row's hash changes. Failure writes nothing. |
| Members.WritesStayInBuilding | backend/building/members.php:75-123 | Status, delete and reset never touch a row that is not a member of the caller's building. |
| Members.StatusCounts | backend/building/members.php:136-141 | active + inactive = number of rows, and every non-'active' status counts as inactive. |

## Left out

- HTML, Tailwind and Chart.js rendering, `backend/includes/header.php`, and all JavaScript are presentation only.
- SQL execution. Tables are sequences in one `Schema.Db` record. The GET list queries, the dashboard and report aggregations, `GROUP BY`, `LIMIT` and `ORDER BY` are not modelled; where their results are inputs (the dashboard's rows), they are parameters.
- The pure read-only pages are out of scope: the admin, pramukh and member dashboards, residents, meetings, notes and reports.
- Foreign calls are uninterpreted fields of `Schema.Env` or parameters:
  - `password_hash` and `password_verify`;
  - `FILTER_VALIDATE_EMAIL` and `FILTER_VALIDATE_INT`;
  - `random_bytes`, whose hex token is the `freshToken` parameter;
  - `strtotime`, `time()` and `date()`;
  - `month_label`;
  - `session_start`, `session_regenerate_id` and `header`/`exit`;
  - `error_log` and `log_activity`.
- The constant-time property of `hash_equals` cannot be stated; the comparison is modelled as plain equality.
- Floating-point amounts are modelled as integer minor units. Whether an amount is numeric is decided before the handler (`None` = not numeric).
- The commented-out IP/user-agent session binding (backend/config/auth.php:138-142) is dead code. The values are stored at login but never checked.
- Failures inside a transaction are a boolean or `Ledger.TxFault` parameter, not modelled causes. The exception message of the API's failures is the `pdoMessage` parameter.
- A duplicate-email insert failure is modelled by `Schema.EmailTaken`, the unique index on `users.email`. Other constraint failures are not modelled.
- `rowCount()` is modelled as "some row matched". MySQL reports changed rows, which differs when the new value equals the old one.
- Foreign-key cascades on building delete are not modelled. Only the building row is removed.
- Auth.Paginate: requires `perPage > 0`, since the callers pass a positive page size. A zero size would divide by zero in the source.
- Members.Seed20: requires `buildingId > 0`, which the building-scope preamble guarantees for every caller.
- The maintenance year fallback (backend/building/maintenance.php:20-25) is modelled, but it cannot fire when the clock gives a four-digit year (Maintenance.NormaliseMonthFacts).
- Byte and character lengths: PHP's `strlen` and `substr` count bytes, while the model counts string elements (characters). PhpStrings.InputString, AdminApi.AddBuilding (the 150 cut), Maintenance.BulkFormError and Maintenance.AddOne (the month length of 7) therefore differ from the source on non-ASCII input; "2024-é" is 7 bytes but 6 characters.
- Database exceptions outside a try block would end the request with an uncaught error. The model assumes those statements succeed. This covers:
  - members status and delete, backend/building/members.php:82-99 (Members.SetStatus, Members.DeleteMember);
  - the maintenance toggle, backend/building/maintenance.php:130-135 (Maintenance.Toggle), and the single add, backend/building/maintenance.php:115-117 (Maintenance.AddOne);
  - building add, edit and delete, backend/admin/buildings.php:22-23, 35-36 and 46-47 (Buildings.AddBuilding, Buildings.EditBuilding, Buildings.DeleteBuilding).
- Schema.EmailTaken and Login.FindUserByEmail compare emails as exact character sequences. The table definition and its collation are not part of this model. Under MySQL's usual case-insensitive collations, "A@x.io" and "a@x.io" would match both in the login lookup and in the unique index on `users.email`.
- BuildingDashboard.Feed: when activities tie on timestamp at the eighth place, the contract does not say which of them are kept. PHP 8's usort is stable; the model's insertion sort also keeps tied entries in input order, but that is not stated as a property.
- Auto-increment ids: InnoDB consumes an id on a failed or rolled-back insert. The model hands out consecutive fresh ids (Members.SeedFrom, Buildings.NewBuildings, Maintenance.NewRows), which holds only when no insert failed before.
- Maintenance.ValidMemberIds: returns ids in table order. The SQL has no ORDER BY, so the database's order is unspecified.

## Notes on behaviour the model keeps as written

- `is_logged_in` treats a missing status as active, but login treats it as inactive. Both defaults are kept.
- `verify_building_ownership` gives `society_pramukh` the same building access as `society_admin`.
- `backend/building/fund.php` prepares its INSERT but never executes it. A valid POST reports "Transaction added." and clears the form while the ledger is unchanged (BuildingFund.PostLeavesBalance).
- The two fund screens differ in trimming:
  - the API trims the type and the amount before validating;
  - `society_fund.php` trims only the description.
- The month pattern's `$` also matches before a final newline. A value such as "2024-13" passes, because the month range is not checked.
- bulk_add and add check only that the month has length 7.
- The single add accepts an inactive member, while bulk add does not (Maintenance.SingleAddAcceptsInactive, Maintenance.BulkAddRefusesInactive).
- users.php create and update check that a building role has a positive building id, but not that the building belongs to the caller's society (Users.CreateAcceptsForeignBuilding).
- In members add, the society is looked up from the building row and may be NULL when that row is missing.
- A successful login whose stored user has a non-positive id or an empty role is sent on by `redirect_by_role`, which sends a visitor who is not logged in to the login page.
- In create_meeting, a building-level meeting with a building id ≤ 0 skips the ownership check and stores that id.

=== FILE: admin_api.dfy ===
/** backend/admin/api_example.php: the society-admin JSON endpoint. After
    the role and society-scope preamble, GET actions are read-only, every
    POST must carry a valid CSRF token before any POST action runs, and
    other methods get 405. The three POST actions are add_building,
    add_fund_transaction and create_meeting. */
module AdminApi {
  import opened Wrappers
  import opened PhpStrings
  import opened Schema
  import opened Auth
  import opened Ledger

  /** The request fields the POST actions read. `amount` is the numeric
      value of the trimmed field (None when not numeric); `level` and
      `buildingId` are None when absent (buildingId also when not a valid
      integer). */
  datatype ApiFields = ApiFields(
    buildingName: string,
    amount: Option<int>,
    kind: string,
    description: string,
    date: string,
    title: string,
    meetingDate: string,
    level: Option<string>,
    buildingId: Option<int>)

  datatype ApiRequest = ApiRequest(
    verb: string,
    action: string,
    csrfField: Option<string>,
    csrfHeader: Option<string>,
    fields: ApiFields)

  /** Either the preamble redirected, or a JSON body was sent with the
      database as the request left it. */
  datatype ApiResult = Halted(path: string) | Json(code: int, success: bool, message: string, db: Db)

  function Ok(message: string, db: Db): ApiResult { Json(200, true, message, db) }
  function Fail(code: int, message: string, db: Db): ApiResult { Json(code, false, message, db) }

  /** $_POST['csrf_token'] ?? $_SERVER['HTTP_X_CSRF_TOKEN'] ?? '': the
      header is consulted only when the form field is absent. */
  function CsrfCandidate(req: ApiRequest): (c: string)
    ensures req.csrfField.Some? ==> c == req.csrfField.value
    ensures req.csrfField.None? && req.csrfHeader.Some? ==> c == req.csrfHeader.value
    ensures req.csrfField.None? && req.csrfHeader.None? ==> c == ""
  {
    req.csrfField.GetOr(req.csrfHeader.GetOr(""))
  }

  const GetActions: set<string> := {"dashboard_stats", "buildings_list", "fund_transactions", "recent_activity"}

  /** handleGetRequest(): the queries are not modelled, only which actions
      exist; nothing is written. */
  function HandleGet(db: Db, action: string): (r: ApiResult)
    ensures r.Json? && r.db == db
    ensures r.success <==> action in GetActions
  {
    if action == "dashboard_stats" then Ok("Dashboard stats retrieved", db)
    else if action == "buildings_list" then Ok("Buildings retrieved", db)
    else if action == "fund_transactions" then Ok("Transactions retrieved", db)
    else if action == "recent_activity" then Ok("Recent activity retrieved", db)
    else Fail(400, "Unknown action", db)
  }

  /** add_building: the name is trimmed and cut to 150 characters
      (input_string); an empty result is rejected. */
  function AddBuilding(db: Db, societyId: int, f: ApiFields, fault: TxFault, pdoMessage: string): (r: ApiResult)
    ensures r.Json?
    ensures r.success <==> Trim(f.buildingName) != "" && fault == NoFault
    ensures Trim(f.buildingName) == "" ==> r == Fail(400, "Building name is required", db)
    ensures r.success ==>
      r.db == db.(buildings := db.buildings + [Building(db.nextId, societyId, InputString(f.buildingName, 150))],
                  nextId := db.nextId + 1)
    ensures !r.success ==> r.db == db
  {
    var name := InputString(f.buildingName, 150);
    if name == "" then Fail(400, "Building name is required", db)
    else if fault != NoFault then Fail(400, "Failed to create building: " + pdoMessage, db)
    else
      var db1 := db.(buildings := db.buildings + [Building(db.nextId, societyId, name)], nextId := db.nextId + 1);
      Ok("Building created successfully", db1)
  }

  /** add_fund_transaction: amount first, then type (both after trimming);
      an empty or unparseable date becomes today; then the same
      transactional double write as the society fund screen. */
  function AddFundTransaction(db: Db, societyId: int, f: ApiFields, env: Env, fault: TxFault, pdoMessage: string): (r: ApiResult)
    ensures r.Json?
    ensures !(f.amount.Some? && f.amount.value > 0) ==> r == Fail(400, "Valid amount is required", db)
    ensures f.amount.Some? && f.amount.value > 0 && ParseFundType(InputString(f.kind, 255)).None? ==>
      r == Fail(400, "Invalid transaction type", db)
    ensures r.success <==> f.amount.Some? && f.amount.value > 0 && ParseFundType(InputString(f.kind, 255)).Some? && fault == NoFault
    ensures r.success ==>
      var date := InputString(f.date, 255);
      r.db == ApplyFundTransaction(db, societyId, ParseFundType(InputString(f.kind, 255)).value, f.amount.value,
                                   InputString(f.description, 255),
                                   if date == "" || !env.validDate(date) then env.today else date)
    ensures !r.success ==> r.db == db
    ensures forall s :: s in db.fundTotals ==> s in r.db.fundTotals && Drift(r.db, s) == Drift(db, s)
  {
    var kind := InputString(f.kind, 255);
    var description := InputString(f.description, 255);
    var date := InputString(f.date, 255);
    if f.amount.None? || f.amount.value <= 0 then Fail(400, "Valid amount is required", db)
    else match ParseFundType(kind)
      case None => Fail(400, "Invalid transaction type", db)
      case Some(t) =>
        var date1 := if date == "" || !env.validDate(date) then env.today else date;
        var (db1, committed) := RunFundTransaction(db, societyId, t, f.amount.value, description, date1, fault);
        if committed then Ok("Transaction recorded successfully", db1)
        else Fail(400, "Failed to record transaction: " + pdoMessage, db)
  }

  /** create_meeting: a building-level meeting for a positive building id
      needs ownership of that building; the stored building id is null
      unless the level is 'building'. */
  function CreateMeeting(db: Db, societyId: int, s: Session, f: ApiFields, env: Env, fault: TxFault, pdoMessage: string): (r: ApiResult)
    ensures r.Json?
    ensures r.success <==>
      var level := InputString(f.level.GetOr("society"), 255);
      var bid := f.buildingId.GetOr(0);
      InputString(f.title, 200) != "" && ValidMeetingDate(InputString(f.meetingDate, 255), env)
      && (level == "building" && bid > 0 ==> VerifyBuildingOwnership(s, db.buildings, bid))
      && fault == NoFault
    ensures r.success ==>
      var level := InputString(f.level.GetOr("society"), 255);
      var bid := f.buildingId.GetOr(0);
      r == Ok("Meeting created successfully",
              db.(meetings := db.meetings + [Meeting(level, societyId, if level == "building" then Some(bid) else None,
                                                     InputString(f.title, 200), InputString(f.meetingDate, 255))]))
    ensures InputString(f.title, 200) != "" && !ValidMeetingDate(InputString(f.meetingDate, 255), env) ==>
      r == Fail(400, "Valid meeting date is required", db)
    ensures InputString(f.title, 200) != "" && ValidMeetingDate(InputString(f.meetingDate, 255), env)
            && InputString(f.level.GetOr("society"), 255) == "building" && f.buildingId.GetOr(0) > 0
            && !VerifyBuildingOwnership(s, db.buildings, f.buildingId.GetOr(0)) ==>
      r == Fail(403, "Access denied to this building", db)
    ensures !r.success ==> r.db == db
  {
    var title := InputString(f.title, 200);
    var meetingDate := InputString(f.meetingDate, 255);
    var level := InputString(f.level.GetOr("society"), 255);
    var bid := f.buildingId.GetOr(0);
    if title == "" then Fail(400, "Meeting title is required", db)
    else if !ValidMeetingDate(meetingDate, env) then Fail(400, "Valid meeting date is required", db)
    else if level == "building" && bid > 0 && !VerifyBuildingOwnership(s, db.buildings, bid) then
      Fail(403, "Access denied to this building", db)
    else if fault != NoFault then Fail(400, "Failed to create meeting: " + pdoMessage, db)
    else
      var m := Meeting(level, societyId, if level == "building" then Some(bid) else None, title, meetingDate);
      Ok("Meeting created successfully", db.(meetings := db.meetings + [m]))
  }

  /** `strtotime($meetingDate)` is truthy: never for the empty string,
      otherwise as the uninterpreted date check says. */
  predicate ValidMeetingDate(date: string, env: Env) {
    date != "" && env.validDate(date)
  }

  /** An empty meeting date is refused whatever the date check says. */
  lemma EmptyMeetingDateRefused(db: Db, societyId: int, s: Session, f: ApiFields, env: Env, fault: TxFault, pdoMessage: string)
    requires InputString(f.title, 200) != "" && InputString(f.meetingDate, 255) == ""
    ensures CreateMeeting(db, societyId, s, f, env, fault, pdoMessage) == Fail(400, "Valid meeting date is required", db)
  {
  }

  /** handlePostRequest(): dispatch on the action. */
  function HandlePost(db: Db, societyId: int, s: Session, req: ApiRequest, env: Env, fault: TxFault, pdoMessage: string): (r: ApiResult)
    ensures r.Json?
    ensures forall x :: x in db.fundTotals ==> x in r.db.fundTotals && Drift(r.db, x) == Drift(db, x)
    ensures req.action == "add_building" ==> r == AddBuilding(db, societyId, req.fields, fault, pdoMessage)
    ensures req.action == "add_fund_transaction" ==> r == AddFundTransaction(db, societyId, req.fields, env, fault, pdoMessage)
    ensures req.action == "create_meeting" ==> r == CreateMeeting(db, societyId, s, req.fields, env, fault, pdoMessage)
    ensures (req.action != "add_building" && req.action != "add_fund_transaction" && req.action != "create_meeting") ==>
      r == Fail(400, "Unknown action", db)
  {
    if req.action == "add_building" then
      var r := AddBuilding(db, societyId, req.fields, fault, pdoMessage);
      FundsUntouched(db, r.db);
      r
    else if req.action == "add_fund_transaction" then AddFundTransaction(db, societyId, req.fields, env, fault, pdoMessage)
    else if req.action == "create_meeting" then
      var r := CreateMeeting(db, societyId, s, req.fields, env, fault, pdoMessage);
      FundsUntouched(db, r.db);
      r
    else Fail(400, "Unknown action", db)
  }

  /** A write that leaves the fund ledger and the cached totals alone
      keeps every society's drift. */
  lemma FundsUntouched(db: Db, db1: Db)
    requires db1.fundTotals == db.fundTotals && db1.societyFund == db.societyFund
    ensures forall x :: x in db.fundTotals ==> x in db1.fundTotals && Drift(db1, x) == Drift(db, x)
  {
  }

  /** The whole endpoint: preamble, then method dispatch. */
  function HandleApi(s: Session, ajax: bool, req: ApiRequest, db: Db, env: Env, fault: TxFault, pdoMessage: string): (r: ApiResult)
    ensures !GuardSociety(s, ajax, {SocietyAdmin}).Proceed? ==>
      match GuardSociety(s, ajax, {SocietyAdmin})
      case Redirect(p) => r == Halted(p)
      case JsonError(c, m) => r == Fail(c, m, db)
      case Proceed(_) => false
    ensures (GuardSociety(s, ajax, {SocietyAdmin}).Proceed? && req.verb == "POST"
             && !ValidateCsrfToken(s, Some(CsrfCandidate(req)))) ==> r == Fail(403, "Invalid CSRF token", db)
    ensures GuardSociety(s, ajax, {SocietyAdmin}).Proceed? && req.verb != "GET" && req.verb != "POST" ==>
      r == Fail(405, "Method not allowed", db)
    ensures GuardSociety(s, ajax, {SocietyAdmin}).Proceed? && req.verb == "GET" ==> r == HandleGet(db, req.action)
    ensures forall sid ::
      (GuardSociety(s, ajax, {SocietyAdmin}) == Proceed(sid) && req.verb == "POST"
       && ValidateCsrfToken(s, Some(CsrfCandidate(req)))) ==> r == HandlePost(db, sid, s, req, env, fault, pdoMessage)
    ensures r.Json? && r.db != db ==>
      req.verb == "POST" && GuardSociety(s, ajax, {SocietyAdmin}).Proceed? && ValidateCsrfToken(s, Some(CsrfCandidate(req)))
    ensures r.Json? ==> forall x :: x in db.fundTotals ==> x in r.db.fundTotals && Drift(r.db, x) == Drift(db, x)
  {
    match GuardSociety(s, ajax, {SocietyAdmin})
    case Redirect(p) => Halted(p)
    case JsonError(c, m) => Fail(c, m, db)
    case Proceed(societyId) =>
      if req.verb == "GET" then HandleGet(db, req.action)
      else if req.verb == "POST" then
        if !ValidateCsrfToken(s, Some(CsrfCandidate(req))) then Fail(403, "Invalid CSRF token", db)
        else HandlePost(db, societyId, s, req, env, fault, pdoMessage)
      else Fail(405, "Method not allowed", db)
  }

  /** A present but empty csrf_token field is not replaced by the header
      and fails validation even when the header carries the right token. */
  lemma EmptyFieldShadowsHeader(s: Session, ajax: bool, req: ApiRequest, db: Db, env: Env, fault: TxFault, pdoMessage: string)
    requires GuardSociety(s, ajax, {SocietyAdmin}).Proceed?
    requires req.verb == "POST" && req.csrfField == Some("") && req.csrfHeader == Some(s.csrfToken)
    ensures HandleApi(s, ajax, req, db, env, fault, pdoMessage) == Fail(403, "Invalid CSRF token", db)
  {
  }
}

=== FILE: auth.dfy ===
/** The access-control kernel of backend/config/auth.php: session rotation,
    CSRF tokens, the authentication predicate, the role guard, the two
    scope resolvers, the two ownership checks, the role -> landing-page
    table and the pagination arithmetic. The ambient PHP session becomes an
    explicit `Session` value; `redirect_to` and `json_error` end the
    request, so every guard returns an `Outcome` and the guarded handler
    runs only on `Proceed`. */
module Auth {
  import opened Wrappers
  import opened PhpStrings
  import opened Schema

  const LoginPath: string := "backend/auth/login.php"
  const LogoutPath: string := "backend/auth/logout.php"
  const AdminDashboard: string := "backend/admin/dashboard.php"
  const PramukhDashboard: string := "backend/pramukh/dashboard.php"
  const BuildingDashboard: string := "backend/building/dashboard.php"
  const MemberDashboard: string := "backend/member/dashboard.php"

  /** Seconds between two session-id rotations. */
  const RotationInterval: int := 1800

  /** The server-side session. The session id itself is abstracted to a
      generation counter: `session_regenerate_id` increments it. */
  datatype Session = Session(
    user: Option<SessionUser>,
    csrfToken: string,
    lastRegenerate: Option<int>,
    generation: nat,
    ip: string,
    userAgent: string)

  /** How a guard ends: the handler proceeds with a value, or the request
      ends in a redirect or a JSON error with an HTTP status. */
  datatype Outcome<+T> = Proceed(value: T) | Redirect(path: string) | JsonError(code: int, message: string)

  // ---------------------------------------------------------------------
  // Session bootstrap and rotation

  /** What including auth.php does to a request's session: rotate the
      id when it was never rotated or was last rotated more than 30 minutes
      ago, keeping all session data. */
  function StartSession(s: Session, now: int): (r: Session)
    ensures r.user == s.user && r.csrfToken == s.csrfToken && r.ip == s.ip && r.userAgent == s.userAgent
    ensures r.generation != s.generation <==> (s.lastRegenerate.None? || now - s.lastRegenerate.value > RotationInterval)
    ensures r.generation != s.generation ==> r.generation == s.generation + 1 && r.lastRegenerate == Some(now)
    ensures r.generation == s.generation ==> r == s
  {
    if s.lastRegenerate.None? || now - s.lastRegenerate.value > RotationInterval then
      s.(generation := s.generation + 1, lastRegenerate := Some(now))
    else
      s
  }

  /** After a rotation at time `now`, every request within the next 30
      minutes keeps the same session id. */
  lemma RotationSettles(s: Session, now: int, later: int)
    requires StartSession(s, now).generation != s.generation
    requires now <= later <= now + RotationInterval
    ensures StartSession(StartSession(s, now), later) == StartSession(s, now)
  {
  }

  // ---------------------------------------------------------------------
  // CSRF

  /** generate_csrf_token(): keep a present token, otherwise store `freshToken`
      (32 random bytes, hex encoded, supplied by the caller). */
  function GenerateCsrfToken(s: Session, freshToken: string): (r: (Session, string))
    ensures !PhpEmpty(s.csrfToken) ==> r.0 == s && r.1 == s.csrfToken
    ensures PhpEmpty(s.csrfToken) ==> r.0 == s.(csrfToken := freshToken) && r.1 == freshToken
    ensures r.1 == r.0.csrfToken
  {
    if PhpEmpty(s.csrfToken) then (s.(csrfToken := freshToken), freshToken) else (s, s.csrfToken)
  }

  /** validate_csrf_token(): false when either side is empty, otherwise
      equality (the constant-time aspect of hash_equals is not modelled). */
  function ValidateCsrfToken(s: Session, candidate: Option<string>): (r: bool)
    ensures r <==> !PhpEmpty(s.csrfToken) && candidate == Some(s.csrfToken)
  {
    var c := candidate.GetOr("");
    if PhpEmpty(s.csrfToken) || PhpEmpty(c) then false else s.csrfToken == c
  }

  /** A token once issued is never replaced, and it validates. */
  lemma CsrfIssuedTokenIsStable(s: Session, freshToken: string, later: string)
    requires |freshToken| == 64
    ensures var (s1, t) := GenerateCsrfToken(s, freshToken);
      ValidateCsrfToken(s1, Some(t)) && GenerateCsrfToken(s1, later) == (s1, t)
  {
  }

  /** The rejections listed for validate_csrf_token. */
  lemma CsrfRejections(s: Session, candidate: Option<string>)
    ensures !ValidateCsrfToken(s, None) && !ValidateCsrfToken(s, Some(""))
    ensures PhpEmpty(s.csrfToken) ==> !ValidateCsrfToken(s, candidate)
    ensures candidate != Some(s.csrfToken) ==> !ValidateCsrfToken(s, candidate)
  {
  }

  // ---------------------------------------------------------------------
  // Authentication

  /** is_logged_in(): a user snapshot with positive id, non-empty role and
      status 'active', where a missing status counts as 'active'. */
  function IsLoggedIn(s: Session): (r: bool)
    ensures r <==> s.user.Some? && s.user.value.id > 0 && s.user.value.role != ""
                   && (s.user.value.status.None? || s.user.value.status.value == "active")
  {
    s.user.Some? && s.user.value.id > 0 && s.user.value.role != "" && s.user.value.status.GetOr("active") == "active"
  }

  /** The session user's role, when there is a user and the role is known. */
  function SessionRole(s: Session): Option<Role> {
    if s.user.Some? then ParseRole(s.user.value.role) else None
  }

  /** The denial of require_login(). */
  function NotLoggedIn<T>(ajax: bool): Outcome<T> {
    if ajax then JsonError(401, "Authentication required") else Redirect(LoginPath)
  }

  // ---------------------------------------------------------------------
  // Landing pages

  /** The fixed role -> landing-page table. */
  function LandingPage(r: Role): string {
    match r
    case SocietyAdmin => AdminDashboard
    case SocietyPramukh => PramukhDashboard
    case BuildingAdmin => BuildingDashboard
    case Member => MemberDashboard
  }

  /** The scope id a role needs: society id for society roles, building id
      for building roles. */
  function ScopeFor(u: SessionUser, r: Role): int {
    if IsSocietyRole(r) then IdOr0(u.societyId) else IdOr0(u.buildingId)
  }

  /** redirect_by_role(): where a visitor is sent. */
  function RedirectByRole(s: Session): (path: string)
    ensures !IsLoggedIn(s) ==> path == LoginPath
    ensures IsLoggedIn(s) ==>
      path == (if SessionRole(s).Some? && ScopeFor(s.user.value, SessionRole(s).value) > 0
               then LandingPage(SessionRole(s).value) else LogoutPath)
  {
    if !IsLoggedIn(s) then LoginPath
    else
      var u := s.user.value;
      if u.role == "society_admin" then
        (if IdOr0(u.societyId) <= 0 then LogoutPath else AdminDashboard)
      else if u.role == "society_pramukh" then
        (if IdOr0(u.societyId) <= 0 then LogoutPath else PramukhDashboard)
      else if u.role == "building_admin" then
        (if IdOr0(u.buildingId) <= 0 then LogoutPath else BuildingDashboard)
      else if u.role == "member" then
        (if IdOr0(u.buildingId) <= 0 then LogoutPath else MemberDashboard)
      else LogoutPath
  }

  // ---------------------------------------------------------------------
  // Role guard

  /** in_array($role, $allowed, true): exact string membership. */
  function RoleAllowed(role: string, allowed: set<Role>): (r: bool)
    ensures r <==> exists q :: q in allowed && RoleName(q) == role
  {
    var p := ParseRole(role);
    assert (exists q :: q in allowed && RoleName(q) == role) ==> p.Some? && p.value in allowed by {
      if q :| q in allowed && RoleName(q) == role {
        RoleNameRoundTrip(q);
      }
    }
    p.Some? && p.value in allowed
  }

  /** require_role(): the handler proceeds with the session user only when
      logged in with an allowed role; a logged-in user with another role
      gets 403 (AJAX) or is sent to a page chosen from their own role. */
  function RequireRole(s: Session, ajax: bool, allowed: set<Role>): (r: Outcome<SessionUser>)
    ensures r.Proceed? <==> IsLoggedIn(s) && RoleAllowed(s.user.value.role, allowed)
    ensures r.Proceed? ==> Some(r.value) == s.user
    ensures !IsLoggedIn(s) ==> r == NotLoggedIn(ajax)
    ensures IsLoggedIn(s) && !r.Proceed? && ajax ==> r == JsonError(403, "Access denied: Insufficient permissions")
    ensures IsLoggedIn(s) && !r.Proceed? && !ajax ==> r == Redirect(RedirectByRole(s)) && r.path != LoginPath
  {
    if !IsLoggedIn(s) then NotLoggedIn(ajax)
    else if RoleAllowed(s.user.value.role, allowed) then Proceed(s.user.value)
    else if ajax then JsonError(403, "Access denied: Insufficient permissions")
    else Redirect(RedirectByRole(s))
  }

  // ---------------------------------------------------------------------
  // Scope resolvers

  /** require_society_scope(): the session's positive society id, only for
      society_admin and society_pramukh. */
  function RequireSocietyScope(s: Session, ajax: bool): (r: Outcome<int>)
    ensures r.Proceed? <==> IsLoggedIn(s) && IdOr0(s.user.value.societyId) > 0
                            && SessionRole(s).Some? && IsSocietyRole(SessionRole(s).value)
    ensures r.Proceed? ==> r.value == IdOr0(s.user.value.societyId) && r.value > 0
    ensures !IsLoggedIn(s) ==> r == NotLoggedIn(ajax)
    ensures IsLoggedIn(s) && !r.Proceed? ==>
      (ajax ==> r.JsonError? && r.code == 403) && (!ajax ==> r == Redirect(LogoutPath))
  {
    if !IsLoggedIn(s) then NotLoggedIn(ajax)
    else
      var u := s.user.value;
      var societyId := IdOr0(u.societyId);
      if societyId <= 0 then
        (if ajax then JsonError(403, "Invalid society scope") else Redirect(LogoutPath))
      else if u.role != "society_admin" && u.role != "society_pramukh" then
        (if ajax then JsonError(403, "Society access denied") else Redirect(LogoutPath))
      else Proceed(societyId)
  }

  /** require_building_scope(): the session's positive building id, only
      for building_admin and member. */
  function RequireBuildingScope(s: Session, ajax: bool): (r: Outcome<int>)
    ensures r.Proceed? <==> IsLoggedIn(s) && IdOr0(s.user.value.buildingId) > 0
                            && SessionRole(s).Some? && IsBuildingRole(SessionRole(s).value)
    ensures r.Proceed? ==> r.value == IdOr0(s.user.value.buildingId) && r.value > 0
    ensures !IsLoggedIn(s) ==> r == NotLoggedIn(ajax)
    ensures IsLoggedIn(s) && !r.Proceed? ==>
      (ajax ==> r.JsonError? && r.code == 403) && (!ajax ==> r == Redirect(LogoutPath))
  {
    if !IsLoggedIn(s) then NotLoggedIn(ajax)
    else
      var u := s.user.value;
      var buildingId := IdOr0(u.buildingId);
      if buildingId <= 0 then
        (if ajax then JsonError(403, "Invalid building scope") else Redirect(LogoutPath))
      else if u.role != "building_admin" && u.role != "member" then
        (if ajax then JsonError(403, "Building access denied") else Redirect(LogoutPath))
      else Proceed(buildingId)
  }

  /** A session never resolves to both a society scope and a building scope. */
  lemma ScopesAreExclusive(s: Session, ajax: bool)
    ensures !(RequireSocietyScope(s, ajax).Proceed? && RequireBuildingScope(s, ajax).Proceed?)
  {
  }

  // ---------------------------------------------------------------------
  // Ownership checks

  /** verify_society_ownership(): only society roles, only their own society. */
  function VerifySocietyOwnership(s: Session, resourceSocietyId: int): (r: bool)
    ensures r <==> SessionRole(s).Some? && IsSocietyRole(SessionRole(s).value)
                   && IdOr0(s.user.value.societyId) == resourceSocietyId
  {
    if s.user.None? then false
    else
      var u := s.user.value;
      if u.role == "society_admin" || u.role == "society_pramukh" then IdOr0(u.societyId) == resourceSocietyId
      else false
  }

  /** SELECT COUNT(*) FROM buildings WHERE id = ? AND society_id = ? */
  function CountBuildings(buildings: seq<Building>, buildingId: int, societyId: int): (n: nat)
    ensures n > 0 <==> BuildingInSociety(buildings, buildingId, societyId)
    ensures n <= |buildings|
  {
    if |buildings| == 0 then 0
    else
      var rest := CountBuildings(buildings[1..], buildingId, societyId);
      assert BuildingInSociety(buildings[1..], buildingId, societyId) ==> BuildingInSociety(buildings, buildingId, societyId) by {
        if BuildingInSociety(buildings[1..], buildingId, societyId) {
          var j :| 0 <= j < |buildings[1..]| && buildings[1..][j].id == buildingId && buildings[1..][j].societyId == societyId;
          assert buildings[j + 1] == buildings[1..][j];
        }
      }
      assert BuildingInSociety(buildings, buildingId, societyId) && !(buildings[0].id == buildingId && buildings[0].societyId == societyId)
          ==> BuildingInSociety(buildings[1..], buildingId, societyId) by {
        if BuildingInSociety(buildings, buildingId, societyId) && !(buildings[0].id == buildingId && buildings[0].societyId == societyId) {
          var j :| 0 <= j < |buildings| && buildings[j].id == buildingId && buildings[j].societyId == societyId;
          assert buildings[1..][j - 1] == buildings[j];
        }
      }
      (if buildings[0].id == buildingId && buildings[0].societyId == societyId then 1 else 0) + rest
  }

  /** verify_building_ownership(): building roles own exactly their own
      building; society roles own the buildings of their society; every
      other role, and a missing user, owns nothing. */
  function VerifyBuildingOwnership(s: Session, buildings: seq<Building>, resourceBuildingId: int): (r: bool)
    ensures r ==> SessionRole(s).Some?
    ensures SessionRole(s).Some? && IsBuildingRole(SessionRole(s).value) ==>
      (r <==> IdOr0(s.user.value.buildingId) == resourceBuildingId)
    ensures SessionRole(s).Some? && IsSocietyRole(SessionRole(s).value) ==>
      (r <==> BuildingInSociety(buildings, resourceBuildingId, IdOr0(s.user.value.societyId)))
  {
    if s.user.None? then false
    else
      var u := s.user.value;
      if u.role == "building_admin" || u.role == "member" then IdOr0(u.buildingId) == resourceBuildingId
      else if u.role == "society_admin" || u.role == "society_pramukh" then
        CountBuildings(buildings, resourceBuildingId, IdOr0(u.societyId)) > 0
      else false
  }

  /** The scope a resolver returns always passes the matching ownership
      check, and a building scope owns no other building and no society. */
  lemma ScopeOwnsItself(s: Session, ajax: bool, buildings: seq<Building>, other: int)
    ensures RequireSocietyScope(s, ajax).Proceed? ==>
      VerifySocietyOwnership(s, RequireSocietyScope(s, ajax).value)
      && (VerifyBuildingOwnership(s, buildings, other) <==> BuildingInSociety(buildings, other, RequireSocietyScope(s, ajax).value))
    ensures RequireBuildingScope(s, ajax).Proceed? ==>
      VerifyBuildingOwnership(s, buildings, RequireBuildingScope(s, ajax).value)
      && (other != RequireBuildingScope(s, ajax).value ==> !VerifyBuildingOwnership(s, buildings, other))
      && !VerifySocietyOwnership(s, other)
  {
  }

  /** A logged-in user whose role's scope id is positive lands on that
      role's page, and that page's guard lets them in. */
  lemma LandingPageIsReachable(s: Session, ajax: bool, r: Role)
    requires IsLoggedIn(s) && SessionRole(s) == Some(r) && ScopeFor(s.user.value, r) > 0
    ensures RedirectByRole(s) == LandingPage(r)
    ensures RequireRole(s, ajax, {r}) == Proceed(s.user.value)
    ensures IsSocietyRole(r) ==> RequireSocietyScope(s, ajax) == Proceed(ScopeFor(s.user.value, r))
    ensures IsBuildingRole(r) ==> RequireBuildingScope(s, ajax) == Proceed(ScopeFor(s.user.value, r))
  {
  }

  // ---------------------------------------------------------------------
  // Screen preambles

  /** require_role(allowed) followed by require_society_scope(): the
      preamble of every society-level screen. */
  function GuardSociety(s: Session, ajax: bool, allowed: set<Role>): (r: Outcome<int>)
    ensures r.Proceed? <==> IsLoggedIn(s) && SessionRole(s).Some? && SessionRole(s).value in allowed
                            && IsSocietyRole(SessionRole(s).value) && IdOr0(s.user.value.societyId) > 0
    ensures r.Proceed? ==> r.value == IdOr0(s.user.value.societyId)
  {
    match RequireRole(s, ajax, allowed)
    case Proceed(_) => RequireSocietyScope(s, ajax)
    case Redirect(p) => Redirect(p)
    case JsonError(c, m) => JsonError(c, m)
  }

  /** require_role(allowed) followed by require_building_scope(): the
      preamble of every building-level screen. */
  function GuardBuilding(s: Session, ajax: bool, allowed: set<Role>): (r: Outcome<int>)
    ensures r.Proceed? <==> IsLoggedIn(s) && SessionRole(s).Some? && SessionRole(s).value in allowed
                            && IsBuildingRole(SessionRole(s).value) && IdOr0(s.user.value.buildingId) > 0
    ensures r.Proceed? ==> r.value == IdOr0(s.user.value.buildingId)
  {
    match RequireRole(s, ajax, allowed)
    case Proceed(_) => RequireBuildingScope(s, ajax)
    case Redirect(p) => Redirect(p)
    case JsonError(c, m) => JsonError(c, m)
  }

  /** The end-to-end scenario: an admin of society 7 resolves scope 7 but
      does not own building 42 of society 9; the admin of building 42
      resolves scope 42. */
  lemma ScopeScenario(ajax: bool)
    ensures var admin := Session(Some(SessionUser(1, "A", "a@x", "society_admin", Some(7), None, Some("active"))), "", None, 0, "", "");
      var badmin := Session(Some(SessionUser(2, "B", "b@x", "building_admin", Some(9), Some(42), Some("active"))), "", None, 0, "", "");
      var buildings := [Building(42, 9, "B Wing")];
      RequireSocietyScope(admin, ajax) == Proceed(7)
      && !VerifyBuildingOwnership(admin, buildings, 42)
      && RequireBuildingScope(badmin, ajax) == Proceed(42)
      && RequireBuildingScope(admin, ajax) == (if ajax then JsonError(403, "Invalid building scope") else Redirect(LogoutPath))
  {
  }

  // ---------------------------------------------------------------------
  // Pagination

  datatype Page<T> = Page(data: seq<T>, total: int, page: int, perPage: int, totalPages: int, hasMore: bool)

  /** Multiplying by a positive number keeps the order. */
  lemma MulMonotone(a: int, b: int, d: int)
    requires a <= b && d > 0
    ensures a * d <= b * d
  {
    var k := b - a;
    assert b * d == a * d + k * d;
  }

  /** ceil(n / d) as the source computes total_pages: a page p is before
      the last one iff p * d < n. */
  lemma CeilDivBounds(n: nat, d: int, p: int)
    requires d > 0 && p >= 1
    ensures p < (n + d - 1) / d <==> p * d < n
  {
    var q := (n + d - 1) / d;
    var rem := (n + d - 1) % d;
    assert n + d - 1 == q * d + rem && 0 <= rem < d;
    if p < q {
      MulMonotone(p, q - 1, d);
      assert (q - 1) * d == q * d - d;
    } else {
      MulMonotone(q, p, d);
    }
  }

  /** The number of pages, ceil(n / d), is the one page count whose
      pages hold all n rows with the last page non-empty. */
  lemma CeilDivPinned(n: nat, d: int)
    requires d > 0
    ensures var q := (n + d - 1) / d;
      q >= 0 && (q - 1) * d < n <= q * d
  {
    var q := (n + d - 1) / d;
    var rem := (n + d - 1) % d;
    assert n + d - 1 == q * d + rem && 0 <= rem < d;
    assert (q - 1) * d == q * d - d;
  }

  /** The arithmetic of one page: its offset is non-negative, the next
      page starts perPage rows later, and it is before the last page iff
      rows remain after it. */
  lemma PageArith(n: nat, perPage: int, pg: int)
    requires perPage > 0 && pg >= 1
    ensures (pg - 1) * perPage >= 0
    ensures pg * perPage == (pg - 1) * perPage + perPage
    ensures pg < (n + perPage - 1) / perPage <==> pg * perPage < n
  {
    MulMonotone(0, pg - 1, perPage);
    CeilDivBounds(n, perPage, pg);
  }

  /** The LIMIT perPage OFFSET offset window of the full result. */
  function Window<T>(rows: seq<T>, offset: nat, perPage: int): (data: seq<T>)
    requires perPage > 0
    ensures |data| <= perPage
    ensures forall k :: 0 <= k < |data| ==> offset + k < |rows| && data[k] == rows[offset + k]
    ensures |data| == perPage || offset + |data| >= |rows|
    ensures offset + |data| < |rows| <==> offset + perPage < |rows|
  {
    if offset >= |rows| then [] else rows[offset .. if offset + perPage < |rows| then offset + perPage else |rows|]
  }

  /** paginate(): page clamped to at least 1, offset (page-1)*perPage, the
      page's rows taken from the full result, has_more when rows remain
      after this page. */
  function Paginate<T>(rows: seq<T>, page: int, perPage: int): (p: Page<T>)
    requires perPage > 0
    ensures p.page == (if page < 1 then 1 else page)
    ensures p.total == |rows| && p.perPage == perPage
    ensures |p.data| <= perPage
    ensures forall k :: 0 <= k < |p.data| ==> (p.page - 1) * perPage + k < |rows| && p.data[k] == rows[(p.page - 1) * perPage + k]
    ensures |p.data| == perPage || (p.page - 1) * perPage + |p.data| >= |rows|
    ensures p.hasMore <==> p.page * perPage < |rows|
    ensures p.hasMore <==> p.page < p.totalPages
    ensures (p.totalPages - 1) * perPage < |rows| <= p.totalPages * perPage
  {
    var pg := if page < 1 then 1 else page;
    PageArith(|rows|, perPage, pg);
    CeilDivPinned(|rows|, perPage);
    var offset: nat := (pg - 1) * perPage;
    var data := Window(rows, offset, perPage);
    var totalPages := (|rows| + perPage - 1) / perPage;
    Page(data, |rows|, pg, perPage, totalPages, offset + |data| < |rows|)
  }

  /** Row `k` sits `k % perPage` rows into page `k / perPage + 1`. */
  lemma PageOfIndex(k: nat, perPage: int, pg: int)
    requires perPage > 0 && pg == k / perPage + 1
    ensures (pg - 1) * perPage == k - k % perPage
    ensures 0 <= k % perPage < perPage
  {
  }

  /** Every row appears on exactly the page its index says. */
  lemma PaginateCovers<T>(rows: seq<T>, perPage: int, k: int)
    requires perPage > 0 && 0 <= k < |rows|
    ensures var p := Paginate(rows, k / perPage + 1, perPage);
      k % perPage < |p.data| && p.data[k % perPage] == rows[k]
  {
    var m := k % perPage;
    var p := Paginate(rows, k / perPage + 1, perPage);
    PageOfIndex(k, perPage, p.page);
    assert m < |p.data|;
  }
}

=== FILE: building_fund.dfy ===
/** backend/building/fund.php: the POST validates like the society screen
    but never executes its prepared INSERT, so the ledger is unchanged
    while the success message is set and the form cleared; the balance is
    derived from the ledger. */
module BuildingFund {
  import opened Wrappers
  import opened Schema
  import opened Ledger

  const AddedMsg: string := "Transaction added."

  function PostBuildingFund(db: Db, buildingId: int, f: FundForm): (r: PostResult)
    ensures r.db == db
    ensures ValidateFundForm(f).Invalid? ==> r == Reject(db, ValidateFundForm(f).message)
    ensures ValidateFundForm(f).Valid? ==> r.success == Some(AddedMsg) && r.error.None? && r.formCleared
  {
    match ValidateFundForm(f)
    case Invalid(message) => Reject(db, message)
    case Valid(_, _) => PostResult(db, Some(AddedMsg), None, true)
  }

  /** A building's balance is unchanged by every POST, accepted or not. */
  lemma PostLeavesBalance(db: Db, buildingId: int, f: FundForm)
    ensures Balance(PostBuildingFund(db, buildingId, f).db.buildingFund, buildingId) == Balance(db.buildingFund, buildingId)
  {
  }
}

=== FILE: buildings.dfy ===
/** The society-admin buildings screen (backend/admin/buildings.php): add,
    rename and delete buildings of the caller's society, seed the thirteen
    default wings, and create or update a building's admin account. */
module Buildings {
  import opened Wrappers
  import opened PhpStrings
  import opened Schema
  import opened Filtering

  const NameRequiredMsg: string := "Building name is required."
  const InvalidRequestMsg: string := "Invalid request."

  /** add: the trimmed name must be non-empty. */
  function AddBuilding(db: Db, societyId: int, name: string): (r: PostResult)
    ensures Trim(name) == [] ==> r == Reject(db, NameRequiredMsg)
    ensures Trim(name) != [] ==>
      r.success == Some("Building added.") && r.error.None?
      && r.db == db.(buildings := db.buildings + [Building(db.nextId, societyId, Trim(name))], nextId := db.nextId + 1)
  {
    var n := Trim(name);
    if n == "" then Reject(db, NameRequiredMsg)
    else PostResult(db.(buildings := db.buildings + [Building(db.nextId, societyId, n)], nextId := db.nextId + 1),
                    Some("Building added."), None, false)
  }

  /** Renames the rows with this id in this society to `n`. */
  function Rename(bs: seq<Building>, id: int, societyId: int, n: string): (r: seq<Building>)
    ensures |r| == |bs|
    ensures forall k :: 0 <= k < |bs| ==>
      r[k] == (if bs[k].id == id && bs[k].societyId == societyId then bs[k].(name := n) else bs[k])
  {
    seq(|bs|, k requires 0 <= k < |bs| => if bs[k].id == id && bs[k].societyId == societyId then bs[k].(name := n) else bs[k])
  }

  /** edit: renames the building only when it belongs to the caller's
      society; every other row is untouched. */
  function EditBuilding(db: Db, societyId: int, id: int, name: string): (r: PostResult)
    ensures id <= 0 || Trim(name) == [] ==> r == Reject(db, InvalidRequestMsg)
    ensures id > 0 && Trim(name) != [] ==>
      r == PostResult(db.(buildings := Rename(db.buildings, id, societyId, Trim(name))), Some("Building updated."), None, false)
  {
    var n := Trim(name);
    if id <= 0 || n == "" then Reject(db, InvalidRequestMsg)
    else PostResult(db.(buildings := Rename(db.buildings, id, societyId, n)), Some("Building updated."), None, false)
  }

  /** The rows a scoped delete keeps. */
  function KeepUnless(bs: seq<Building>, id: int, societyId: int): (r: seq<Building>)
    ensures forall b :: b in r <==> b in bs && !(b.id == id && b.societyId == societyId)
    ensures |r| <= |bs|
  {
    if |bs| == 0 then []
    else
      var rest := KeepUnless(bs[1..], id, societyId);
      assert bs == [bs[0]] + bs[1..];
      if bs[0].id == id && bs[0].societyId == societyId then rest else [bs[0]] + rest
  }

  /** delete: removes the building only when it belongs to the caller's
      society. */
  function DeleteBuilding(db: Db, societyId: int, id: int): (r: PostResult)
    ensures id <= 0 ==> r == Reject(db, InvalidRequestMsg)
    ensures r.db == db.(buildings := r.db.buildings)
    ensures id > 0 ==> r.success == Some("Building deleted.")
    ensures forall b :: b in r.db.buildings <==> b in db.buildings && !(r.success.Some? && b.id == id && b.societyId == societyId)
  {
    if id <= 0 then Reject(db, InvalidRequestMsg)
    else PostResult(db.(buildings := KeepUnless(db.buildings, id, societyId)), Some("Building deleted."), None, false)
  }

  /** A building of another society survives every edit and delete. */
  lemma ForeignBuildingsUntouched(db: Db, societyId: int, id: int, name: string, b: Building)
    requires b in db.buildings && b.societyId != societyId
    ensures b in EditBuilding(db, societyId, id, name).db.buildings
    ensures b in DeleteBuilding(db, societyId, id).db.buildings
  {
    var k :| 0 <= k < |db.buildings| && db.buildings[k] == b;

  }

  // ---------------------------------------------------------------------
  // seed13

  /** "A Wing" ... "M Wing". */
  function DefaultName(i: nat): (s: string)
    requires i < 13
    ensures |s| == 6 && s[0] == (('A' as int) + i) as char && s[1..] == " Wing"
  {
    [(('A' as int) + i) as char] + " Wing"
  }

  /** The thirteen default building names, in order. */
  function Defaults(): (ds: seq<string>)
    ensures |ds| == 13 && forall i :: 0 <= i < 13 ==> ds[i] == DefaultName(i)
    ensures Distinct(ds)
  {
    seq(13, i requires 0 <= i < 13 => DefaultName(i))
  }

  /** The dedupe key: strtolower(trim(name)). */
  function Key(name: string): string {
    ToLower(Trim(name))
  }

  /** The keys of the buildings this society already has. */
  function SocietyKeys(bs: seq<Building>, societyId: int): set<string> {
    set b | b in bs && b.societyId == societyId :: Key(b.name)
  }

  /** A default is created when its key is non-empty and not yet taken. */
  predicate Wanted(d: string, taken: set<string>) {
    Key(d) != [] && Key(d) !in taken
  }

  /** The wanted defaults, in default order. */
  function MissingDefaults(names: seq<string>, taken: set<string>): (r: seq<string>)
    ensures |r| <= |names|
    ensures forall d {:trigger d in r} :: d in r <==> d in names && Wanted(d, taken)
    ensures r == [] <==> forall d :: d in names ==> !Wanted(d, taken)
  {
    if |names| == 0 then []
    else
      var rest := MissingDefaults(names[1..], taken);
      var r := if Wanted(names[0], taken) then [names[0]] + rest else rest;
      MissingStep(names, taken, rest, r);
      r
  }

  /** One step of MissingDefaults: the head is kept iff it is wanted. */
  lemma MissingStep(names: seq<string>, taken: set<string>, rest: seq<string>, r: seq<string>)
    requires |names| > 0
    requires forall d {:trigger d in rest} :: d in rest <==> d in names[1..] && Wanted(d, taken)
    requires r == if Wanted(names[0], taken) then [names[0]] + rest else rest
    ensures forall d {:trigger d in r} :: d in r <==> d in names && Wanted(d, taken)
    ensures r == [] <==> forall d :: d in names ==> !Wanted(d, taken)
  {
    FilterStep(names, WantedIn(taken), rest, r);
  }

  function WantedIn(taken: set<string>): string -> bool {
    d => Wanted(d, taken)
  }

  /** The wanted defaults are the defaults filtered by Wanted. */
  lemma {:induction false} MissingDefaultsIsFilter(names: seq<string>, taken: set<string>)
    ensures MissingDefaults(names, taken) == Filter(names, WantedIn(taken))
  {
    if |names| > 0 {
      MissingDefaultsIsFilter(names[1..], taken);
      assert WantedIn(taken)(names[0]) == Wanted(names[0], taken);
    }
  }

  /** The positions in `names` of the wanted defaults, in increasing
      order: the k-th wanted default is names[p[k]]. */
  function MissingPositions(names: seq<string>, taken: set<string>): (p: seq<int>)
    ensures |p| == |MissingDefaults(names, taken)|
    ensures forall k :: 0 <= k < |p| ==> 0 <= p[k] < |names| && names[p[k]] == MissingDefaults(names, taken)[k]
    ensures forall k, l :: 0 <= k < l < |p| ==> p[k] < p[l]
  {
    MissingDefaultsIsFilter(names, taken);
    FilterPositions(names, WantedIn(taken))
  }

  predicate Distinct(s: seq<string>) {
    forall i, j :: 0 <= i < j < |s| ==> s[i] != s[j]
  }

  lemma DistinctCons(x: string, rest: seq<string>)
    requires x !in rest && Distinct(rest)
    ensures Distinct([x] + rest)
  {
    var r := [x] + rest;
    forall i, j | 0 <= i < j < |r| ensures r[i] != r[j] {
      assert r[j] == rest[j - 1];
      if i > 0 {
        assert r[i] == rest[i - 1];
      }
    }
  }

  lemma DistinctTail(s: seq<string>)
    requires |s| > 0 && Distinct(s)
    ensures s[0] !in s[1..] && Distinct(s[1..])
  {
    forall k | 0 <= k < |s| - 1 ensures s[1..][k] != s[0] {
      assert s[1..][k] == s[k + 1];
    }
  }

  lemma {:induction false} MissingDefaultsDistinct(names: seq<string>, taken: set<string>)
    requires Distinct(names)
    ensures Distinct(MissingDefaults(names, taken))
  {
    if |names| > 0 {
      var tail := names[1..];
      DistinctTail(names);
      MissingDefaultsDistinct(tail, taken);
      var rest := MissingDefaults(tail, taken);
      if Wanted(names[0], taken) {
        assert MissingDefaults(names, taken) == [names[0]] + rest;
        DistinctCons(names[0], rest);
      } else {
        assert MissingDefaults(names, taken) == rest;
      }
    }
  }

  /** The keys of the defaults are pairwise distinct and non-empty. */
  lemma DefaultKeysDistinct(i: nat, j: nat)
    requires i < 13 && j < 13
    ensures Key(DefaultName(i)) != []
    ensures i != j ==> Key(DefaultName(i)) != Key(DefaultName(j))
  {
    DefaultKeyHead(i);
    DefaultKeyHead(j);
  }

  lemma DefaultKeyHead(i: nat)
    requires i < 13
    ensures |Key(DefaultName(i))| == 6 && Key(DefaultName(i))[0] == ((('a' as int) + i) as char)
  {
    var s := DefaultName(i);
    assert !IsTrimChar(s[0]) && !IsTrimChar(s[5]);
    TrimNoop(s);
  }

  /** Buildings named `names`, with consecutive fresh ids. */
  function NewBuildings(names: seq<string>, firstId: int, societyId: int): (r: seq<Building>)
    ensures |r| == |names|
    ensures forall k :: 0 <= k < |names| ==> r[k] == Building(firstId + k, societyId, names[k])
  {
    seq(|names|, k requires 0 <= k < |names| => Building(firstId + k, societyId, names[k]))
  }

  /** The names seed13 would create for this society. */
  function SeedList(db: Db, societyId: int): (r: seq<string>)
    ensures |r| <= 13
    ensures forall d :: d in r <==> d in Defaults() && Wanted(d, SocietyKeys(db.buildings, societyId))
    ensures Distinct(r)
  {
    MissingDefaultsDistinct(Defaults(), SocietyKeys(db.buildings, societyId));
    MissingDefaults(Defaults(), SocietyKeys(db.buildings, societyId))
  }

  /** seed13 creates the missing defaults in A … M order: the k-th name
      created is the default at position p[k], and p strictly increases. */
  lemma SeedListInDefaultOrder(db: Db, societyId: int)
    ensures var p := MissingPositions(Defaults(), SocietyKeys(db.buildings, societyId));
      var r := SeedList(db, societyId);
      |p| == |r|
      && (forall k :: 0 <= k < |r| ==> 0 <= p[k] < 13 && r[k] == DefaultName(p[k]))
      && (forall k, l :: 0 <= k < l < |r| ==> p[k] < p[l])
  {
  }

  const AllExistMsg: string := "All 13 default buildings already exist."
  const SeedFailedMsg: string := "Failed to create default buildings."

  /** seed13: creates the missing defaults in one transaction; `fault`
      stands for a failure of an insert or of the commit, which rolls
      everything back. */
  function Seed13(db: Db, societyId: int, fault: bool): (r: PostResult)
    ensures var m := SeedList(db, societyId);
      |m| == 0 ==> r == PostResult(db, Some(AllExistMsg), None, false)
    ensures var m := SeedList(db, societyId);
      |m| > 0 && fault ==> r == Reject(db, SeedFailedMsg)
    ensures var m := SeedList(db, societyId);
      |m| > 0 && !fault ==>
        r.db == db.(buildings := db.buildings + NewBuildings(m, db.nextId, societyId), nextId := db.nextId + |m|)
        && r.success == Some("Default buildings created: " + NatToString(|m|))
  {
    InsertDefaults(db, societyId, SeedList(db, societyId), fault)
  }

  /** The transaction that inserts the create list `missing`. */
  function InsertDefaults(db: Db, societyId: int, missing: seq<string>, fault: bool): (r: PostResult)
    ensures |missing| == 0 ==> r == PostResult(db, Some(AllExistMsg), None, false)
    ensures |missing| > 0 && fault ==> r == Reject(db, SeedFailedMsg)
    ensures |missing| > 0 && !fault ==>
      r.db == db.(buildings := db.buildings + NewBuildings(missing, db.nextId, societyId), nextId := db.nextId + |missing|)
      && r.success == Some("Default buildings created: " + NatToString(|missing|))
  {
    if |missing| == 0 then PostResult(db, Some(AllExistMsg), None, false)
    else if fault then Reject(db, SeedFailedMsg)
    else PostResult(db.(buildings := db.buildings + NewBuildings(missing, db.nextId, societyId), nextId := db.nextId + |missing|),
                    Some("Default buildings created: " + NatToString(|missing|)), None, false)
  }

  /** The seeded names have pairwise distinct keys, so seed13 never
      creates two buildings that would count as the same. */
  lemma SeedCreatesNoDuplicates(db: Db, societyId: int)
    ensures forall a, b :: 0 <= a < b < |SeedList(db, societyId)| ==> Key(SeedList(db, societyId)[a]) != Key(SeedList(db, societyId)[b])
  {
    var m := SeedList(db, societyId);
    forall a, b | 0 <= a < b < |m| ensures Key(m[a]) != Key(m[b]) {
      assert m[a] in m && m[b] in m && m[a] != m[b];
      DefaultNamesKeyDistinct(m[a], m[b]);
    }
  }

  /** Two different defaults never share a key. */
  lemma DefaultNamesKeyDistinct(x: string, y: string)
    requires x in Defaults() && y in Defaults() && x != y
    ensures Key(x) != Key(y)
  {
    var ds := Defaults();
    var i :| 0 <= i < 13 && ds[i] == x;
    var j :| 0 <= j < 13 && ds[j] == y;
    DefaultKeysDistinct(i, j);
  }

  /** After a successful seed every default name is present, so running
      seed13 again creates nothing. */
  lemma Seed13Idempotent(db: Db, societyId: int, fault: bool)
    requires Seed13(db, societyId, false).error.None?
    ensures var db1 := Seed13(db, societyId, false).db;
      (forall d :: d in Defaults() ==> Key(d) in SocietyKeys(db1.buildings, societyId))
      && Seed13(db1, societyId, fault) == PostResult(db1, Some(AllExistMsg), None, false)
  {
    var taken := SocietyKeys(db.buildings, societyId);
    var missing := MissingDefaults(Defaults(), taken);
    var db1 := Seed13(db, societyId, false).db;
    var added := NewBuildings(missing, db.nextId, societyId);
    forall d | d in Defaults() ensures Key(d) in SocietyKeys(db1.buildings, societyId) {
      var i :| 0 <= i < 13 && Defaults()[i] == d;
      DefaultKeysDistinct(i, i);
      if Key(d) in taken {
        var b :| b in db.buildings && b.societyId == societyId && Key(b.name) == Key(d);
        assert b in db1.buildings;
      } else {
        assert d in missing;
        var k :| 0 <= k < |missing| && missing[k] == d;
        assert added[k] in db1.buildings;
      }
    }
  }

  // ---------------------------------------------------------------------
  // upsert_building_admin

  datatype AdminForm = AdminForm(buildingId: int, email: string, password: string, status: Option<string>)

  /** SELECT ... FROM buildings WHERE id = ? AND society_id = ? LIMIT 1 */
  function FindBuilding(bs: seq<Building>, id: int, societyId: int): (r: Option<Building>)
    ensures r.Some? ==> r.value in bs && r.value.id == id && r.value.societyId == societyId
    ensures r.None? <==> !BuildingInSociety(bs, id, societyId)
  {
    if |bs| == 0 then None
    else if bs[0].id == id && bs[0].societyId == societyId then Some(bs[0])
    else
      var r := FindBuilding(bs[1..], id, societyId);
      assert BuildingInSociety(bs, id, societyId) <==> BuildingInSociety(bs[1..], id, societyId) by {
        if BuildingInSociety(bs, id, societyId) {
          var i :| 0 <= i < |bs| && bs[i].id == id && bs[i].societyId == societyId;
          assert bs[1..][i - 1] == bs[i];
        }
        if BuildingInSociety(bs[1..], id, societyId) {
          var i :| 0 <= i < |bs[1..]| && bs[1..][i].id == id && bs[1..][i].societyId == societyId;
          assert bs[i + 1] == bs[1..][i];
        }
      }
      r
  }

  predicate IsAdminOf(u: User, societyId: int, buildingId: int) {
    u.role == "building_admin" && u.societyId == Some(societyId) && u.buildingId == Some(buildingId)
  }

  /** SELECT id FROM users WHERE role='building_admin' AND society_id = ?
      AND building_id = ? ORDER BY id ASC LIMIT 1 */
  function FirstAdminId(users: seq<User>, societyId: int, buildingId: int): (r: Option<int>)
    ensures r.Some? ==> exists u :: u in users && IsAdminOf(u, societyId, buildingId) && u.id == r.value
    ensures r.Some? ==> forall u :: u in users && IsAdminOf(u, societyId, buildingId) ==> r.value <= u.id
    ensures r.None? <==> forall u :: u in users ==> !IsAdminOf(u, societyId, buildingId)
  {
    if |users| == 0 then None
    else
      var rest := FirstAdminId(users[1..], societyId, buildingId);
      assert users == [users[0]] + users[1..];
      if !IsAdminOf(users[0], societyId, buildingId) then rest
      else if rest.Some? && rest.value < users[0].id then rest
      else Some(users[0].id)
  }

  /** The admin's display name. */
  function AdminName(buildingName: string): (n: string)
    ensures Trim(buildingName) != [] ==> n == Trim(buildingName) + " Admin"
    ensures Trim(buildingName) == [] ==> n == "Building Admin"
  {
    var t := Trim(buildingName);
    (if t != "" then t else "Building") + " Admin"
  }

  /** The unique index on users.email, for an update of row `id`. */
  predicate EmailTakenByOther(users: seq<User>, email: string, id: int) {
    exists k :: 0 <= k < |users| && users[k].email == email && users[k].id != id
  }

  const SaveAdminFailedMsg: string := "Failed to save building admin (email may already exist)."

  /** The admin row after an update: name, email and status replaced, the
      password hash only when a new password was given. */
  function UpdatedAdmin(u: User, name: string, email: string, hash: Option<string>, status: string): User {
    u.(name := name, email := email, passwordHash := hash.GetOr(u.passwordHash), status := Some(status))
  }

  /** UPDATE users SET ... WHERE id = ? AND role='building_admin' AND
      society_id = ? AND building_id = ? */
  function ReplaceAdmin(users: seq<User>, id: int, societyId: int, buildingId: int,
                        name: string, email: string, hash: Option<string>, status: string): (r: seq<User>)
    ensures |r| == |users|
    ensures forall k :: 0 <= k < |users| ==>
      r[k] == (if users[k].id == id && IsAdminOf(users[k], societyId, buildingId)
               then UpdatedAdmin(users[k], name, email, hash, status) else users[k])
  {
    seq(|users|, k requires 0 <= k < |users| =>
      if users[k].id == id && IsAdminOf(users[k], societyId, buildingId)
      then UpdatedAdmin(users[k], name, email, hash, status) else users[k])
  }

  /** `(int)($row['id'] ?? 0)` for the first admin of the building. */
  function ExistingAdminId(users: seq<User>, societyId: int, buildingId: int): int {
    FirstAdminId(users, societyId, buildingId).GetOr(0)
  }

  /** The first failing validation of the upsert form, in source order. */
  function AdminFormError(f: AdminForm, env: Env): (e: Option<string>)
    ensures f.buildingId <= 0 ==> e == Some(InvalidRequestMsg)
    ensures f.buildingId > 0 && (Trim(f.email) == [] || !env.validEmail(Trim(f.email))) ==> e == Some("Valid email is required.")
    ensures (f.buildingId > 0 && Trim(f.email) != [] && env.validEmail(Trim(f.email))
             && !ValidAccountStatus(f.status.GetOr("active"))) ==> e == Some("Invalid status.")
    ensures e.None? <==> f.buildingId > 0 && Trim(f.email) != [] && env.validEmail(Trim(f.email)) && ValidAccountStatus(f.status.GetOr("active"))
  {
    var email := Trim(f.email);
    if f.buildingId <= 0 then Some(InvalidRequestMsg)
    else if email == "" || !env.validEmail(email) then Some("Valid email is required.")
    else if !ValidAccountStatus(f.status.GetOr("active")) then Some("Invalid status.")
    else None
  }

  /** upsert_building_admin: after validation the building must belong to
      the caller's society; the first admin of the building (lowest id) is
      updated in place, otherwise a new admin is inserted, which needs a
      password. The unique index on users.email can refuse either write. */
  function UpsertBuildingAdmin(db: Db, societyId: int, f: AdminForm, env: Env): (r: PostResult)
    ensures AdminFormError(f, env).Some? ==> r == Reject(db, AdminFormError(f, env).value)
    ensures AdminFormError(f, env).None? && !BuildingInSociety(db.buildings, f.buildingId, societyId) ==>
      r == Reject(db, "Building not found.")
    ensures r.success.None? ==> r.db == db
    ensures r.success.Some? && ExistingAdminId(db.users, societyId, f.buildingId) <= 0 ==>
      f.password != "" && !EmailTaken(db.users, Trim(f.email))
      && r.db == db.(users := db.users + [User(db.nextId, AdminName(FindBuilding(db.buildings, f.buildingId, societyId).value.name),
                                               Trim(f.email), env.hash(f.password), "building_admin", Some(societyId),
                                               Some(f.buildingId), Some(f.status.GetOr("active")))],
                     nextId := db.nextId + 1)
    ensures r.success.Some? && ExistingAdminId(db.users, societyId, f.buildingId) > 0 ==>
      r.db == db.(users := ReplaceAdmin(db.users, ExistingAdminId(db.users, societyId, f.buildingId), societyId, f.buildingId,
                                        AdminName(FindBuilding(db.buildings, f.buildingId, societyId).value.name), Trim(f.email),
                                        if f.password == "" then None else Some(env.hash(f.password)), f.status.GetOr("active")))
    ensures r.success.None? <==>
      AdminFormError(f, env).Some? || !BuildingInSociety(db.buildings, f.buildingId, societyId)
      || (ExistingAdminId(db.users, societyId, f.buildingId) > 0 && EmailTakenByOther(db.users, Trim(f.email), ExistingAdminId(db.users, societyId, f.buildingId)))
      || (ExistingAdminId(db.users, societyId, f.buildingId) <= 0 && (f.password == "" || EmailTaken(db.users, Trim(f.email))))
  {
    var email := Trim(f.email);
    var status := f.status.GetOr("active");
    var err := AdminFormError(f, env);
    if err.Some? then Reject(db, err.value)
    else
      var b := FindBuilding(db.buildings, f.buildingId, societyId);
      if b.None? then Reject(db, "Building not found.")
      else
        var existingId := ExistingAdminId(db.users, societyId, f.buildingId);
        var name := AdminName(b.value.name);
        if existingId > 0 then
          if EmailTakenByOther(db.users, email, existingId) then Reject(db, SaveAdminFailedMsg)
          else
            var hash := if f.password == "" then None else Some(env.hash(f.password));
            PostResult(db.(users := ReplaceAdmin(db.users, existingId, societyId, f.buildingId, name, email, hash, status)),
                       Some(if f.password == "" then "Building admin updated." else "Building admin updated (password changed)."),
                       None, false)
        else if f.password == "" then Reject(db, "Password is required for new building admin.")
        else if EmailTaken(db.users, email) then Reject(db, SaveAdminFailedMsg)
        else
          var u := User(db.nextId, name, email, env.hash(f.password), "building_admin", Some(societyId), Some(f.buildingId), Some(status));
          PostResult(db.(users := db.users + [u], nextId := db.nextId + 1), Some("Building admin created."), None, false)
  }

  /** Updating an existing admin without a password keeps every stored
      hash; a new admin cannot be created without one. */
  lemma UpsertPasswordRules(db: Db, societyId: int, f: AdminForm, env: Env)
    requires f.password == ""
    ensures var r := UpsertBuildingAdmin(db, societyId, f, env);
      |r.db.users| >= |db.users|
      && (forall k :: 0 <= k < |db.users| ==> r.db.users[k].passwordHash == db.users[k].passwordHash)
      && (ExistingAdminId(db.users, societyId, f.buildingId) <= 0 ==> r.success.None?)
  {
  }

  /** Only the chosen admin row changes: the other users, including
      admins of other buildings and other societies, stay as they were. */
  lemma UpsertTouchesOnlyTheAdmin(db: Db, societyId: int, f: AdminForm, env: Env, k: nat)
    requires k < |db.users|
    requires !IsAdminOf(db.users[k], societyId, f.buildingId)
    ensures UpsertBuildingAdmin(db, societyId, f, env).db.users[k] == db.users[k]
  {
  }
}

=== FILE: dashboard.dfy ===
/** The in-PHP logic of backend/building/dashboard.php: the chart arrays
    built from the monthly totals and the recent-activity feed merged from
    fund, maintenance and meeting rows, sorted by timestamp (newest first,
    string order) and cut to 8 entries. The SQL that fetches the rows is
    not modelled; its results are inputs. The fund total is
    `Ledger.Balance`. */
module BuildingDashboard {
  import opened Wrappers
  import opened PhpStrings

  /** Rows returned by the dashboard's queries. */
  datatype FundEntry = FundEntry(amount: int, kind: string, date: string, createdAt: string)
  datatype MaintenanceEntry = MaintenanceEntry(amount: int, month: string, status: Option<string>, createdAt: string, memberName: string)
  datatype MeetingEntry = MeetingEntry(title: Option<string>, meetingDate: string, createdAt: string)
  datatype MonthTotals = MonthTotals(caption: string, income: int, expense: int)

  datatype ActivityKind = FundActivity | MaintenanceActivity | MeetingActivity

  datatype Activity = Activity(ts: string, kind: ActivityKind, title: string, meta: string, amount: Option<int>, badge: string)

  const FeedLimit: nat := 8

  // ---------------------------------------------------------------------
  // Chart arrays

  datatype Chart = Chart(labels: seq<string>, income: seq<int>, expense: seq<int>)

  /** The three chart series, index-aligned with the monthly rows. */
  function ChartArrays(monthly: seq<MonthTotals>): (c: Chart)
    ensures |c.labels| == |monthly| && |c.income| == |monthly| && |c.expense| == |monthly|
    ensures forall i :: 0 <= i < |monthly| ==>
      c.labels[i] == monthly[i].caption && c.income[i] == monthly[i].income && c.expense[i] == monthly[i].expense
  {
    if |monthly| == 0 then Chart([], [], [])
    else
      var rest := ChartArrays(monthly[1..]);
      Chart([monthly[0].caption] + rest.labels, [monthly[0].income] + rest.income, [monthly[0].expense] + rest.expense)
  }

  // ---------------------------------------------------------------------
  // Activity entries

  /** Title of a fund activity: income, expense, and anything else as used. */
  function FundTitle(kind: string): (t: string)
    ensures t == "Fund Income" <==> kind == "income"
    ensures t == "Fund Expense" <==> kind == "expense"
    ensures kind != "income" && kind != "expense" ==> t == "Fund Used"
  {
    if kind == "income" then "Fund Income" else if kind == "expense" then "Fund Expense" else "Fund Used"
  }

  function FundActivityOf(r: FundEntry): Activity {
    Activity(r.createdAt, FundActivity, FundTitle(r.kind), r.date, Some(r.amount), r.kind)
  }

  /** `monthLabel` stands for date('M Y', strtotime($month . '-01')). */
  function MaintenanceActivityOf(r: MaintenanceEntry, monthLabel: string -> string): Activity {
    var status := r.status.GetOr("unpaid");
    Activity(r.createdAt, MaintenanceActivity, if status == "paid" then "Maintenance Paid" else "Maintenance Unpaid",
             MaintenanceMeta(r, monthLabel), Some(r.amount), status)
  }

  /** The meta line of a maintenance activity: the member's name, a
      bullet and the month label (empty for an empty month), trimmed. */
  function MaintenanceMeta(r: MaintenanceEntry, monthLabel: string -> string): string {
    Trim(r.memberName + " • " + (if PhpEmpty(r.month) then "" else monthLabel(r.month)))
  }

  function MeetingActivityOf(r: MeetingEntry): Activity {
    Activity(r.createdAt, MeetingActivity, r.title.GetOr("Meeting"), r.meetingDate, None, "meeting")
  }

  /** The unsorted activity list: fund rows, then maintenance rows, then
      meeting rows. Meetings carry no amount; the others always do. */
  function Activities(fund: seq<FundEntry>, maint: seq<MaintenanceEntry>, meetings: seq<MeetingEntry>, monthLabel: string -> string): (a: seq<Activity>)
    ensures |a| == |fund| + |maint| + |meetings|
    ensures forall i :: 0 <= i < |a| ==> (a[i].amount.None? <==> a[i].kind == MeetingActivity)
    ensures forall i :: 0 <= i < |a| && a[i].kind == MaintenanceActivity ==>
      (a[i].title == "Maintenance Paid" <==> a[i].badge == "paid")
    ensures forall i :: 0 <= i < |fund| ==>
      a[i].kind == FundActivity && a[i].ts == fund[i].createdAt && a[i].title == FundTitle(fund[i].kind)
      && a[i].badge == fund[i].kind && a[i].meta == fund[i].date && a[i].amount == Some(fund[i].amount)
    ensures forall i :: 0 <= i < |maint| ==>
      var e := a[|fund| + i];
      e.kind == MaintenanceActivity && e.ts == maint[i].createdAt && e.amount == Some(maint[i].amount)
      && e.badge == maint[i].status.GetOr("unpaid")
      && (e.title == "Maintenance Paid" <==> maint[i].status == Some("paid"))
      && (e.title == "Maintenance Paid" || e.title == "Maintenance Unpaid")
      && e.meta == MaintenanceMeta(maint[i], monthLabel)
    ensures forall i :: 0 <= i < |meetings| ==>
      var e := a[|fund| + |maint| + i];
      e.kind == MeetingActivity && e.ts == meetings[i].createdAt && e.title == meetings[i].title.GetOr("Meeting")
      && e.meta == meetings[i].meetingDate && e.badge == "meeting"
  {
    FundActivities(fund) + MaintenanceActivities(maint, monthLabel) + MeetingActivities(meetings)
  }

  /** The fund rows as activities, in row order. */
  function FundActivities(fund: seq<FundEntry>): (a: seq<Activity>)
    ensures |a| == |fund|
    ensures forall i :: 0 <= i < |fund| ==>
      a[i].kind == FundActivity && a[i].ts == fund[i].createdAt && a[i].title == FundTitle(fund[i].kind)
      && a[i].badge == fund[i].kind && a[i].meta == fund[i].date && a[i].amount == Some(fund[i].amount)
  {
    seq(|fund|, i requires 0 <= i < |fund| => FundActivityOf(fund[i]))
  }

  /** The maintenance rows as activities, in row order. */
  function MaintenanceActivities(maint: seq<MaintenanceEntry>, monthLabel: string -> string): (a: seq<Activity>)
    ensures |a| == |maint|
    ensures forall i :: 0 <= i < |maint| ==>
      a[i].kind == MaintenanceActivity && a[i].ts == maint[i].createdAt && a[i].amount == Some(maint[i].amount)
      && a[i].badge == maint[i].status.GetOr("unpaid")
      && (a[i].title == "Maintenance Paid" <==> maint[i].status == Some("paid"))
      && (a[i].title == "Maintenance Paid" || a[i].title == "Maintenance Unpaid")
      && a[i].meta == MaintenanceMeta(maint[i], monthLabel)
  {
    seq(|maint|, i requires 0 <= i < |maint| => MaintenanceActivityOf(maint[i], monthLabel))
  }

  /** The meeting rows as activities, in row order. */
  function MeetingActivities(meetings: seq<MeetingEntry>): (a: seq<Activity>)
    ensures |a| == |meetings|
    ensures forall i :: 0 <= i < |meetings| ==>
      a[i].kind == MeetingActivity && a[i].ts == meetings[i].createdAt && a[i].title == meetings[i].title.GetOr("Meeting")
      && a[i].meta == meetings[i].meetingDate && a[i].badge == "meeting" && a[i].amount.None?
  {
    seq(|meetings|, i requires 0 <= i < |meetings| => MeetingActivityOf(meetings[i]))
  }

  // ---------------------------------------------------------------------
  // Sorting: usort with strcmp($b['ts'], $a['ts'])

  /** Newest first: timestamps never increase along the sequence. */
  ghost predicate SortedDesc(s: seq<Activity>) {
    forall i, j :: 0 <= i < j < |s| ==> StrLe(s[j].ts, s[i].ts)
  }

  /** No entry of `s` is newer than `top`. */
  ghost predicate NoneNewer(s: seq<Activity>, top: string) {
    forall k :: 0 <= k < |s| ==> StrLe(s[k].ts, top)
  }

  /** In a newest-first sequence whose head is no newer than `top`, no
      entry is. */
  lemma HeadBoundsAll(s: seq<Activity>, top: string)
    requires SortedDesc(s) && |s| > 0 && StrLe(s[0].ts, top)
    ensures NoneNewer(s, top)
  {
    forall k | 0 < k < |s| ensures StrLe(s[k].ts, top) {
      StrLeTrans(s[k].ts, s[0].ts, top);
    }
  }

  /** Prepending an entry at least as new as everything keeps the order. */
  lemma PrependSorted(x: Activity, s: seq<Activity>)
    requires SortedDesc(s) && NoneNewer(s, x.ts)
    ensures SortedDesc([x] + s)
  {
    var r := [x] + s;
    forall i, j | 0 <= i < j < |r| ensures StrLe(r[j].ts, r[i].ts) {
      assert r[j] == s[j - 1];
      if i > 0 {
        assert r[i] == s[i - 1];
      }
    }
  }

  /** The bound survives a rearrangement that adds one entry within it. */
  lemma NoneNewerPermuted(t: seq<Activity>, s: seq<Activity>, x: Activity, top: string)
    requires multiset(t) == multiset(s) + multiset{x}
    requires NoneNewer(s, top) && StrLe(x.ts, top)
    ensures NoneNewer(t, top)
  {
    forall j | 0 <= j < |t| ensures StrLe(t[j].ts, top) {
      assert t[j] in multiset(t);
      if t[j] != x {
        assert t[j] in multiset(s);
        var k :| 0 <= k < |s| && s[k] == t[j];
      }
    }
  }

  /** Insert `x` before the first entry that is not newer than it. */
  function Insert(x: Activity, s: seq<Activity>): (r: seq<Activity>)
    requires SortedDesc(s)
    ensures SortedDesc(r)
    ensures multiset(r) == multiset(s) + multiset{x}
    ensures |r| == |s| + 1
  {
    if |s| == 0 then [x]
    else if StrLe(s[0].ts, x.ts) then
      HeadBoundsAll(s, x.ts);
      PrependSorted(x, s);
      [x] + s
    else
      StrLeTotal(s[0].ts, x.ts);
      var rest := s[1..];
      assert s == [s[0]] + rest;
      assert NoneNewer(rest, s[0].ts) by {
        forall k | 0 <= k < |rest| ensures StrLe(rest[k].ts, s[0].ts) {
          assert rest[k] == s[k + 1];
        }
      }
      var tail := Insert(x, rest);
      NoneNewerPermuted(tail, rest, x, s[0].ts);
      PrependSorted(s[0], tail);
      [s[0]] + tail
  }

  function SortByTsDesc(s: seq<Activity>): (r: seq<Activity>)
    ensures SortedDesc(r)
    ensures multiset(r) == multiset(s)
    ensures |r| == |s|
  {
    if |s| == 0 then []
    else
      assert s == [s[0]] + s[1..];
      Insert(s[0], SortByTsDesc(s[1..]))
  }

  /** The first `k` entries of a newest-first sequence are newest first,
      and none of the remaining entries is newer than any of them. */
  lemma {:induction false} SortedPrefix(sorted: seq<Activity>, k: nat)
    requires SortedDesc(sorted) && k <= |sorted|
    ensures SortedDesc(sorted[..k])
    ensures multiset(sorted[..k]) <= multiset(sorted)
    ensures forall a :: a in multiset(sorted) - multiset(sorted[..k]) ==>
      forall i :: 0 <= i < k ==> StrLe(a.ts, sorted[i].ts)
  {
    var r := sorted[..k];
    var rest := sorted[k..];
    assert sorted == r + rest;
    assert multiset(sorted) == multiset(r) + multiset(rest);
    forall a | a in multiset(sorted) - multiset(r)
      ensures forall i :: 0 <= i < k ==> StrLe(a.ts, sorted[i].ts)
    {
      assert a in multiset(rest);
      var j :| 0 <= j < |rest| && rest[j] == a;
      assert sorted[k + j] == a;
    }
  }

  /** The newest `FeedLimit` activities: sorted newest first, cut to the
      first 8. It keeps exactly min(8, n) entries, each one an input
      activity, and every activity left out is no newer than any entry
      kept. */
  function TakeNewest(all: seq<Activity>): (r: seq<Activity>)
    ensures |r| == (if |all| < FeedLimit then |all| else FeedLimit)
    ensures SortedDesc(r)
    ensures multiset(r) <= multiset(all)
    ensures forall a :: a in multiset(all) - multiset(r) ==>
      forall i :: 0 <= i < |r| ==> StrLe(a.ts, r[i].ts)
  {
    var sorted := SortByTsDesc(all);
    var k := if |sorted| < FeedLimit then |sorted| else FeedLimit;
    SortedPrefix(sorted, k);
    sorted[..k]
  }

  /** The dashboard's activity feed. */
  function Feed(fund: seq<FundEntry>, maint: seq<MaintenanceEntry>, meetings: seq<MeetingEntry>, monthLabel: string -> string): (r: seq<Activity>)
    ensures var n := |fund| + |maint| + |meetings|;
      |r| == (if n < FeedLimit then n else FeedLimit)
    ensures SortedDesc(r)
    ensures multiset(r) <= multiset(Activities(fund, maint, meetings, monthLabel))
    ensures var all := Activities(fund, maint, meetings, monthLabel);
      forall a :: a in multiset(all) - multiset(r) ==> forall i :: 0 <= i < |r| ==> StrLe(a.ts, r[i].ts)
  {
    TakeNewest(Activities(fund, maint, meetings, monthLabel))
  }
}

=== FILE: filtering.dfy ===
/** Order-preserving filtering of a list of names, with the positions the
    kept names come from. */
module Filtering {
  /** The names `keep` accepts, in their original order. */
  function Filter(names: seq<string>, keep: string -> bool): (r: seq<string>)
    ensures |r| <= |names|
    ensures forall d {:trigger d in r} :: d in r <==> d in names && keep(d)
  {
    if |names| == 0 then []
    else
      var rest := Filter(names[1..], keep);
      assert names == [names[0]] + names[1..];
      if keep(names[0]) then [names[0]] + rest else rest
  }

  /** One step of any filter: given the kept names of the tail, keeping
      the head iff `keep` accepts it keeps exactly the accepted names. */
  lemma FilterStep(names: seq<string>, keep: string -> bool, rest: seq<string>, r: seq<string>)
    requires |names| > 0
    requires forall d {:trigger d in rest} :: d in rest <==> d in names[1..] && keep(d)
    requires r == if keep(names[0]) then [names[0]] + rest else rest
    ensures forall d {:trigger d in r} :: d in r <==> d in names && keep(d)
    ensures r == [] <==> forall d :: d in names ==> !keep(d)
  {
    assert names == [names[0]] + names[1..];
    forall d ensures d in r <==> d in names && keep(d) {
      assert d in names <==> d == names[0] || d in names[1..];
    }
    if r == [] {
      forall d | d in names ensures !keep(d) {
        assert d !in r;
      }
    } else {
      assert r[0] in r;
    }
  }

  /** Where each kept name sits in `names`: the k-th kept name is
      names[p[k]], and the positions strictly increase, so the kept names
      keep the order of `names`. */
  function FilterPositions(names: seq<string>, keep: string -> bool): (p: seq<int>)
    ensures |p| == |Filter(names, keep)|
    ensures forall k :: 0 <= k < |p| ==> 0 <= p[k] < |names| && names[p[k]] == Filter(names, keep)[k]
    ensures forall k, l :: 0 <= k < l < |p| ==> p[k] < p[l]
  {
    if |names| == 0 then []
    else
      var rest := FilterPositions(names[1..], keep);
      var ft := Filter(names[1..], keep);
      assert InOrderAt(names[1..], ft, rest);
      ShiftPositions(names, ft, rest);
      var shifted := Shift(rest);
      if keep(names[0]) then
        assert Filter(names, keep) == [names[0]] + ft;
        ConsPositions(names, ft, shifted);
        [0] + shifted
      else
        assert Filter(names, keep) == ft;
        shifted
  }

  /** `p` lists, in strictly increasing order, positions of `names` that
      hold the elements of `kept` one by one. */
  predicate InOrderAt(names: seq<string>, kept: seq<string>, p: seq<int>) {
    && |p| == |kept|
    && (forall k :: 0 <= k < |p| ==> 0 <= p[k] < |names| && names[p[k]] == kept[k])
    && (forall k, l :: 0 <= k < l < |p| ==> p[k] < p[l])
  }

  /** Positions in the tail become positions past the head. */
  lemma ShiftPositions(names: seq<string>, kept: seq<string>, p: seq<int>)
    requires |names| > 0 && InOrderAt(names[1..], kept, p)
    ensures InOrderAt(names, kept, Shift(p))
    ensures forall k :: 0 <= k < |p| ==> Shift(p)[k] > 0
  {
    var q := Shift(p);
    forall k | 0 <= k < |q| ensures 0 <= q[k] < |names| && names[q[k]] == kept[k] {
      assert names[q[k]] == names[1..][p[k]];
    }
  }

  /** Putting the head's position in front of later positions keeps the
      order. */
  lemma ConsPositions(names: seq<string>, kept: seq<string>, q: seq<int>)
    requires |names| > 0 && InOrderAt(names, kept, q)
    requires forall k :: 0 <= k < |q| ==> q[k] > 0
    ensures InOrderAt(names, [names[0]] + kept, [0] + q)
  {
    var p := [0] + q;
    forall k | 0 < k < |p| ensures p[k] == q[k - 1] && ([names[0]] + kept)[k] == kept[k - 1] {
    }
  }

  /** Every position moved one place to the right. */
  function Shift(p: seq<int>): (q: seq<int>)
    ensures |q| == |p| && forall k :: 0 <= k < |p| ==> q[k] == p[k] + 1
  {
    seq(|p|, k requires 0 <= k < |p| => p[k] + 1)
  }
}

=== FILE: ledger.dfy ===
/** Fund ledgers. A society keeps a ledger (`society_fund`) together with a
    cached running total (`society.fund_total`) that every POST adjusts by a
    signed delta in the same transaction; a building's balance is instead
    derived from its ledger (`building_fund`). Amounts are minor units. */
module Ledger {
  import opened Wrappers
  import opened PhpStrings
  import opened Schema

  datatype FundType = Income | Expense | UseMoney

  function FundTypeName(t: FundType): string {
    match t
    case Income => "income"
    case Expense => "expense"
    case UseMoney => "use_money"
  }

  /** in_array($type, ['income','expense','use_money'], true). */
  function ParseFundType(s: string): (r: Option<FundType>)
    ensures r.Some? ==> FundTypeName(r.value) == s
    ensures r.None? ==> forall t: FundType :: FundTypeName(t) != s
  {
    if s == "income" then Some(Income)
    else if s == "expense" then Some(Expense)
    else if s == "use_money" then Some(UseMoney)
    else None
  }

  /** The signed adjustment a validated transaction applies to the cached
      total: +amount for income, -amount for expense and use_money. */
  function Delta(t: FundType, amount: int): int {
    if t == Income then amount else -amount
  }

  /** A ledger row's contribution to its owner's balance; rows of an
      unknown type contribute nothing. */
  function Signed(r: FundRow): int {
    match ParseFundType(r.kind)
    case Some(t) => Delta(t, r.amount)
    case None => 0
  }

  /** Σ signed(row) over the rows of one owner. */
  function SignedSum(rows: seq<FundRow>, owner: int): int {
    if |rows| == 0 then 0
    else (if rows[0].ownerId == owner then Signed(rows[0]) else 0) + SignedSum(rows[1..], owner)
  }

  /** Σ amount over the rows of one owner whose type is in `kinds` (the
      SUM(CASE WHEN type IN (...) ...) of the source's queries). */
  function SumKinds(rows: seq<FundRow>, owner: int, kinds: set<string>): int {
    if |rows| == 0 then 0
    else (if rows[0].ownerId == owner && rows[0].kind in kinds then rows[0].amount else 0) + SumKinds(rows[1..], owner, kinds)
  }

  function IncomeTotal(rows: seq<FundRow>, owner: int): int {
    SumKinds(rows, owner, {"income"})
  }

  /** Expense total: expense and use_money both count. */
  function ExpenseTotal(rows: seq<FundRow>, owner: int): int {
    SumKinds(rows, owner, {"expense", "use_money"})
  }

  lemma {:induction false} SignedSumAppend(rows: seq<FundRow>, r: FundRow, owner: int)
    ensures SignedSum(rows + [r], owner) == SignedSum(rows, owner) + (if r.ownerId == owner then Signed(r) else 0)
    decreases |rows|
  {
    if |rows| == 0 {
      assert rows + [r] == [r];
    } else {
      assert (rows + [r])[1..] == rows[1..] + [r];
      SignedSumAppend(rows[1..], r, owner);
    }
  }

  lemma {:induction false} SumKindsAppend(rows: seq<FundRow>, r: FundRow, owner: int, kinds: set<string>)
    ensures SumKinds(rows + [r], owner, kinds) == SumKinds(rows, owner, kinds) + (if r.ownerId == owner && r.kind in kinds then r.amount else 0)
    decreases |rows|
  {
    if |rows| == 0 {
      assert rows + [r] == [r];
    } else {
      assert (rows + [r])[1..] == rows[1..] + [r];
      SumKindsAppend(rows[1..], r, owner, kinds);
    }
  }

  /** The derived balance income − (expense + use_money) equals the signed
      sum of the ledger. */
  lemma {:induction false} BalanceIsSignedSum(rows: seq<FundRow>, owner: int)
    ensures IncomeTotal(rows, owner) - ExpenseTotal(rows, owner) == SignedSum(rows, owner)
    decreases |rows|
  {
    if |rows| > 0 {
      BalanceIsSignedSum(rows[1..], owner);
    }
  }

  /** A building's balance as the building screens compute it. */
  function Balance(rows: seq<FundRow>, owner: int): (b: int)
    ensures b == SignedSum(rows, owner)
  {
    BalanceIsSignedSum(rows, owner);
    IncomeTotal(rows, owner) - ExpenseTotal(rows, owner)
  }

  /** Recording use of money lowers the balance and never counts as income. */
  lemma UseMoneyIsNeverIncome(rows: seq<FundRow>, owner: int, amount: int, description: string, date: string)
    ensures var r := FundRow(owner, amount, "use_money", description, date);
      IncomeTotal(rows + [r], owner) == IncomeTotal(rows, owner)
      && ExpenseTotal(rows + [r], owner) == ExpenseTotal(rows, owner) + amount
      && Balance(rows + [r], owner) == Balance(rows, owner) - amount
  {
    var r := FundRow(owner, amount, "use_money", description, date);
    SumKindsAppend(rows, r, owner, {"income"});
    SumKindsAppend(rows, r, owner, {"expense", "use_money"});
  }

  // ---------------------------------------------------------------------
  // Form validation shared by the society and building fund screens

  /** The POSTed fund form; `amount` is None when not numeric. */
  datatype FundForm = FundForm(kind: string, amount: Option<int>, description: string, date: string)

  datatype Checked = Valid(t: FundType, amount: int) | Invalid(message: string)

  const InvalidTypeMsg: string := "Invalid type."
  const AmountMsg: string := "Amount must be greater than 0."
  const DateMsg: string := "Date is required."

  /** Type, then amount, then date: the first failing check names the error. */
  function ValidateFundForm(f: FundForm): (r: Checked)
    ensures r.Valid? <==> ParseFundType(f.kind).Some? && f.amount.Some? && f.amount.value > 0 && f.date != ""
    ensures r.Valid? ==> FundTypeName(r.t) == f.kind && Some(r.amount) == f.amount && r.amount > 0
    ensures ParseFundType(f.kind).None? ==> r == Invalid(InvalidTypeMsg)
    ensures ParseFundType(f.kind).Some? && !(f.amount.Some? && f.amount.value > 0) ==> r == Invalid(AmountMsg)
    ensures ParseFundType(f.kind).Some? && f.amount.Some? && f.amount.value > 0 && f.date == "" ==> r == Invalid(DateMsg)
  {
    match ParseFundType(f.kind)
    case None => Invalid(InvalidTypeMsg)
    case Some(t) =>
      if f.amount.None? || f.amount.value <= 0 then Invalid(AmountMsg)
      else if f.date == "" then Invalid(DateMsg)
      else Valid(t, f.amount.value)
  }

  // ---------------------------------------------------------------------
  // The transactional double write

  /** The cached total minus the ledger's signed sum for one society; every
      write path keeps it unchanged. */
  function Drift(db: Db, societyId: int): int
    requires societyId in db.fundTotals
  {
    db.fundTotals[societyId] - SignedSum(db.societyFund, societyId)
  }

  /** INSERT INTO society_fund ...; UPDATE society SET fund_total =
      fund_total + delta WHERE id = ? (no row changes when the society does
      not exist). */
  function ApplyFundTransaction(db: Db, societyId: int, t: FundType, amount: int, description: string, date: string): (r: Db)
    ensures r.societyFund == db.societyFund + [FundRow(societyId, amount, FundTypeName(t), description, date)]
    ensures r.fundTotals.Keys == db.fundTotals.Keys
    ensures societyId in db.fundTotals ==> r.fundTotals[societyId] == db.fundTotals[societyId] + Delta(t, amount)
    ensures forall s :: s in db.fundTotals && s != societyId ==> r.fundTotals[s] == db.fundTotals[s]
    ensures forall s :: s in db.fundTotals ==> Drift(r, s) == Drift(db, s)
    ensures r == db.(societyFund := r.societyFund, fundTotals := r.fundTotals)
  {
    var row := FundRow(societyId, amount, FundTypeName(t), description, date);
    var inserted := db.(societyFund := db.societyFund + [row]);
    var totals := if societyId in db.fundTotals then db.fundTotals[societyId := db.fundTotals[societyId] + Delta(t, amount)] else db.fundTotals;
    var r := inserted.(fundTotals := totals);
    assert Signed(row) == Delta(t, amount);
    forall s | s in db.fundTotals ensures Drift(r, s) == Drift(db, s) {
      SignedSumAppend(db.societyFund, row, s);
    }
    r
  }

  /** Where a transaction may fail between begin and commit. */
  datatype TxFault = NoFault | InsertFails | UpdateFails | CommitFails

  /** beginTransaction(); insert; update; commit() — and rollBack() on any
      failure, which restores the database as it was before begin. Returns
      the database and whether the commit happened. */
  function RunFundTransaction(db: Db, societyId: int, t: FundType, amount: int, description: string, date: string, fault: TxFault): (r: (Db, bool))
    ensures r.1 <==> fault == NoFault
    ensures r.1 ==> r.0 == ApplyFundTransaction(db, societyId, t, amount, description, date)
    ensures !r.1 ==> r.0 == db
    ensures forall s :: s in db.fundTotals ==> s in r.0.fundTotals && Drift(r.0, s) == Drift(db, s)
  {
    var working := ApplyFundTransaction(db, societyId, t, amount, description, date);
    if fault == NoFault then (working, true) else (db, false)
  }
}

=== FILE: login.dfy ===
/** The login decision of backend/auth/login.php: an already logged-in
    visitor is redirected by role; a POST is validated, the user is looked
    up by email, the password checked with the uninterpreted
    password_verify, the status checked, and on success the session
    snapshot is stored and the session id rotated. */
module Login {
  import opened Wrappers
  import opened PhpStrings
  import opened Schema
  import opened Auth

  /** The POSTed fields; a missing field is the empty string. */
  datatype LoginForm = LoginForm(email: string, password: string)

  /** The page either redirects (request ends) or renders the form with an
      optional error; either way with the resulting session. */
  datatype LoginResult = LoginRedirect(path: string, session: Session) | ShowForm(error: Option<string>, session: Session)

  const RequiredMsg: string := "Email and password are required."
  const InvalidMsg: string := "Invalid login."
  const InactiveMsg: string := "Account is inactive."

  /** SELECT ... FROM users WHERE email = ? LIMIT 1: the first row with
      that email, in table order. */
  function FindUserByEmail(users: seq<User>, email: string): (r: Option<User>)
    ensures r.Some? ==> r.value.email == email
    ensures r.Some? ==> exists i :: 0 <= i < |users| && users[i] == r.value
                                   && forall j :: 0 <= j < i ==> users[j].email != email
    ensures r.None? <==> !EmailTaken(users, email)
  {
    if |users| == 0 then None
    else if users[0].email == email then Some(users[0])
    else
      var r := FindUserByEmail(users[1..], email);
      assert r.Some? ==> exists i :: 0 <= i < |users| && users[i] == r.value
                                    && forall j :: 0 <= j < i ==> users[j].email != email by {
        if r.Some? {
          var i :| 0 <= i < |users[1..]| && users[1..][i] == r.value
                   && forall j :: 0 <= j < i ==> users[1..][j].email != email;
          assert users[i + 1] == r.value;
          forall j | 0 <= j < i + 1 ensures users[j].email != email {
            if j > 0 { assert users[j] == users[1..][j - 1]; }
          }
        }
      }
      assert EmailTaken(users, email) ==> EmailTaken(users[1..], email) by {
        if EmailTaken(users, email) {
          var i :| 0 <= i < |users| && users[i].email == email;
          assert users[1..][i - 1] == users[i];
        }
      }
      assert EmailTaken(users[1..], email) ==> EmailTaken(users, email) by {
        if EmailTaken(users[1..], email) {
          var i :| 0 <= i < |users[1..]| && users[1..][i].email == email;
          assert users[i + 1] == users[1..][i];
        }
      }
      r
  }

  /** unset($user['password']): the session snapshot of a users row. */
  function StripPassword(u: User): SessionUser {
    SessionUser(u.id, u.name, u.email, u.role, u.societyId, u.buildingId, u.status)
  }

  /** True iff the password verifies against the row found for this email. */
  predicate CredentialsVerify(users: seq<User>, email: string, password: string, env: Env) {
    var found := FindUserByEmail(users, email);
    found.Some? && env.verify(password, found.value.passwordHash)
  }

  /** One request to the login page. `form` is None for a GET. */
  function HandleLogin(s: Session, form: Option<LoginForm>, users: seq<User>, env: Env, ip: string, userAgent: string): (r: LoginResult)
    ensures IsLoggedIn(s) ==> r == LoginRedirect(RedirectByRole(s), s)
    ensures r.ShowForm? ==> r.session == s
    ensures r == ShowForm(Some(RequiredMsg), s) <==>
      !IsLoggedIn(s) && form.Some? && (Trim(form.value.email) == "" || form.value.password == "")
    ensures r == ShowForm(Some(InvalidMsg), s) <==>
      !IsLoggedIn(s) && form.Some? && Trim(form.value.email) != "" && form.value.password != ""
      && !CredentialsVerify(users, Trim(form.value.email), form.value.password, env)
    ensures !IsLoggedIn(s) && form.None? ==> r == ShowForm(None, s)
    ensures r == ShowForm(Some(InactiveMsg), s) <==>
      !IsLoggedIn(s) && form.Some? && Trim(form.value.email) != "" && form.value.password != ""
      && CredentialsVerify(users, Trim(form.value.email), form.value.password, env)
      && FindUserByEmail(users, Trim(form.value.email)).value.status != Some("active")
    ensures (!IsLoggedIn(s) && form.Some? && Trim(form.value.email) != "" && form.value.password != ""
             && CredentialsVerify(users, Trim(form.value.email), form.value.password, env)) ==>
      (r.LoginRedirect? <==> FindUserByEmail(users, Trim(form.value.email)).value.status == Some("active"))
    ensures r.LoginRedirect? && !IsLoggedIn(s) ==>
      form.Some? && CredentialsVerify(users, Trim(form.value.email), form.value.password, env)
      && var u := FindUserByEmail(users, Trim(form.value.email)).value;
      u.status == Some("active")
      && r.session == s.(user := Some(StripPassword(u)), ip := ip, userAgent := userAgent,
                         lastRegenerate := Some(env.now), generation := s.generation + 1)
      && r.path == RedirectByRole(r.session)
  {
    if IsLoggedIn(s) then LoginRedirect(RedirectByRole(s), s)
    else if form.None? then ShowForm(None, s)
    else
      var email := Trim(form.value.email);
      var password := form.value.password;
      if email == "" || password == "" then ShowForm(Some(RequiredMsg), s)
      else match FindUserByEmail(users, email)
        case None => ShowForm(Some(InvalidMsg), s)
        case Some(u) =>
          if !env.verify(password, u.passwordHash) then ShowForm(Some(InvalidMsg), s)
          else if u.status.GetOr("inactive") != "active" then ShowForm(Some(InactiveMsg), s)
          else
            var s1 := s.(user := Some(StripPassword(u)), ip := ip, userAgent := userAgent,
                         lastRegenerate := Some(env.now), generation := s.generation + 1);
            LoginRedirect(RedirectByRole(s1), s1)
  }

  /** An unknown email and a wrong password are indistinguishable: same
      message, same (unchanged) session. */
  lemma LoginDoesNotRevealAccounts(s: Session, form: LoginForm, known: seq<User>, unknown: seq<User>, env: Env, ip: string, userAgent: string)
    requires !IsLoggedIn(s) && Trim(form.email) != "" && form.password != ""
    requires FindUserByEmail(unknown, Trim(form.email)).None?
    requires FindUserByEmail(known, Trim(form.email)).Some?
    requires !env.verify(form.password, FindUserByEmail(known, Trim(form.email)).value.passwordHash)
    ensures HandleLogin(s, Some(form), known, env, ip, userAgent) == HandleLogin(s, Some(form), unknown, env, ip, userAgent)
    ensures HandleLogin(s, Some(form), known, env, ip, userAgent) == ShowForm(Some(InvalidMsg), s)
  {
  }

  /** A successful login rotates the session id, drops the password and
      keeps the CSRF token. */
  lemma LoginSuccessRotates(s: Session, form: LoginForm, users: seq<User>, env: Env, ip: string, userAgent: string)
    requires !IsLoggedIn(s)
    requires HandleLogin(s, Some(form), users, env, ip, userAgent).LoginRedirect?
    ensures var r := HandleLogin(s, Some(form), users, env, ip, userAgent);
      r.session.generation != s.generation && r.session.csrfToken == s.csrfToken
      && r.session.user.Some? && r.session.user.value.email == Trim(form.email)
      && (IsLoggedIn(r.session) <==> r.session.user.value.id > 0 && r.session.user.value.role != "")
  {
  }
}

=== FILE: maintenance.dfy ===
/** The in-PHP logic of backend/building/maintenance.php: month
    normalisation and the month options, the bulk_add / add / toggle
    actions with their validation and id cleaning, and the KPI counters. */
module Maintenance {
  import opened Wrappers
  import opened PhpStrings
  import opened Schema

  // ---------------------------------------------------------------------
  // Month selection

  /** Four digits, '-', two digits. The month range is not checked. */
  predicate MonthShape(s: string) {
    |s| == 7 && IsDigit(s[0]) && IsDigit(s[1]) && IsDigit(s[2]) && IsDigit(s[3])
    && s[4] == '-' && IsDigit(s[5]) && IsDigit(s[6])
  }

  /** preg_match('/^\d{4}-\d{2}$/', s): PHP's `$` also matches just before
      a final newline. */
  predicate MatchesMonthPattern(s: string) {
    MonthShape(s) || (|s| == 8 && s[7] == '\n' && MonthShape(s[..7]))
  }

  /** preg_match('/^\d{4}$/', y) for a string of at most four characters. */
  predicate MatchesYearPattern(y: string) {
    |y| == 4 && AllDigits(y)
  }

  /** The month being viewed, the month preselected in the forms, and the
      year whose months are offered. */
  datatype MonthView = MonthView(viewMonth: string, selectedMonth: string, year: string)

  /** Lines 15-25: the requested month (or the current one) is kept only
      when it matches the pattern; the year is its first four characters,
      with a fallback to the current year. `currentYear` and
      `currentMonthNum` are date('Y') and date('m'). */
  function NormaliseMonth(requested: Option<string>, currentYear: string, currentMonthNum: string): (v: MonthView)
    ensures var current := currentYear + "-" + currentMonthNum;
      v.viewMonth == (if MatchesMonthPattern(requested.GetOr(current)) then requested.GetOr(current) else current)
    ensures |v.viewMonth| >= 4 && MatchesYearPattern(v.viewMonth[..4]) ==> v.year == v.viewMonth[..4] && v.selectedMonth == v.viewMonth
  {
    var current := currentYear + "-" + currentMonthNum;
    var m0 := requested.GetOr(current);
    var selected := if MatchesMonthPattern(m0) then m0 else current;
    var year := if |selected| < 4 then selected else selected[..4];
    if !MatchesYearPattern(year) then MonthView(selected, currentYear + "-" + currentMonthNum, currentYear)
    else MonthView(selected, selected, year)
  }

  /** With a well-formed clock the year fallback never fires, an
      out-of-range month such as "2024-13" is kept, and anything that does
      not match is replaced by the current month. */
  lemma NormaliseMonthFacts(requested: Option<string>, currentYear: string, currentMonthNum: string)
    requires MatchesYearPattern(currentYear) && |currentMonthNum| == 2 && AllDigits(currentMonthNum)
    ensures var v := NormaliseMonth(requested, currentYear, currentMonthNum);
      v.selectedMonth == v.viewMonth && v.year == v.viewMonth[..4] && MatchesMonthPattern(v.viewMonth)
    ensures requested == Some("2024-13") ==> NormaliseMonth(requested, currentYear, currentMonthNum).viewMonth == "2024-13"
    ensures requested.Some? && !MatchesMonthPattern(requested.value) ==>
      NormaliseMonth(requested, currentYear, currentMonthNum).viewMonth == currentYear + "-" + currentMonthNum
  {
    var current := currentYear + "-" + currentMonthNum;
    assert MonthShape(current);
  }

  /** str_pad((string)$m, 2, '0', STR_PAD_LEFT). */
  function Pad2(n: nat): (s: string)
    requires 1 <= n <= 12
    ensures |s| == 2 && AllDigits(s)
    ensures (s[0] as int - '0' as int) * 10 + (s[1] as int - '0' as int) == n
  {
    if n < 10 then ['0', DigitChar(n)] else ['1', DigitChar(n - 10)]
  }

  /** The month options: year-01 ... year-12 in order. */
  function MonthOptions(year: string): (r: seq<string>)
    ensures |r| == 12
    ensures forall i :: 0 <= i < 12 ==> r[i] == year + "-" + Pad2(i + 1)
    ensures MatchesYearPattern(year) ==> forall i :: 0 <= i < 12 ==> MonthShape(r[i])
    ensures forall i, j :: 0 <= i < j < 12 ==> r[i] != r[j]
  {
    var r := seq(12, i requires 0 <= i < 12 => year + "-" + Pad2(i + 1));
    assert forall i, j :: 0 <= i < j < 12 ==> r[i] != r[j] by {
      forall i, j | 0 <= i < j < 12 ensures r[i] != r[j] {
        var a := Pad2(i + 1);
        var b := Pad2(j + 1);
        assert r[i][|year| + 1..] == a && r[j][|year| + 1..] == b;
      }
    }
    r
  }

  // ---------------------------------------------------------------------
  // Id cleaning and member checks

  /** Positive ids, duplicates dropped keeping the first occurrence. */
  function CleanIds(ids: seq<int>): (clean: seq<int>)
    ensures forall x :: x in clean <==> x in ids && x > 0
    ensures forall i, j :: 0 <= i < j < |clean| ==> clean[i] != clean[j]
    ensures forall i, j :: 0 <= i < j < |clean| ==> FirstIndex(ids, clean[i]) < FirstIndex(ids, clean[j])
    ensures |clean| <= |ids|
  {
    if |ids| == 0 then []
    else
      var n := |ids| - 1;
      var prev := CleanIds(ids[..n]);
      var x := ids[n];
      assert ids[..n] + [x] == ids;
      FirstIndexOfPrefix(ids, n);
      if x > 0 && x !in prev then
        FirstIndexOfNew(ids, n);
        prev + [x]
      else prev
  }

  /** The index of the first occurrence of `x` in `s`. */
  function FirstIndex(s: seq<int>, x: int): (i: nat)
    requires x in s
    ensures i < |s| && s[i] == x && x !in s[..i]
  {
    if s[0] == x then 0
    else
      var i := FirstIndex(s[1..], x);
      assert s[1..][..i] == s[1..i + 1];
      assert s[..i + 1] == [s[0]] + s[1..i + 1];
      i + 1
  }

  lemma FirstIndexOfPrefix(s: seq<int>, n: nat)
    requires n <= |s|
    ensures forall x :: x in s[..n] ==> FirstIndex(s[..n], x) == FirstIndex(s, x)
  {
    forall x | x in s[..n] ensures FirstIndex(s[..n], x) == FirstIndex(s, x) {
      var i := FirstIndex(s[..n], x);
      var k := FirstIndex(s, x);
      assert s[..n][..i] == s[..i];
    }
  }

  lemma FirstIndexOfNew(s: seq<int>, n: nat)
    requires n < |s| && s[n] !in s[..n]
    ensures FirstIndex(s, s[n]) == n
  {
    var k := FirstIndex(s, s[n]);
  }

  /** SELECT id FROM users WHERE id IN (...) AND building_id = ? AND
      role='member' AND status='active', in table order. */
  function ValidMemberIds(users: seq<User>, clean: seq<int>, buildingId: int): (v: seq<int>)
    ensures |v| <= |users|
    ensures forall x :: x in v <==> x in clean && exists u :: u in users && u.id == x && IsActiveMemberOf(u, buildingId)
  {
    if |users| == 0 then []
    else
      var rest := ValidMemberIds(users[1..], clean, buildingId);
      assert users == [users[0]] + users[1..];
      if users[0].id in clean && IsActiveMemberOf(users[0], buildingId) then [users[0].id] + rest else rest
  }

  // ---------------------------------------------------------------------
  // Actions

  predicate ValidStatus(s: string) {
    s == "paid" || s == "unpaid"
  }

  /** The bulk form: `memberIds` is None when absent or not an array; its
      elements are the (int) casts of the posted values. */
  datatype BulkForm = BulkForm(memberIds: Option<seq<int>>, month: string, amount: Option<int>, status: Option<string>)

  const SelectMsg: string := "Select at least 1 member."
  const MonthMsg: string := "Month (YYYY-MM) is required."
  const AmountMsg: string := "Amount must be greater than 0."
  const StatusMsg: string := "Invalid status."
  const NoValidMsg: string := "No valid members selected."
  const BulkFailedMsg: string := "Failed to add bulk maintenance."

  /** One maintenance row per id, with consecutive fresh ids. */
  function NewRows(ids: seq<int>, firstId: int, amount: int, month: string, status: string): (rows: seq<MaintenanceRow>)
    ensures |rows| == |ids|
    ensures forall k :: 0 <= k < |ids| ==> rows[k] == MaintenanceRow(firstId + k, ids[k], amount, month, status)
  {
    seq(|ids|, k requires 0 <= k < |ids| => MaintenanceRow(firstId + k, ids[k], amount, month, status))
  }

  /** The first failing check of the bulk form, in source order: ids
      present, a month of length 7, a positive amount, a known status. */
  function BulkFormError(f: BulkForm): (e: Option<string>)
    ensures f.memberIds.None? || |f.memberIds.value| == 0 ==> e == Some(SelectMsg)
    ensures f.memberIds.Some? && |f.memberIds.value| > 0 && |Trim(f.month)| != 7 ==> e == Some(MonthMsg)
    ensures f.memberIds.Some? && |f.memberIds.value| > 0 && |Trim(f.month)| == 7 && !(f.amount.Some? && f.amount.value > 0) ==>
      e == Some(AmountMsg)
    ensures (f.memberIds.Some? && |f.memberIds.value| > 0 && |Trim(f.month)| == 7 && f.amount.Some? && f.amount.value > 0
             && !ValidStatus(f.status.GetOr("unpaid"))) ==> e == Some(StatusMsg)
    ensures e.None? <==> f.memberIds.Some? && |f.memberIds.value| > 0 && |Trim(f.month)| == 7
                         && f.amount.Some? && f.amount.value > 0 && ValidStatus(f.status.GetOr("unpaid"))
  {
    var month := Trim(f.month);
    if f.memberIds.None? || |f.memberIds.value| == 0 then Some(SelectMsg)
    else if month == "" || |month| != 7 then Some(MonthMsg)
    else if f.amount.None? || f.amount.value <= 0 then Some(AmountMsg)
    else if !ValidStatus(f.status.GetOr("unpaid")) then Some(StatusMsg)
    else None
  }

  /** The second half of bulk_add: clean the ids, keep the active members
      of this building, and insert one row each in a single transaction
      that `fault` can abort. */
  function InsertForMembers(db: Db, buildingId: int, ids: seq<int>, amount: int, month: string, status: string, fault: bool): (r: PostResult)
    ensures |CleanIds(ids)| == 0 ==> r == Reject(db, SelectMsg)
    ensures |CleanIds(ids)| > 0 && |ValidMemberIds(db.users, CleanIds(ids), buildingId)| == 0 ==> r == Reject(db, NoValidMsg)
    ensures r.success.Some? <==> |ValidMemberIds(db.users, CleanIds(ids), buildingId)| > 0 && !fault
    ensures r.success.None? ==> r.db == db
    ensures r.success.Some? ==>
      !fault
      && var valid := ValidMemberIds(db.users, CleanIds(ids), buildingId);
      |valid| > 0
      && r.db == db.(maintenance := db.maintenance + NewRows(valid, db.nextId, amount, month, status),
                     nextId := db.nextId + |valid|)
      && r.success == Some("Maintenance added for selected members: " + NatToString(|valid|))
      && (forall x :: x in valid ==> x in ids && x > 0)
  {
    var clean := CleanIds(ids);
    if |clean| == 0 then
      NoCleanIdNoValidIds(db.users, clean, buildingId);
      Reject(db, SelectMsg)
    else
      var valid := ValidMemberIds(db.users, clean, buildingId);
      if |valid| == 0 then Reject(db, NoValidMsg)
      else if fault then Reject(db, BulkFailedMsg)
      else
        var db1 := db.(maintenance := db.maintenance + NewRows(valid, db.nextId, amount, month, status),
                       nextId := db.nextId + |valid|);
        PostResult(db1, Some("Maintenance added for selected members: " + NatToString(|valid|)), None, true)
  }

  /** bulk_add: the form checks, then the all-or-nothing insert for the
      active members of this building among the selected ids. */
  function BulkAdd(db: Db, buildingId: int, f: BulkForm, fault: bool): (r: PostResult)
    ensures BulkFormError(f).Some? ==> r == Reject(db, BulkFormError(f).value)
    ensures (BulkFormError(f).None? && |CleanIds(f.memberIds.value)| > 0
             && |ValidMemberIds(db.users, CleanIds(f.memberIds.value), buildingId)| == 0) ==> r == Reject(db, NoValidMsg)
    ensures r.success.Some? <==>
      BulkFormError(f).None? && |ValidMemberIds(db.users, CleanIds(f.memberIds.value), buildingId)| > 0 && !fault
    ensures r.success.None? ==> r.db == db
    ensures r.success.Some? ==>
      BulkFormError(f).None? && !fault
      && var valid := ValidMemberIds(db.users, CleanIds(f.memberIds.value), buildingId);
      |valid| > 0
      && r.db == db.(maintenance := db.maintenance + NewRows(valid, db.nextId, f.amount.value, Trim(f.month), f.status.GetOr("unpaid")),
                     nextId := db.nextId + |valid|)
      && r.success == Some("Maintenance added for selected members: " + NatToString(|valid|))
      && (forall x :: x in valid ==> x in f.memberIds.value && x > 0)
  {
    match BulkFormError(f)
    case Some(message) => Reject(db, message)
    case None => InsertForMembers(db, buildingId, f.memberIds.value, f.amount.value, Trim(f.month), f.status.GetOr("unpaid"), fault)
  }

  /** The single-row form. */
  datatype AddForm = AddForm(memberId: int, month: string, amount: Option<int>, status: Option<string>)

  /** add: the member must belong to this building; active status is not
      checked. */
  function AddOne(db: Db, buildingId: int, f: AddForm): (r: PostResult)
    ensures r.success.None? ==> r.db == db
    ensures r.success.Some? <==>
      f.memberId > 0 && |Trim(f.month)| == 7 && f.amount.Some? && f.amount.value > 0 && ValidStatus(f.status.GetOr("unpaid"))
      && exists k :: 0 <= k < |db.users| && db.users[k].id == f.memberId && IsMemberOf(db.users[k], buildingId)
    ensures r.success.Some? ==>
      r.db == db.(maintenance := db.maintenance + [MaintenanceRow(db.nextId, f.memberId, f.amount.value, Trim(f.month), f.status.GetOr("unpaid"))],
                  nextId := db.nextId + 1)
  {
    var month := Trim(f.month);
    var status := f.status.GetOr("unpaid");
    if f.memberId <= 0 || month == "" || |month| != 7 then Reject(db, "Member and month (YYYY-MM) are required.")
    else if f.amount.None? || f.amount.value <= 0 then Reject(db, AmountMsg)
    else if !ValidStatus(status) then Reject(db, StatusMsg)
    else if !exists k :: 0 <= k < |db.users| && db.users[k].id == f.memberId && IsMemberOf(db.users[k], buildingId) then
      Reject(db, "Invalid member.")
    else
      var row := MaintenanceRow(db.nextId, f.memberId, f.amount.value, month, status);
      PostResult(db.(maintenance := db.maintenance + [row], nextId := db.nextId + 1), Some("Maintenance added."), None, true)
  }

  /** The single add accepts an inactive member of the building. */
  lemma SingleAddAcceptsInactive(db: Db, buildingId: int, id: int, month: string, amount: int)
    requires |db.users| == 1 && db.users[0].id == id && id > 0
    requires IsMemberOf(db.users[0], buildingId) && db.users[0].status == Some("inactive")
    requires |Trim(month)| == 7 && amount > 0
    ensures AddOne(db, buildingId, AddForm(id, month, Some(amount), None)).success.Some?
  {
    assert db.users[0].id == id && IsMemberOf(db.users[0], buildingId);
  }

  /** Bulk add refuses the same inactive member: no valid member remains. */
  lemma BulkAddRefusesInactive(db: Db, buildingId: int, id: int, month: string, amount: int)
    requires |db.users| == 1 && db.users[0].id == id && id > 0
    requires IsMemberOf(db.users[0], buildingId) && db.users[0].status == Some("inactive")
    requires |Trim(month)| == 7 && amount > 0
    ensures BulkAdd(db, buildingId, BulkForm(Some([id]), month, Some(amount), None), false) == Reject(db, NoValidMsg)
  {
    var f := BulkForm(Some([id]), month, Some(amount), None);
    OnlyRowInactive(db.users, buildingId);
    BulkAddWithoutActiveMembers(db, buildingId, f, id);
  }

  /** A table whose only row is not an active member of the building has
      no active member of it. */
  lemma OnlyRowInactive(users: seq<User>, buildingId: int)
    requires |users| == 1 && !IsActiveMemberOf(users[0], buildingId)
    ensures forall u :: u in users ==> !IsActiveMemberOf(u, buildingId)
  {
    assert forall u :: u in users ==> u == users[0];
  }

  /** A passing form whose selection names no active member of the
      building is refused. */
  lemma BulkAddWithoutActiveMembers(db: Db, buildingId: int, f: BulkForm, id: int)
    requires BulkFormError(f).None? && id in f.memberIds.value && id > 0
    requires forall u :: u in db.users ==> !IsActiveMemberOf(u, buildingId)
    ensures BulkAdd(db, buildingId, f, false) == Reject(db, NoValidMsg)
  {
    var clean := CleanIds(f.memberIds.value);
    assert id in clean;
    NoActiveMemberNoValidIds(db.users, clean, buildingId);
  }

  /** Without a cleaned id there is no valid id. */
  lemma NoCleanIdNoValidIds(users: seq<User>, clean: seq<int>, buildingId: int)
    requires clean == []
    ensures ValidMemberIds(users, clean, buildingId) == []
  {
  }

  /** A building without active members has no valid ids. */
  lemma NoActiveMemberNoValidIds(users: seq<User>, clean: seq<int>, buildingId: int)
    requires forall u :: u in users ==> !IsActiveMemberOf(u, buildingId)
    ensures ValidMemberIds(users, clean, buildingId) == []
  {
  }

  /** JOIN users u ON u.id = m.member_id WHERE u.building_id = ? */
  predicate MemberInBuilding(users: seq<User>, memberId: int, buildingId: int) {
    exists k :: 0 <= k < |users| && users[k].id == memberId && users[k].buildingId == Some(buildingId)
  }

  /** toggle: set the status of maintenance row `id` when its member is in
      this building; every other row is left alone. */
  function Toggle(db: Db, buildingId: int, id: int, status: Option<string>): (r: PostResult)
    ensures id <= 0 || !ValidStatus(status.GetOr("unpaid")) ==> r == Reject(db, "Invalid request.")
    ensures r.success.Some? <==> id > 0 && ValidStatus(status.GetOr("unpaid"))
    ensures r.success.Some? ==> r.success == Some("Status updated.") && r.error.None?
    ensures r.db == db.(maintenance := r.db.maintenance)
    ensures |r.db.maintenance| == |db.maintenance|
    ensures forall k :: 0 <= k < |db.maintenance| ==>
      r.db.maintenance[k] == (if r.success.Some? && db.maintenance[k].id == id && MemberInBuilding(db.users, db.maintenance[k].memberId, buildingId)
                              then db.maintenance[k].(status := status.GetOr("unpaid")) else db.maintenance[k])
  {
    var s := status.GetOr("unpaid");
    if id <= 0 || !ValidStatus(s) then Reject(db, "Invalid request.")
    else
      var m := seq(|db.maintenance|, k requires 0 <= k < |db.maintenance| =>
        if db.maintenance[k].id == id && MemberInBuilding(db.users, db.maintenance[k].memberId, buildingId)
        then db.maintenance[k].(status := s) else db.maintenance[k]);
      PostResult(db.(maintenance := m), Some("Status updated."), None, false)
  }

  // ---------------------------------------------------------------------
  // KPIs

  function CountPaid(rows: seq<MaintenanceRow>): nat {
    if |rows| == 0 then 0 else CountPaid(rows[..|rows| - 1]) + (if rows[|rows| - 1].status == "paid" then 1 else 0)
  }

  function SumAmounts(rows: seq<MaintenanceRow>): int {
    if |rows| == 0 then 0 else SumAmounts(rows[..|rows| - 1]) + rows[|rows| - 1].amount
  }

  function SumPaid(rows: seq<MaintenanceRow>): int {
    if |rows| == 0 then 0 else SumPaid(rows[..|rows| - 1]) + (if rows[|rows| - 1].status == "paid" then rows[|rows| - 1].amount else 0)
  }

  /** The counters of the month view: every row is paid or (whatever its
      status) unpaid, and with non-negative amounts the collected sum
      never exceeds the total. */
  method Kpis(rows: seq<MaintenanceRow>) returns (paidCount: nat, unpaidCount: nat, totalAmount: int, collectedAmount: int)
    ensures paidCount + unpaidCount == |rows|
    ensures paidCount == CountPaid(rows)
    ensures totalAmount == SumAmounts(rows) && collectedAmount == SumPaid(rows)
    ensures (forall k :: 0 <= k < |rows| ==> rows[k].amount >= 0) ==> 0 <= collectedAmount <= totalAmount
  {
    paidCount, unpaidCount, totalAmount, collectedAmount := 0, 0, 0, 0;
    var i := 0;
    while i < |rows|
      invariant 0 <= i <= |rows|
      invariant paidCount + unpaidCount == i
      invariant paidCount == CountPaid(rows[..i])
      invariant totalAmount == SumAmounts(rows[..i]) && collectedAmount == SumPaid(rows[..i])
      invariant (forall k :: 0 <= k < i ==> rows[k].amount >= 0) ==> 0 <= collectedAmount <= totalAmount
    {
      assert rows[..i + 1][..i] == rows[..i];
      totalAmount := totalAmount + rows[i].amount;
      if rows[i].status == "paid" {
        paidCount := paidCount + 1;
        collectedAmount := collectedAmount + rows[i].amount;
      } else {
        unpaidCount := unpaidCount + 1;
      }
      i := i + 1;
    }
    assert rows[..i] == rows;
  }
}

=== FILE: members.dfy ===
/** The building-admin members screen (backend/building/members.php):
    seeding twenty demo members, adding a member, changing a member's
    status, deleting a member, resetting a member's password, and the
    active/inactive counters. Every write is confined to member rows of
    the caller's building. */
module Members {
  import opened Wrappers
  import opened PhpStrings
  import opened Schema

  // ---------------------------------------------------------------------
  // seed20

  const DemoCount: nat := 20
  const DemoPassword: string := "member123"
  const SeedFailedMsg: string := "Failed to create demo members."

  /** What follows the index in a demo email: '.b' . $buildingId . '@society.test'. */
  function DemoSuffix(buildingId: nat): (t: string)
    ensures |t| > 0 && !IsDigit(t[0])
  {
    ".b" + (NatToString(buildingId) + "@society.test")
  }

  /** 'demo' . $i . '.b' . $buildingId . '@society.test' */
  function DemoEmail(i: nat, buildingId: nat): string {
    "demo" + (NatToString(i) + DemoSuffix(buildingId))
  }

  /** Different indices give different addresses, so a seed run attempts
      twenty distinct emails. */
  lemma DemoEmailsDistinct(i: nat, j: nat, buildingId: nat)
    requires DemoEmail(i, buildingId) == DemoEmail(j, buildingId)
    ensures i == j
  {
    var tail := DemoSuffix(buildingId);
    assert NatToString(i) + tail == DemoEmail(i, buildingId)[4..];
    assert NatToString(j) + tail == DemoEmail(j, buildingId)[4..];
    LeadingDigitsOfDigitsThenOther(NatToString(i), tail);
    LeadingDigitsOfDigitsThenOther(NatToString(j), tail);
    NatToStringInjective(i, j);
  }

  function DemoMember(id: int, i: nat, buildingId: nat, societyId: int, hash: string): User {
    User(id, "Demo Member " + NatToString(i), DemoEmail(i, buildingId), hash, "member",
         Some(societyId), Some(buildingId), Some("active"))
  }

  /** The table after the insert loop, the next id, and how many inserts
      succeeded. */
  datatype Seeded = Seeded(users: seq<User>, nextId: int, created: nat)

  /** A freshly seeded row: an active member of this building. */
  predicate IsSeededRow(u: User, buildingId: nat, societyId: int, hash: string) {
    u.role == "member" && u.buildingId == Some(buildingId) && u.societyId == Some(societyId)
    && u.status == Some("active") && u.passwordHash == hash
  }

  /** The insert loop from index `i` to 20: an insert whose email is
      already used fails and is skipped; the others append a row. */
  function SeedFrom(users: seq<User>, nextId: int, i: nat, buildingId: nat, societyId: int, hash: string): (r: Seeded)
    requires 1 <= i <= DemoCount + 1
    ensures r.created <= DemoCount + 1 - i
    ensures |r.users| == |users| + r.created && r.users[..|users|] == users && r.nextId == nextId + r.created
    ensures forall k :: |users| <= k < |r.users| ==>
      r.users[k].id == nextId + (k - |users|) && IsSeededRow(r.users[k], buildingId, societyId, hash)
    decreases DemoCount + 1 - i
  {
    if i > DemoCount then Seeded(users, nextId, 0)
    else
      var email := DemoEmail(i, buildingId);
      if EmailTaken(users, email) then SeedFrom(users, nextId, i + 1, buildingId, societyId, hash)
      else
        var u := DemoMember(nextId, i, buildingId, societyId, hash);
        var grown := users + [u];
        var r := SeedFrom(grown, nextId + 1, i + 1, buildingId, societyId, hash);
        assert r.users[..|users|] == users by {
          assert r.users[..|users|] == r.users[..|grown|][..|users|];
        }
        assert r.users[|users|] == u by {
          assert r.users[..|grown|][|users|] == u;
        }
        Seeded(r.users, r.nextId, r.created + 1)
  }

  /** A table that extends `users` still has every email `users` has. */
  lemma TakenStaysTaken(users: seq<User>, longer: seq<User>, email: string)
    requires |users| <= |longer| && longer[..|users|] == users
    requires EmailTaken(users, email)
    ensures EmailTaken(longer, email)
  {
    var k :| 0 <= k < |users| && users[k].email == email;
    assert longer[k] == users[k];
  }

  /** Every row of `all` after the prefix `users` has an email that no
      earlier row has. */
  predicate FreshRows(users: seq<User>, all: seq<User>) {
    forall k :: |users| <= k < |all| ==> !EmailTaken(all[..k], all[k].email)
  }

  /** Every row the loop adds has an email no earlier row has: the unique
      index never refuses an insert the loop performs. */
  lemma {:induction false} SeedFromFresh(users: seq<User>, nextId: int, i: nat, buildingId: nat, societyId: int, hash: string)
    requires 1 <= i <= DemoCount + 1
    ensures FreshRows(users, SeedFrom(users, nextId, i, buildingId, societyId, hash).users)
    decreases DemoCount + 1 - i
  {
    if i <= DemoCount {
      var email := DemoEmail(i, buildingId);
      if EmailTaken(users, email) {
        SeedFromFresh(users, nextId, i + 1, buildingId, societyId, hash);
        assert SeedFrom(users, nextId, i, buildingId, societyId, hash) == SeedFrom(users, nextId, i + 1, buildingId, societyId, hash);
      } else {
        var u := DemoMember(nextId, i, buildingId, societyId, hash);
        var grown := users + [u];
        var r := SeedFrom(grown, nextId + 1, i + 1, buildingId, societyId, hash);
        assert SeedFrom(users, nextId, i, buildingId, societyId, hash).users == r.users;
        SeedFromFresh(grown, nextId + 1, i + 1, buildingId, societyId, hash);
        assert FreshRows(grown, r.users);
        forall k | |users| <= k < |r.users|
          ensures !EmailTaken(r.users[..k], r.users[k].email)
        {
          if k == |users| {
            FreshAt(r.users, users, u);
          }
        }
      }
    }
  }

  /** The row right after an untouched prefix is fresh when its email is
      not in that prefix. */
  lemma FreshAt(s: seq<User>, prefix: seq<User>, u: User)
    requires |prefix| < |s| && s[..|prefix| + 1] == prefix + [u]
    requires !EmailTaken(prefix, u.email)
    ensures !EmailTaken(s[..|prefix|], s[|prefix|].email)
  {
    assert s[..|prefix|] == (prefix + [u])[..|prefix|] == prefix;
    assert s[|prefix|] == (prefix + [u])[|prefix|] == u;
  }

  /** After the loop from `i`, every demo email from `i` on is taken. */
  lemma {:induction false} SeedFromCoversAll(users: seq<User>, nextId: int, i: nat, buildingId: nat, societyId: int, hash: string)
    requires 1 <= i <= DemoCount + 1
    ensures var r := SeedFrom(users, nextId, i, buildingId, societyId, hash);
      forall j :: i <= j <= DemoCount ==> EmailTaken(r.users, DemoEmail(j, buildingId))
    decreases DemoCount + 1 - i
  {
    if i <= DemoCount {
      var email := DemoEmail(i, buildingId);
      var grown := if EmailTaken(users, email) then users else users + [DemoMember(nextId, i, buildingId, societyId, hash)];
      var next := if EmailTaken(users, email) then nextId else nextId + 1;
      var r := SeedFrom(grown, next, i + 1, buildingId, societyId, hash);
      assert SeedFrom(users, nextId, i, buildingId, societyId, hash).users == r.users;
      assert EmailTaken(grown, email) by {
        if !EmailTaken(users, email) {
          assert grown[|users|].email == email;
        }
      }
      TakenStaysTaken(grown, r.users, email);
      SeedFromCoversAll(grown, next, i + 1, buildingId, societyId, hash);
      forall j | i <= j <= DemoCount
        ensures EmailTaken(r.users, DemoEmail(j, buildingId))
      {
        if j == i {
          assert DemoEmail(j, buildingId) == email;
        } else {
          assert i + 1 <= j <= DemoCount;
        }
      }
    }
  }

  /** When every demo email from `i` on is already used, the loop inserts
      nothing. */
  lemma {:induction false} SeedFromAllTaken(users: seq<User>, nextId: int, i: nat, buildingId: nat, societyId: int, hash: string)
    requires 1 <= i <= DemoCount + 1
    requires forall j :: i <= j <= DemoCount ==> EmailTaken(users, DemoEmail(j, buildingId))
    ensures SeedFrom(users, nextId, i, buildingId, societyId, hash) == Seeded(users, nextId, 0)
    decreases DemoCount + 1 - i
  {
    if i <= DemoCount {
      assert EmailTaken(users, DemoEmail(i, buildingId));
      SeedFromAllTaken(users, nextId, i + 1, buildingId, societyId, hash);
    }
  }

  /** When none of the demo emails from `i` on is used yet, every insert
      succeeds. */
  lemma {:induction false} SeedFromNoneTaken(users: seq<User>, nextId: int, i: nat, buildingId: nat, societyId: int, hash: string)
    requires 1 <= i <= DemoCount + 1
    requires forall j :: i <= j <= DemoCount ==> !EmailTaken(users, DemoEmail(j, buildingId))
    ensures SeedFrom(users, nextId, i, buildingId, societyId, hash).created == DemoCount + 1 - i
    decreases DemoCount + 1 - i
  {
    if i <= DemoCount {
      var u := DemoMember(nextId, i, buildingId, societyId, hash);
      var grown := users + [u];
      forall j | i + 1 <= j <= DemoCount ensures !EmailTaken(grown, DemoEmail(j, buildingId)) {
        if DemoEmail(j, buildingId) == u.email {
          DemoEmailsDistinct(j, i, buildingId);
        }
        assert !EmailTaken(users, DemoEmail(j, buildingId));
      }
      SeedFromNoneTaken(grown, nextId + 1, i + 1, buildingId, societyId, hash);
    }
  }

  /** The success message of seed20. */
  function CreatedMsg(created: nat): string {
    "Demo members created: " + NatToString(created)
  }

  /** seed20: resolves the building's society (0 when missing) and aborts
      with a rollback unless it is positive; `fault` stands for a failed
      commit. The building id comes from the building-scope guard, which
      only returns positive ids. */
  function Seed20(db: Db, buildingId: int, env: Env, fault: bool): (r: PostResult)
    requires buildingId > 0
    ensures IdOr0(BuildingSociety(db.buildings, buildingId)) <= 0 || fault ==> r == Reject(db, SeedFailedMsg)
    ensures r.success.Some? ==>
      var s := SeedFrom(db.users, db.nextId, 1, buildingId, IdOr0(BuildingSociety(db.buildings, buildingId)), env.hash(DemoPassword));
      s.created <= DemoCount
      && r.db == db.(users := s.users, nextId := s.nextId)
      && r.success == Some(CreatedMsg(s.created))
    ensures r.success.Some? <==> IdOr0(BuildingSociety(db.buildings, buildingId)) > 0 && !fault
  {
    var societyId := IdOr0(BuildingSociety(db.buildings, buildingId));
    if societyId <= 0 || fault then Reject(db, SeedFailedMsg)
    else
      var s := SeedFrom(db.users, db.nextId, 1, buildingId, societyId, env.hash(DemoPassword));
      PostResult(db.(users := s.users, nextId := s.nextId), Some(CreatedMsg(s.created)), None, false)
  }

  /** seed20 on a building that already has every demo account creates
      nothing and reports 0. */
  lemma Seed20WhenAllPresent(db: Db, buildingId: int, env: Env)
    requires buildingId > 0 && IdOr0(BuildingSociety(db.buildings, buildingId)) > 0
    requires forall j :: 1 <= j <= DemoCount ==> EmailTaken(db.users, DemoEmail(j, buildingId))
    ensures Seed20(db, buildingId, env, false) == PostResult(db, Some(CreatedMsg(0)), None, false)
  {
    var societyId := IdOr0(BuildingSociety(db.buildings, buildingId));
    SeedFromAllTaken(db.users, db.nextId, 1, buildingId, societyId, env.hash(DemoPassword));
  }

  /** Running seed20 again right after a successful run inserts nothing. */
  lemma Seed20Idempotent(db: Db, buildingId: int, env: Env)
    requires buildingId > 0
    requires Seed20(db, buildingId, env, false).success.Some?
    ensures var db1 := Seed20(db, buildingId, env, false).db;
      Seed20(db1, buildingId, env, false) == PostResult(db1, Some(CreatedMsg(0)), None, false)
  {
    var db1 := Seed20(db, buildingId, env, false).db;
    assert db1.buildings == db.buildings;
    SeedFromCoversAll(db.users, db.nextId, 1, buildingId, IdOr0(BuildingSociety(db.buildings, buildingId)), env.hash(DemoPassword));
    Seed20WhenAllPresent(db1, buildingId, env);
  }

  /** On a building with none of the demo accounts, seed20 creates all
      twenty. */
  lemma Seed20OnEmptyBuilding(db: Db, buildingId: int, env: Env)
    requires buildingId > 0 && IdOr0(BuildingSociety(db.buildings, buildingId)) > 0
    requires forall j :: 1 <= j <= DemoCount ==> !EmailTaken(db.users, DemoEmail(j, buildingId))
    ensures |Seed20(db, buildingId, env, false).db.users| == |db.users| + DemoCount
  {
    var societyId := IdOr0(BuildingSociety(db.buildings, buildingId));
    SeedFromNoneTaken(db.users, db.nextId, 1, buildingId, societyId, env.hash(DemoPassword));
  }

  // ---------------------------------------------------------------------
  // add / status / delete / reset_password

  datatype AddForm = AddForm(name: string, email: string, password: string, status: Option<string>)

  /** The first failing validation of the add form, in source order. */
  function AddError(f: AddForm, env: Env): (e: Option<string>)
    ensures Trim(f.name) == [] || Trim(f.email) == [] || f.password == [] ==> e == Some("Name, email, password are required.")
    ensures (Trim(f.name) != [] && Trim(f.email) != [] && f.password != [] && !env.validEmail(Trim(f.email))) ==> e == Some("Invalid email.")
    ensures e.None? <==>
      Trim(f.name) != [] && Trim(f.email) != [] && f.password != [] && env.validEmail(Trim(f.email))
      && ValidAccountStatus(f.status.GetOr("active"))
  {
    if Trim(f.name) == "" || Trim(f.email) == "" || f.password == "" then Some("Name, email, password are required.")
    else if !env.validEmail(Trim(f.email)) then Some("Invalid email.")
    else if !ValidAccountStatus(f.status.GetOr("active")) then Some("Invalid status.")
    else None
  }

  /** add: inserts a member of this building; its society is looked up
      from the building (NULL when the building is gone). */
  function AddMember(db: Db, buildingId: int, f: AddForm, env: Env): (r: PostResult)
    ensures AddError(f, env).Some? ==> r == Reject(db, AddError(f, env).value)
    ensures AddError(f, env).None? && EmailTaken(db.users, Trim(f.email)) ==> r == Reject(db, "Failed to add (email may already exist).")
    ensures r.success.Some? <==> AddError(f, env).None? && !EmailTaken(db.users, Trim(f.email))
    ensures r.success.Some? ==>
      r.formCleared
      && r.db == db.(users := db.users + [User(db.nextId, Trim(f.name), Trim(f.email), env.hash(f.password), "member",
                                               BuildingSociety(db.buildings, buildingId), Some(buildingId), Some(f.status.GetOr("active")))],
                     nextId := db.nextId + 1)
  {
    var err := AddError(f, env);
    if err.Some? then Reject(db, err.value)
    else if EmailTaken(db.users, Trim(f.email)) then Reject(db, "Failed to add (email may already exist).")
    else
      var u := User(db.nextId, Trim(f.name), Trim(f.email), env.hash(f.password), "member",
                    BuildingSociety(db.buildings, buildingId), Some(buildingId), Some(f.status.GetOr("active")));
      PostResult(db.(users := db.users + [u], nextId := db.nextId + 1), Some("Member added."), None, true)
  }

  /** The rows the member statements reach: this id, a member, this
      building. */
  predicate Targets(u: User, id: int, buildingId: int) {
    u.id == id && IsMemberOf(u, buildingId)
  }

  /** Some row is reached (the statement's rowCount() would be positive). */
  predicate AnyTarget(users: seq<User>, id: int, buildingId: int) {
    exists k :: 0 <= k < |users| && Targets(users[k], id, buildingId)
  }

  /** Applies `change` to the targeted rows and leaves the others. */
  function UpdateTargets(users: seq<User>, id: int, buildingId: int, status: Option<string>, hash: Option<string>): (r: seq<User>)
    ensures |r| == |users|
    ensures forall k :: 0 <= k < |users| ==>
      r[k] == (if Targets(users[k], id, buildingId)
               then users[k].(status := if status.Some? then status else users[k].status, passwordHash := hash.GetOr(users[k].passwordHash))
               else users[k])
  {
    seq(|users|, k requires 0 <= k < |users| =>
      if Targets(users[k], id, buildingId)
      then users[k].(status := if status.Some? then status else users[k].status, passwordHash := hash.GetOr(users[k].passwordHash))
      else users[k])
  }

  /** status: sets the status of a member of this building. */
  function SetStatus(db: Db, buildingId: int, id: int, status: Option<string>): (r: PostResult)
    ensures id <= 0 || !ValidAccountStatus(status.GetOr("active")) ==> r == Reject(db, "Invalid request.")
    ensures r.success.Some? <==> id > 0 && ValidAccountStatus(status.GetOr("active"))
    ensures r.success.Some? ==> r.db == db.(users := UpdateTargets(db.users, id, buildingId, Some(status.GetOr("active")), None))
  {
    var s := status.GetOr("active");
    if id <= 0 || !ValidAccountStatus(s) then Reject(db, "Invalid request.")
    else PostResult(db.(users := UpdateTargets(db.users, id, buildingId, Some(s), None)), Some("Status updated."), None, false)
  }

  /** The rows a scoped delete keeps. */
  function RemoveTargets(users: seq<User>, id: int, buildingId: int): (r: seq<User>)
    ensures |r| <= |users|
    ensures forall u :: u in r <==> u in users && !Targets(u, id, buildingId)
    ensures !AnyTarget(users, id, buildingId) ==> r == users
  {
    if |users| == 0 then []
    else
      var rest := RemoveTargets(users[1..], id, buildingId);
      assert users == [users[0]] + users[1..];
      assert !AnyTarget(users, id, buildingId) ==> !AnyTarget(users[1..], id, buildingId) by {
        if AnyTarget(users[1..], id, buildingId) {
          var k :| 0 <= k < |users[1..]| && Targets(users[1..][k], id, buildingId);
          assert users[k + 1] == users[1..][k];
        }
      }
      if Targets(users[0], id, buildingId) then rest else [users[0]] + rest
  }

  /** delete: removes a member of this building; "Delete not allowed."
      when no row matched. */
  function DeleteMember(db: Db, buildingId: int, id: int): (r: PostResult)
    ensures id <= 0 ==> r == Reject(db, "Invalid request.")
    ensures id > 0 && !AnyTarget(db.users, id, buildingId) ==> r == Reject(db, "Delete not allowed.")
    ensures r.success.Some? <==> id > 0 && AnyTarget(db.users, id, buildingId)
    ensures r.db == db.(users := RemoveTargets(db.users, id, buildingId)) || r.db == db
    ensures r.success.Some? ==> r.db == db.(users := RemoveTargets(db.users, id, buildingId))
  {
    if id <= 0 then Reject(db, "Invalid request.")
    else if !AnyTarget(db.users, id, buildingId) then Reject(db, "Delete not allowed.")
    else PostResult(db.(users := RemoveTargets(db.users, id, buildingId)), Some("Member deleted."), None, false)
  }

  /** reset_password: replaces the hash of a member of this building;
      "Reset not allowed." when no row matched; `fault` stands for a
      database error. */
  function ResetPassword(db: Db, buildingId: int, id: int, newPassword: string, env: Env, fault: bool): (r: PostResult)
    ensures id <= 0 || newPassword == [] ==> r == Reject(db, "Member and new password are required.")
    ensures id > 0 && newPassword != [] && fault ==> r == Reject(db, "Failed to reset password.")
    ensures id > 0 && newPassword != [] && !fault && !AnyTarget(db.users, id, buildingId) ==>
      r == Reject(db, "Reset not allowed.")
    ensures r.success.Some? <==> id > 0 && newPassword != [] && !fault && AnyTarget(db.users, id, buildingId)
    ensures r.success.None? ==> r.db == db
    ensures r.success.Some? ==> r.db == db.(users := UpdateTargets(db.users, id, buildingId, None, Some(env.hash(newPassword))))
  {
    if id <= 0 || newPassword == "" then Reject(db, "Member and new password are required.")
    else if fault then Reject(db, "Failed to reset password.")
    else if !AnyTarget(db.users, id, buildingId) then Reject(db, "Reset not allowed.")
    else PostResult(db.(users := UpdateTargets(db.users, id, buildingId, None, Some(env.hash(newPassword)))),
                    Some("Password reset successful."), None, false)
  }

  /** None of status, delete or reset_password touches a row that is not a
      member of the caller's building. */
  lemma WritesStayInBuilding(db: Db, buildingId: int, id: int, status: Option<string>, pw: string, env: Env, fault: bool, u: User)
    requires u in db.users && !IsMemberOf(u, buildingId)
    ensures u in SetStatus(db, buildingId, id, status).db.users
    ensures u in DeleteMember(db, buildingId, id).db.users
    ensures u in ResetPassword(db, buildingId, id, pw, env, fault).db.users
  {
    var k :| 0 <= k < |db.users| && db.users[k] == u;
    assert !Targets(u, id, buildingId);
    var set1 := SetStatus(db, buildingId, id, status);
    if set1.success.Some? {
      assert set1.db.users[k] == u;
    }
    var reset := ResetPassword(db, buildingId, id, pw, env, fault);
    if reset.success.Some? {
      assert reset.db.users[k] == u;
    }
  }

  // ---------------------------------------------------------------------
  // Counters

  function CountActive(rows: seq<User>): nat {
    if |rows| == 0 then 0 else CountActive(rows[..|rows| - 1]) + (if rows[|rows| - 1].status == Some("active") then 1 else 0)
  }

  /** `$r['status'] === 'active'`: a NULL or any other status counts as
      inactive. */
  method StatusCounts(rows: seq<User>) returns (activeCount: nat, inactiveCount: nat)
    ensures activeCount + inactiveCount == |rows|
    ensures activeCount == CountActive(rows)
    ensures (forall k :: 0 <= k < |rows| ==> rows[k].status != Some("active")) ==> activeCount == 0
  {
    activeCount, inactiveCount := 0, 0;
    var i := 0;
    while i < |rows|
      invariant 0 <= i <= |rows|
      invariant activeCount + inactiveCount == i
      invariant activeCount == CountActive(rows[..i])
      invariant (forall k :: 0 <= k < i ==> rows[k].status != Some("active")) ==> activeCount == 0
    {
      assert rows[..i + 1][..i] == rows[..i];
      if rows[i].status == Some("active") {
        activeCount := activeCount + 1;
      } else {
        inactiveCount := inactiveCount + 1;
      }
      i := i + 1;
    }
    assert rows[..i] == rows;
  }
}

=== FILE: php_strings.dfy ===
/** String helpers mirroring the PHP built-ins the handlers rely on: trim,
    strtolower, empty(), input truncation, strcmp ordering and decimal
    rendering of integers. Strings are sequences of characters; PHP counts
    bytes, which agrees with this model on ASCII text. */
module PhpStrings {

  /** The characters PHP's trim() strips by default: space, tab, newline,
      carriage return, NUL and vertical tab. */
  predicate IsTrimChar(c: char) {
    c == ' ' || c == '\t' || c == '\n' || c == '\r' || c == '\0' || c as int == 11
  }

  /** PHP trim(): strips one trim character at a time, from the front
      while it starts with one and then from the back, until neither end
      is a trim character. */
  function Trim(s: string): (r: string)
    ensures |r| <= |s|
    ensures r == [] || (!IsTrimChar(r[0]) && !IsTrimChar(r[|r| - 1]))
    ensures r == [] <==> forall i :: 0 <= i < |s| ==> IsTrimChar(s[i])
    decreases |s|
  {
    if |s| > 0 && IsTrimChar(s[0]) then
      assert forall i :: 1 <= i < |s| ==> s[i] == s[1..][i - 1];
      Trim(s[1..])
    else if |s| > 0 && IsTrimChar(s[|s| - 1]) then
      assert forall i :: 0 <= i < |s| - 1 ==> s[i] == s[..|s| - 1][i];
      Trim(s[..|s| - 1])
    else s
  }

  /** `r` is the infix of `s` at `i` and everything around it is trim
      characters. */
  predicate StripsTo(s: string, r: string, i: int) {
    && 0 <= i <= |s| - |r|
    && (forall k :: 0 <= k < |r| ==> r[k] == s[i + k])
    && (forall k :: 0 <= k < i ==> IsTrimChar(s[k]))
    && (forall k :: i + |r| <= k < |s| ==> IsTrimChar(s[k]))
  }

  /** trim() removes trim characters from the two ends only: its result
      is the infix of `s` at some position, and everything before and
      after that infix is a trim character. */
  lemma {:induction false} TrimStrips(s: string)
    ensures exists i :: StripsTo(s, Trim(s), i)
    decreases |s|
  {
    if |s| > 0 && IsTrimChar(s[0]) {
      TrimStrips(s[1..]);
      var i :| StripsTo(s[1..], Trim(s), i);
      StripsFront(s, Trim(s), i);
    } else if |s| > 0 && IsTrimChar(s[|s| - 1]) {
      TrimStrips(s[..|s| - 1]);
      var i :| StripsTo(s[..|s| - 1], Trim(s), i);
      StripsBack(s, Trim(s), i);
    } else {
      assert StripsTo(s, Trim(s), 0);
    }
  }

  /** Putting a trim character in front moves the infix one place on. */
  lemma StripsFront(s: string, r: string, i: int)
    requires |s| > 0 && IsTrimChar(s[0]) && StripsTo(s[1..], r, i)
    ensures StripsTo(s, r, i + 1)
  {
    forall k | 0 <= k < |r| ensures r[k] == s[i + 1 + k] {
      assert r[k] == s[1..][i + k];
    }
    forall k | 0 <= k < i + 1 ensures IsTrimChar(s[k]) {
      if k > 0 { assert s[k] == s[1..][k - 1]; }
    }
    forall k | i + 1 + |r| <= k < |s| ensures IsTrimChar(s[k]) {
      assert s[k] == s[1..][k - 1];
    }
  }

  /** Putting a trim character at the back keeps the infix in place. */
  lemma StripsBack(s: string, r: string, i: int)
    requires |s| > 0 && IsTrimChar(s[|s| - 1]) && StripsTo(s[..|s| - 1], r, i)
    ensures StripsTo(s, r, i)
  {
    var t := s[..|s| - 1];
    forall k | 0 <= k < |r| ensures r[k] == s[i + k] {
      assert r[k] == t[i + k];
    }
    forall k | 0 <= k < i ensures IsTrimChar(s[k]) {
      assert s[k] == t[k];
    }
    forall k | i + |r| <= k < |s| ensures IsTrimChar(s[k]) {
      if k < |s| - 1 { assert s[k] == t[k]; }
    }
  }

  lemma TrimIdempotent(s: string)
    ensures Trim(Trim(s)) == Trim(s)
  {
    TrimNoop(Trim(s));
  }

  /** A string that neither starts nor ends with a trim character is its
      own trim. */
  lemma TrimNoop(s: string)
    requires s == [] || (!IsTrimChar(s[0]) && !IsTrimChar(s[|s| - 1]))
    ensures Trim(s) == s
  {
  }

  /** ASCII-only lower-casing, as PHP 8 strtolower() does. */
  function LowerChar(c: char): char {
    if 'A' <= c <= 'Z' then (c as int + 32) as char else c
  }

  function ToLower(s: string): (r: string)
    ensures |r| == |s|
    ensures forall i :: 0 <= i < |s| ==> r[i] == LowerChar(s[i])
  {
    seq(|s|, i requires 0 <= i < |s| => LowerChar(s[i]))
  }

  /** PHP empty() on a string: true for "" and for "0". */
  predicate PhpEmpty(s: string) {
    s == "" || s == "0"
  }

  /** input_string(): trim, then keep at most `maxLength` characters. */
  function InputString(s: string, maxLength: nat): (r: string)
    ensures |r| <= maxLength
    ensures r <= Trim(s)
    ensures |Trim(s)| <= maxLength ==> r == Trim(s)
    ensures maxLength > 0 ==> (r == [] <==> Trim(s) == [])
  {
    var t := Trim(s);
    if |t| > maxLength then t[..maxLength] else t
  }

  predicate IsDigit(c: char) {
    '0' <= c <= '9'
  }

  predicate AllDigits(s: string) {
    forall i :: 0 <= i < |s| ==> IsDigit(s[i])
  }

  function DigitChar(d: nat): (c: char)
    requires d < 10
    ensures IsDigit(c) && c as int - '0' as int == d
  {
    ('0' as int + d) as char
  }

  /** Decimal rendering of a natural number, as PHP's string interpolation
      of a non-negative int. */
  function NatToString(n: nat): (r: string)
    ensures |r| >= 1 && AllDigits(r)
    ensures |r| > 1 ==> r[0] != '0'
    decreases n
  {
    if n < 10 then [DigitChar(n)] else NatToString(n / 10) + [DigitChar(n % 10)]
  }

  /** The number a string of decimal digits denotes. */
  function DigitsValue(s: string): nat
    requires AllDigits(s)
  {
    if s == [] then 0 else DigitsValue(s[..|s| - 1]) * 10 + (s[|s| - 1] as int - '0' as int)
  }

  lemma {:induction false} NatToStringRoundTrip(n: nat)
    ensures DigitsValue(NatToString(n)) == n
    decreases n
  {
    if n >= 10 {
      NatToStringRoundTrip(n / 10);
      var s := NatToString(n);
      assert s[..|s| - 1] == NatToString(n / 10);
    }
  }

  lemma NatToStringInjective(m: nat, n: nat)
    requires NatToString(m) == NatToString(n)
    ensures m == n
  {
    NatToStringRoundTrip(m);
    NatToStringRoundTrip(n);
  }

  /** The longest prefix of `s` made of decimal digits. */
  function LeadingDigits(s: string): (r: string)
    ensures r <= s && AllDigits(r)
    ensures |r| < |s| ==> !IsDigit(s[|r|])
  {
    if |s| > 0 && IsDigit(s[0]) then [s[0]] + LeadingDigits(s[1..]) else []
  }

  lemma {:induction false} LeadingDigitsOfDigitsThenOther(d: string, rest: string)
    requires AllDigits(d)
    requires rest == [] || !IsDigit(rest[0])
    ensures LeadingDigits(d + rest) == d
    decreases |d|
  {
    if d != [] {
      assert (d + rest)[1..] == d[1..] + rest;
      LeadingDigitsOfDigitsThenOther(d[1..], rest);
    } else {
      assert d + rest == rest;
    }
  }

  /** strcmp(a, b) <= 0: lexicographic order on character codes. */
  predicate StrLe(a: string, b: string)
    decreases |a|
  {
    |a| == 0 || (|b| > 0 && (a[0] < b[0] || (a[0] == b[0] && StrLe(a[1..], b[1..]))))
  }

  lemma {:induction false} StrLeTotal(a: string, b: string)
    ensures StrLe(a, b) || StrLe(b, a)
    decreases |a|
  {
    if |a| > 0 && |b| > 0 && a[0] == b[0] {
      StrLeTotal(a[1..], b[1..]);
    }
  }

  lemma {:induction false} StrLeTrans(a: string, b: string, c: string)
    requires StrLe(a, b) && StrLe(b, c)
    ensures StrLe(a, c)
    decreases |a|
  {
    if |a| > 0 && a[0] == b[0] && b[0] == c[0] {
      StrLeTrans(a[1..], b[1..], c[1..]);
    }
  }
}

=== FILE: schema.dfy ===
/** The persistent tables and the session snapshot shared by every screen.
    The database is a single immutable record; auto-increment ids come from
    one shared counter. Foreign predicates (email validation, date parsing,
    password hashing) are carried as uninterpreted functions in `Env`. */
module Schema {
  import opened Wrappers

  /** The closed set of roles. Rows and sessions store the role as a loose
      string; `ParseRole` and `RoleName` convert between the two. */
  datatype Role = SocietyAdmin | SocietyPramukh | BuildingAdmin | Member

  function RoleName(r: Role): string {
    match r
    case SocietyAdmin => "society_admin"
    case SocietyPramukh => "society_pramukh"
    case BuildingAdmin => "building_admin"
    case Member => "member"
  }

  /** Exact, case-sensitive recognition of a role string. */
  function ParseRole(s: string): (r: Option<Role>)
    ensures r.Some? ==> RoleName(r.value) == s
    ensures r.None? ==> forall q: Role :: RoleName(q) != s
  {
    if s == "society_admin" then Some(SocietyAdmin)
    else if s == "society_pramukh" then Some(SocietyPramukh)
    else if s == "building_admin" then Some(BuildingAdmin)
    else if s == "member" then Some(Member)
    else None
  }

  lemma RoleNameRoundTrip(r: Role)
    ensures ParseRole(RoleName(r)) == Some(r)
  {
  }

  /** Roles whose scope is a society id. */
  predicate IsSocietyRole(r: Role) {
    r == SocietyAdmin || r == SocietyPramukh
  }

  /** Roles whose scope is a building id. */
  predicate IsBuildingRole(r: Role) {
    r == BuildingAdmin || r == Member
  }

  /** A row of the `users` table. Nullable columns are options. */
  datatype User = User(
    id: int,
    name: string,
    email: string,
    passwordHash: string,
    role: string,
    societyId: Option<int>,
    buildingId: Option<int>,
    status: Option<string>)

  /** The user snapshot kept in the session: a users row without its
      password column. */
  datatype SessionUser = SessionUser(
    id: int,
    name: string,
    email: string,
    role: string,
    societyId: Option<int>,
    buildingId: Option<int>,
    status: Option<string>)

  /** `(int)($x ?? 0)` for a nullable id column. */
  function IdOr0(o: Option<int>): int {
    o.GetOr(0)
  }

  datatype Building = Building(id: int, societyId: int, name: string)

  /** A ledger row of `society_fund` (owner = society id) or
      `building_fund` (owner = building id). Amounts are minor units. */
  datatype FundRow = FundRow(ownerId: int, amount: int, kind: string, description: string, date: string)

  datatype MaintenanceRow = MaintenanceRow(id: int, memberId: int, amount: int, month: string, status: string)

  datatype Meeting = Meeting(level: string, societyId: int, buildingId: Option<int>, title: string, date: string)

  /** The whole database. `fundTotals` maps a society id to its cached
      `fund_total`; `nextId` is the next auto-increment value. */
  datatype Db = Db(
    users: seq<User>,
    buildings: seq<Building>,
    fundTotals: map<int, int>,
    societyFund: seq<FundRow>,
    buildingFund: seq<FundRow>,
    maintenance: seq<MaintenanceRow>,
    meetings: seq<Meeting>,
    nextId: int)

  /** The foreign calls every handler may make, as uninterpreted functions:
      FILTER_VALIDATE_EMAIL, strtotime() succeeding, password_hash,
      password_verify, date('Y-m-d') and time(). */
  datatype Env = Env(
    validEmail: string -> bool,
    validDate: string -> bool,
    hash: string -> string,
    verify: (string, string) -> bool,
    today: string,
    now: int)

  /** `status` accepted by the account forms. */
  predicate ValidAccountStatus(s: string) {
    s == "active" || s == "inactive"
  }

  /** A member account of this building, whatever its status. */
  predicate IsMemberOf(u: User, buildingId: int) {
    u.buildingId == Some(buildingId) && u.role == "member"
  }

  predicate IsActiveMemberOf(u: User, buildingId: int) {
    IsMemberOf(u, buildingId) && u.status == Some("active")
  }

  /** A unique-index violation on `users.email` for an insert. */
  predicate EmailTaken(users: seq<User>, email: string) {
    exists i :: 0 <= i < |users| && users[i].email == email
  }

  /** `SELECT ... FROM buildings WHERE id = ?`: the society of a building. */
  function BuildingSociety(buildings: seq<Building>, id: int): (r: Option<int>)
    ensures r.Some? ==> exists i :: 0 <= i < |buildings| && buildings[i].id == id && buildings[i].societyId == r.value
    ensures r.None? ==> forall i :: 0 <= i < |buildings| ==> buildings[i].id != id
  {
    if |buildings| == 0 then None
    else if buildings[0].id == id then Some(buildings[0].societyId)
    else
      var r := BuildingSociety(buildings[1..], id);
      assert r.Some? ==> exists i :: 0 <= i < |buildings| && buildings[i].id == id && buildings[i].societyId == r.value by {
        if r.Some? {
          var j :| 0 <= j < |buildings[1..]| && buildings[1..][j].id == id && buildings[1..][j].societyId == r.value;
          assert buildings[j + 1] == buildings[1..][j];
        }
      }
      r
  }

  /** True iff a building with this id belongs to this society. */
  predicate BuildingInSociety(buildings: seq<Building>, buildingId: int, societyId: int) {
    exists i :: 0 <= i < |buildings| && buildings[i].id == buildingId && buildings[i].societyId == societyId
  }

  /** What a form handler leaves behind: the database, the flash messages
      it set, and whether it cleared the form (`$_POST = []`). */
  datatype PostResult = PostResult(db: Db, success: Option<string>, error: Option<string>, formCleared: bool)

  /** A rejected request: nothing written, one error message. */
  function Reject(db: Db, message: string): (r: PostResult)
    ensures r.db == db && r.error == Some(message) && r.success.None? && !r.formCleared
  {
    PostResult(db, None, Some(message), false)
  }
}

=== FILE: society_fund.dfy ===
/** The POST path of backend/admin/society_fund.php: validate the form,
    then insert the ledger row and adjust the society's cached fund total
    in one transaction. */
module SocietyFund {
  import opened Wrappers
  import opened PhpStrings
  import opened Schema
  import opened Ledger

  const AddedMsg: string := "Transaction added."
  const SaveFailedMsg: string := "Failed to save."

  /** One POST by the admin of `societyId`. */
  function PostSocietyFund(db: Db, societyId: int, f: FundForm, fault: TxFault): (r: PostResult)
    ensures r.db.fundTotals.Keys == db.fundTotals.Keys
    ensures ValidateFundForm(f).Invalid? ==> r == Reject(db, ValidateFundForm(f).message)
    ensures r.success.Some? <==> ValidateFundForm(f).Valid? && fault == NoFault
    ensures r.success.Some? ==>
      r.success == Some(AddedMsg) && r.formCleared
      && r.db.societyFund == db.societyFund + [FundRow(societyId, f.amount.value, f.kind, Trim(f.description), f.date)]
      && (societyId in db.fundTotals ==> r.db.fundTotals[societyId] == db.fundTotals[societyId] + Delta(ValidateFundForm(f).t, f.amount.value))
      && r.db == db.(societyFund := r.db.societyFund, fundTotals := r.db.fundTotals)
    ensures ValidateFundForm(f).Valid? && fault != NoFault ==> r == Reject(db, SaveFailedMsg)
    ensures r.success.None? ==> r.db == db
    ensures forall s :: s in db.fundTotals ==> s in r.db.fundTotals && Drift(r.db, s) == Drift(db, s)
  {
    var description := Trim(f.description);
    match ValidateFundForm(f)
    case Invalid(message) => Reject(db, message)
    case Valid(t, amount) =>
      var (db1, committed) := RunFundTransaction(db, societyId, t, amount, description, f.date, fault);
      if committed then PostResult(db1, Some(AddedMsg), None, true)
      else Reject(db, SaveFailedMsg)
  }

  /** The cached total and the ledger never drift apart: if they agree
      before any sequence of POSTs, they agree after it. */
  lemma {:induction false} FundTotalMatchesLedger(db: Db, posts: seq<(int, FundForm, TxFault)>, s: int)
    requires s in db.fundTotals && Drift(db, s) == 0
    ensures var d := ReplayPosts(db, posts);
      s in d.fundTotals && d.fundTotals[s] == SignedSum(d.societyFund, s)
    decreases |posts|
  {
    if |posts| > 0 {
      var (sid, f, fault) := posts[0];
      FundTotalMatchesLedger(PostSocietyFund(db, sid, f, fault).db, posts[1..], s);
    }
  }

  /** A sequence of POSTs (by admins of possibly different societies),
      applied in order. */
  function ReplayPosts(db: Db, posts: seq<(int, FundForm, TxFault)>): (r: Db)
    ensures r.fundTotals.Keys == db.fundTotals.Keys
    decreases |posts|
  {
    if |posts| == 0 then db
    else
      var (sid, f, fault) := posts[0];
      ReplayPosts(PostSocietyFund(db, sid, f, fault).db, posts[1..])
  }
}

=== FILE: users.dfy ===
/** The society-admin users screen (backend/admin/users.php): create and
    update society-level and building-admin accounts, and the edit-form
    lookup. Member accounts are out of this screen's reach. */
module Users {
  import opened Wrappers
  import opened PhpStrings
  import opened Schema

  /** The roles this screen may assign: every role except `member`. */
  predicate AssignableRole(role: string) {
    role == "society_admin" || role == "society_pramukh" || role == "building_admin"
  }

  /** The assignable roles are exactly the known non-member roles. */
  lemma AssignableRoleIsNonMember(role: string)
    ensures AssignableRole(role) <==> ParseRole(role).Some? && ParseRole(role).value != Member
  {
  }

  /** `in_array($role, ['building_admin','member'], true) && $buildingId <= 0` */
  predicate MissingBuilding(role: string, buildingId: int) {
    (role == "building_admin" || role == "member") && buildingId <= 0
  }

  /** A building id column value: NULL unless positive. */
  function StoredBuilding(buildingId: int): (o: Option<int>)
    ensures o.Some? <==> buildingId > 0
    ensures o.Some? ==> o.value == buildingId
  {
    if buildingId > 0 then Some(buildingId) else None
  }

  datatype CreateForm = CreateForm(name: string, email: string, password: string, role: string, status: Option<string>, buildingId: int)

  /** The first failing validation of the create form, in source order. */
  function CreateError(f: CreateForm, env: Env): (e: Option<string>)
    ensures Trim(f.name) == [] || Trim(f.email) == [] || f.password == [] ==> e == Some("Name, email, password are required.")
    ensures e.None? <==>
      Trim(f.name) != [] && Trim(f.email) != [] && f.password != [] && env.validEmail(Trim(f.email))
      && AssignableRole(f.role) && ValidAccountStatus(f.status.GetOr("active")) && !MissingBuilding(f.role, f.buildingId)
    ensures e.Some? && Trim(f.name) != [] && Trim(f.email) != [] && f.password != [] ==>
      e.value == (if !env.validEmail(Trim(f.email)) then "Invalid email."
                  else if !AssignableRole(f.role) then "Invalid role."
                  else if !ValidAccountStatus(f.status.GetOr("active")) then "Invalid status."
                  else "Building is required for building roles.")
  {
    var name := Trim(f.name);
    var email := Trim(f.email);
    if name == "" || email == "" || f.password == "" then Some("Name, email, password are required.")
    else if !env.validEmail(email) then Some("Invalid email.")
    else if !AssignableRole(f.role) then Some("Invalid role.")
    else if !ValidAccountStatus(f.status.GetOr("active")) then Some("Invalid status.")
    else if MissingBuilding(f.role, f.buildingId) then Some("Building is required for building roles.")
    else None
  }

  /** create: inserts an account in the caller's society; the unique
      index on users.email can refuse it. */
  function CreateUser(db: Db, societyId: int, f: CreateForm, env: Env): (r: PostResult)
    ensures CreateError(f, env).Some? ==> r == Reject(db, CreateError(f, env).value)
    ensures CreateError(f, env).None? && EmailTaken(db.users, Trim(f.email)) ==>
      r == Reject(db, "Failed to create user (email may already exist).")
    ensures r.success.Some? <==> CreateError(f, env).None? && !EmailTaken(db.users, Trim(f.email))
    ensures r.success.None? ==> r.db == db
    ensures r.success.Some? ==>
      r.formCleared
      && r.db == db.(users := db.users + [User(db.nextId, Trim(f.name), Trim(f.email), env.hash(f.password), f.role,
                                               Some(societyId), StoredBuilding(f.buildingId), Some(f.status.GetOr("active")))],
                     nextId := db.nextId + 1)
  {
    var err := CreateError(f, env);
    if err.Some? then Reject(db, err.value)
    else if EmailTaken(db.users, Trim(f.email)) then Reject(db, "Failed to create user (email may already exist).")
    else
      var u := User(db.nextId, Trim(f.name), Trim(f.email), env.hash(f.password), f.role,
                    Some(societyId), StoredBuilding(f.buildingId), Some(f.status.GetOr("active")));
      PostResult(db.(users := db.users + [u], nextId := db.nextId + 1), Some("User created."), None, true)
  }

  /** Every account this screen creates is a non-member of the caller's
      society, and a building admin always gets a building. */
  lemma CreatedAccountShape(db: Db, societyId: int, f: CreateForm, env: Env)
    requires CreateUser(db, societyId, f, env).success.Some?
    ensures var u := CreateUser(db, societyId, f, env).db.users[|db.users|];
      u.role != "member" && u.societyId == Some(societyId)
      && (u.role == "building_admin" ==> u.buildingId.Some? && u.buildingId.value > 0)
  {
  }

  /** The building id is not checked against the caller's society: an
      admin may attach a user to another society's building. */
  lemma CreateAcceptsForeignBuilding(db: Db, env: Env)
    requires db.buildings == [Building(5, 2, "A Wing")] && db.users == []
    requires env.validEmail("x@y.z")
    ensures var r := CreateUser(db, 1, CreateForm("X", "x@y.z", "pw", "building_admin", None, 5), env);
      r.success.Some? && r.db.users[0].societyId == Some(1) && r.db.users[0].buildingId == Some(5)
      && !BuildingInSociety(db.buildings, 5, 1)
  {
    var f := CreateForm("X", "x@y.z", "pw", "building_admin", None, 5);
    ForeignFormValid(env);
    assert !EmailTaken(db.users, f.email);
    var r := CreateUser(db, 1, f, env);
    assert r.db.users == [User(db.nextId, "X", "x@y.z", env.hash("pw"), "building_admin", Some(1), Some(5), Some("active"))];
    assert db.buildings[0].societyId == 2;
  }

  /** The form of CreateAcceptsForeignBuilding is already trimmed and
      passes every validation. */
  lemma ForeignFormValid(env: Env)
    requires env.validEmail("x@y.z")
    ensures Trim("X") == "X" && Trim("x@y.z") == "x@y.z"
    ensures CreateError(CreateForm("X", "x@y.z", "pw", "building_admin", None, 5), env).None?
  {
    var f := CreateForm("X", "x@y.z", "pw", "building_admin", None, 5);
    var email := "x@y.z";
    assert email[0] == 'x' && email[|email| - 1] == 'z';
    TrimNoop(email);
    TrimNoop(f.name);
    assert Trim(f.name) != [] && Trim(f.email) != [] && f.password != [];
    assert env.validEmail(Trim(f.email));
    assert AssignableRole(f.role) && !MissingBuilding(f.role, f.buildingId);
    assert ValidAccountStatus(f.status.GetOr("active"));
  }

  datatype UpdateForm = UpdateForm(id: int, name: string, role: string, status: Option<string>, buildingId: int, newPassword: string)

  /** The first failing validation of the update form, in source order. */
  function UpdateError(f: UpdateForm): (e: Option<string>)
    ensures f.id <= 0 || Trim(f.name) == [] ==> e == Some("Invalid request.")
    ensures e.None? <==>
      f.id > 0 && Trim(f.name) != [] && AssignableRole(f.role) && ValidAccountStatus(f.status.GetOr("active"))
      && !MissingBuilding(f.role, f.buildingId)
    ensures e.Some? && f.id > 0 && Trim(f.name) != [] ==>
      e.value == (if !AssignableRole(f.role) then "Invalid role."
                  else if !ValidAccountStatus(f.status.GetOr("active")) then "Invalid status."
                  else "Building is required for building roles.")
  {
    if f.id <= 0 || Trim(f.name) == "" then Some("Invalid request.")
    else if !AssignableRole(f.role) then Some("Invalid role.")
    else if !ValidAccountStatus(f.status.GetOr("active")) then Some("Invalid status.")
    else if MissingBuilding(f.role, f.buildingId) then Some("Building is required for building roles.")
    else None
  }

  /** The rows the update statements reach: this id, this society, and
      not a member. */
  predicate Editable(u: User, id: int, societyId: int) {
    u.id == id && u.societyId == Some(societyId) && u.role != "member"
  }

  /** Both UPDATE statements of one request applied to one row. */
  function UpdatedUser(u: User, f: UpdateForm, hash: Option<string>): User {
    u.(name := Trim(f.name), role := f.role, status := Some(f.status.GetOr("active")),
       buildingId := StoredBuilding(f.buildingId), passwordHash := hash.GetOr(u.passwordHash))
  }

  function ApplyUpdate(users: seq<User>, societyId: int, f: UpdateForm, hash: Option<string>): (r: seq<User>)
    ensures |r| == |users|
    ensures forall k :: 0 <= k < |users| ==>
      r[k] == (if Editable(users[k], f.id, societyId) then UpdatedUser(users[k], f, hash) else users[k])
  {
    seq(|users|, k requires 0 <= k < |users| =>
      if Editable(users[k], f.id, societyId) then UpdatedUser(users[k], f, hash) else users[k])
  }

  /** update: both statements run in one transaction; `fault` stands for
      a database error, which rolls both back. */
  function UpdateUser(db: Db, societyId: int, f: UpdateForm, env: Env, fault: bool): (r: PostResult)
    ensures UpdateError(f).Some? ==> r == Reject(db, UpdateError(f).value)
    ensures UpdateError(f).None? && fault ==> r == Reject(db, "Failed to update.")
    ensures r.success.Some? <==> UpdateError(f).None? && !fault
    ensures r.db == db.(users := r.db.users)
    ensures r.success.Some? ==>
      r.db.users == ApplyUpdate(db.users, societyId, f, if f.newPassword == "" then None else Some(env.hash(f.newPassword)))
  {
    var err := UpdateError(f);
    if err.Some? then Reject(db, err.value)
    else if fault then Reject(db, "Failed to update.")
    else
      var hash := if f.newPassword == "" then None else Some(env.hash(f.newPassword));
      PostResult(db.(users := ApplyUpdate(db.users, societyId, f, hash)), Some("User updated."), None, false)
  }

  /** Member rows and rows of other societies are never modified, and the
      stored hash changes only when a new password was given. */
  lemma UpdateIsScoped(db: Db, societyId: int, f: UpdateForm, env: Env, fault: bool, k: nat)
    requires k < |db.users|
    ensures var r := UpdateUser(db, societyId, f, env, fault);
      |r.db.users| == |db.users|
      && (db.users[k].role == "member" || db.users[k].societyId != Some(societyId) ==> r.db.users[k] == db.users[k])
      && (f.newPassword == "" ==> r.db.users[k].passwordHash == db.users[k].passwordHash)
      && (r.db.users[k] != db.users[k] ==> db.users[k].id == f.id && r.db.users[k].role != "member")
  {
  }

  /** The edit form: loads a non-member account of this society. */
  function EditRow(users: seq<User>, societyId: int, editId: int): (r: Option<User>)
    ensures r.Some? ==> r.value in users && Editable(r.value, editId, societyId)
    ensures r.None? <==> forall u :: u in users ==> !Editable(u, editId, societyId)
  {
    if |users| == 0 then None
    else if Editable(users[0], editId, societyId) then Some(users[0])
    else
      assert users == [users[0]] + users[1..];
      EditRow(users[1..], societyId, editId)
  }

  /** The error shown on GET ?action=edit&id=...: "Not allowed." exactly
      when no editable row has that id. */
  function EditFormError(users: seq<User>, societyId: int, action: string, editId: int): (e: Option<string>)
    ensures e.Some? <==> action == "edit" && editId > 0 && forall u :: u in users ==> !Editable(u, editId, societyId)
    ensures e.Some? ==> e.value == "Not allowed."
  {
    if action == "edit" && editId > 0 && EditRow(users, societyId, editId).None? then Some("Not allowed.") else None
  }
}

=== FILE: wrappers.dfy ===
/** The optional-value datatype used for nullable columns, missing request
    fields and lookups that may find nothing. */
module Wrappers {

  datatype Option<+T> = None | Some(value: T) {

    /** PHP's `$x ?? $default`: the value when present, the default otherwise. */
    function GetOr(default: T): T {
      match this
      case Some(v) => v
      case None => default
    }
  }
}
